=== FILE: README.md ===
# VolcEngine visual-API client, modelled in Dafny

This project models the core of a Python client for VolcEngine's visual
API. The client signs requests with VolcEngine's HMAC-SHA256 scheme, a
variant of AWS Signature Version 4. It submits long-running media jobs
(digital-human roles and videos, creative effects, lip sync, outfit
swaps, video driving, action mimicry) and polls the service until each
job is done. The model states and proves what each piece promises.

Modules, leaves first:

- `Wrappers`, `Text`, `Sorting`, `Dicts`: results and options; the string
  operations Python provides (`strip`, `lower`, `split`, decimal
  rendering); sorting; and insertion-ordered dicts with Python's update
  semantics.
- `Py`: JSON values, Python truthiness, `dict.get`/`[]` with their errors,
  exceptions as `Exc(kind, msg)`, and the two abstract parameters. A
  `Codec` supplies `json.dumps`, `json.loads` (which may fail) and `str()`.
  A `Crypto` supplies SHA-256 and HMAC-SHA256 in hex.
- `Utils`: the `retry` decorator, `validate_url`, `validate_mode` and the
  mode lookup tables.
- `Canonical`, `Signer`: query and header canonicalisation, the canonical
  request, the credential scope, the string to sign, the four-step key
  chain and the `Authorization` value.
- `Request`: the request body, the signed envelope and the transport
  outcome. The envelope is modelled for the shared base client and for
  the two older stand-alone clients. The transport outcome maps timeouts,
  connection failures and HTTP errors to exceptions.
- `Tasks`: the submit and result-query idioms the feature clients share.
- `Poll`: one generic `wait_for_completion` loop. Each client supplies its
  own test of a result (finished, lost, keep going), its timeout error and
  its queries.
- One module per feature client: `AudioDriven`, `Jimeng` (the older
  stand-alone OmniHuman client), `OmniHuman` (what that client shares with
  the newer one), `Omni`, `Effect`, `LipSync`, `Outfit`, `Driven` (video
  driving and action mimicry), and `Avatars` (the in-memory avatar store).

Abstract parameters stand in for the network, the clock, JSON, `str()`,
HMAC and SHA-256. A service reply is a given value. The poll loops
observe a function from the query number to the reply and to the seconds
the query took. Sleeping is a clock advance.

Where the code and its design disagree, the model follows the code:

- Headers are sorted by their key as given, not by its lower-case form.
- Header values keep their case.
- The base client reads the clock a second time for `X-Date`.
- The two older clients hash only the caller's data for `X-Content-Sha256`.

The last two are listed under Findings.

## Model

| member | source | states |
|---|---|---|
| Utils.RetryFrom | src/utils.py:24-36 | from attempt `i` on, the loop makes between `i+1` and `max_retries+1` calls, pauses once fewer than it calls, hands back the last attempt's outcome, every earlier attempt failed with a caught exception, and it stops before the limit only on a success or an uncaught exception |
| Utils.Retry | src/utils.py:10-36 | the decorated call runs at most `max_retries+1` times, returns the first success or raises the last error as it is, with exactly one pause between consecutive attempts; a negative `max_retries` runs nothing and raises from `raise None` |
| Utils.RetryFromCongruent | src/utils.py:24-34 | the loop's outcome depends only on what each attempt returns |
| Utils.RetryCongruent | src/utils.py:19-38 | two wrapped functions whose attempts agree give the same decorated run |
| Utils.RetryExhausted | src/utils.py:27-36 | when every attempt raises a caught exception, the call runs `max_retries+1` times, pauses `max_retries` times and re-raises the final attempt's exception object |
| Utils.RetrySucceedsAt | src/utils.py:24-31 | after `k` caught failures, a success at attempt `k` is returned unchanged after exactly `k` pauses |
| Utils.RetryStopsOnUncaught | src/utils.py:24-27 | an exception outside the `exceptions` tuple propagates from the attempt that raised it, without a retry or a further pause |
| Utils.ValidateUrlScheme | src/utils.py:42-55 | a URL is valid iff it starts with `http://` or `https://` and is longer than ten characters; the emptiness test adds nothing |
| Utils.ModeDescriptionKnownIffValid | src/utils.py:58-87 | a mode has its own description iff `validate_mode` accepts it (exactly `normal`, `loopy`, `loopyb`), any other mode gets `未知模式`, and distinct valid modes have distinct descriptions |
| Utils.AudioLengthLimits | src/utils.py:113-128 | the limit is 45 seconds iff the mode is `loopyb`, and 180 for every other mode, known or not |
| Utils.OutputResolutionMatchesRatio | src/utils.py:131-153 | a fixed frame exists iff the mode is `loopy`, or `loopyb` with a ratio; each named `a:b` ratio gives a frame in proportion `a:b`; an unknown ratio or `loopy` gives 512x512 |
| Tasks.Submitted | src/core/video_audio_driven_client.py:214-222 | a submit returns `response["data"]["task_id"]` iff the code is 10000 and both keys exist; any other code raises the failure text followed by the response's `message`, or `未知错误` |
| Tasks.Queried | src/core/video_audio_driven_client.py:240-268 | every error a result query raises is an `Exception` whose text starts with the query's wrapper text |
| Tasks.QueriedShape | src/core/video_audio_driven_client.py:240-265 | a query returns only for a response with code 10000 and a `data.status`; when that status is `done` its `resp_data` is a string that `json.loads` accepts, parsed to a dict with code 0, and the result is the done branch's value; otherwise the result is the `{status, message}` report |
| Tasks.QueriedForms | src/core/video_audio_driven_client.py:249-265 | a query's answer is either a done-branch value or the status report of an unfinished task |
| Tasks.StatusReportKeys | src/core/video_audio_driven_client.py:265 | a status report carries only `status` and `message`, with the task's status |
| Tasks.VideoMeta | src/core/video_audio_driven_client.py:370-372 | a falsy value yields no metadata; a dict yields its `VideoMeta` entry, if any; a non-empty list or string raises `TypeError` exactly when it contains the word and otherwise yields none, as Python's `in` and subscription would; a number or `True` raises the `TypeError` of `in`; every error is a `TypeError` |
| Tasks.CopyIf | src/core/video_lip_sync_client.py:89-109 | a keyword argument is copied into the payload iff it was passed and the mode allows it; nothing else changes |
| Tasks.SetWhen | src/core/video_lip_sync_client.py:97-104 | a field is set to a value iff the condition holds; nothing else changes |
| Tasks.Appended | src/core/video_audio_driven_client.py:365-372 | a result field is added only when there is a value for it; nothing else changes |
| Tasks.SetIfTruthy | src/core/video_jimeng_client.py:362-383 | an optional field is added iff its value is truthy; nothing else changes |
| Canonical.CanonicalQuery | src/core/base_volcengine_client.py:155-162 | an empty query stays empty; otherwise the result has the same length, and its `&`-separated parameters are sorted and are a permutation of the input's parameters |
| Canonical.CanonicalQuerySorted | src/core/base_volcengine_client.py:160-162 | the sorted parameters contain no `&`, so splitting their join gives them back, and the join is as long as the input |
| Canonical.SortedJoinLength | src/core/base_volcengine_client.py:160-162 | re-joining the sorted parameters keeps the query's length |
| Canonical.JoinedLengthSort | src/core/base_volcengine_client.py:161 | sorting keeps the total length of the parameters |
| Canonical.NoSepInPermutation | src/core/base_volcengine_client.py:160-161 | a permutation of `&`-free parameters is `&`-free |
| Canonical.CanonicalQueryIdempotent | src/core/base_volcengine_client.py:155-162 | canonicalising a canonical query string changes nothing |
| Canonical.SortedUnique | src/core/base_volcengine_client.py:161 | two sorted lists with the same elements are equal, so the sorted order is fully determined by the parameters |
| Canonical.QueryOrderIrrelevant | src/core/base_volcengine_client.py:155-162 | two queries with the same parameters in any order canonicalise to the same string |
| Canonical.CanonicalHeadersForm | src/core/base_volcengine_client.py:164-176 | the header order is sorted by the name as given and is a permutation of the headers; the block is one newline-terminated line per header, or a single newline when there are none; the signed list splits back into the same names in the same order and number |
| Canonical.LineNewlines | src/core/base_volcengine_client.py:170-171 | a canonical header line holds a newline only where the header's name or value holds one inside it: lower-casing and stripping add none |
| Canonical.NameSemicolons | src/core/base_volcengine_client.py:174 | a signed header name holds a `;` only where the header's own name does |
| Canonical.HeaderBlockSplits | src/core/base_volcengine_client.py:167-173 | for headers free of newlines, the block ends in a newline and, without it, splits on newlines back into exactly the header lines in sorted order |
| Canonical.NameOfPlain | src/core/base_volcengine_client.py:171 | a header name without surrounding whitespace is signed in its lower-case form |
| Canonical.ClientHeadersSorted | src/core/base_volcengine_client.py:72-76 | the three headers a request signs are already in sorted order |
| Canonical.ClientHeaderNames | src/core/base_volcengine_client.py:72-76 | the three headers are signed as `content-type`, `host` and `x-content-sha256` |
| Canonical.SignedRequestHeaders | src/core/base_volcengine_client.py:72-81 | the signed-header list of every request is exactly `content-type;host;x-content-sha256`, whatever the header values |
| Signer.DateStamp | src/core/base_volcengine_client.py:127 | `%Y%m%d` of a clock reading is eight decimal digits |
| Signer.Timestamp | src/core/base_volcengine_client.py:126 | `%Y%m%dT%H%M%SZ` of a clock reading is sixteen characters |
| Signer.TimestampRoundTrip | src/core/base_volcengine_client.py:125-127 | the timestamp parses back to the clock reading it came from, and its first eight characters are the date stamp of the same reading |
| Signer.TimestampFields | src/core/base_volcengine_client.py:126-127 | where each zero-padded field, the `T` and the `Z` sit in the timestamp |
| Signer.ParseReads | src/core/base_volcengine_client.py:126 | a stamp whose two-digit groups read as a reading's fields parses as that reading |
| Signer.Pad2Reads | src/core/base_volcengine_client.py:126 | a zero-padded two-digit field reads back as its number |
| Signer.SignatureSeesBodyDigestOnly | src/core/base_volcengine_client.py:136-148 | the body enters the signature only through its SHA-256 digest: bodies with equal digests are signed alike |
| Signer.SignatureSensitiveToBody | src/core/base_volcengine_client.py:136-148 | with collision-free hash, hex and HMAC, two different bodies signed at the same instant get different signatures |
| Signer.StringToSignLayout | src/core/base_volcengine_client.py:124-141 | the string to sign is exactly four lines: the algorithm, the full timestamp, the credential scope and the canonical request's digest; the scope's date is the timestamp's date from the same clock reading |
| Signer.SplitFourLines | src/core/base_volcengine_client.py:141 | four newline-free lines joined by newlines split back into them |
| Signer.TimestampSingleLine | src/core/base_volcengine_client.py:126-127 | neither stamp contains a newline |
| Signer.AuthorizationCarriesScope | src/core/base_volcengine_client.py:139-151 | `Authorization` starts with `HMAC-SHA256 Credential=<access key>/<date>/` for the signing date, and ends with `, Signature=<signature>` |
| Request.WithTaskFacts | src/core/base_volcengine_client.py:63-65 | the body with `task_id` added has no duplicate key, keeps `req_key` first, and holds `task_id` only when it is truthy |
| Request.KeyedBodyFacts | src/core/base_volcengine_client.py:63-67 | before the caller's fields the body has `req_key` first, and `task_id` and `req_json` only when truthy, with no duplicate key |
| Request.BodyContents | src/core/base_volcengine_client.py:63-69 | a lookup in the body finds the caller's field when there is one, else `req_key` always and `task_id`/`req_json` only when truthy; the body has no duplicate key and serialises with `req_key` first |
| Request.SignedPart | src/core/base_volcengine_client.py:72-76 | the signed headers are `Content-Type`, `Host` and `X-Content-Sha256` with the given digest, in that order |
| Request.Stamped | src/core/base_volcengine_client.py:83-93 | the sent envelope keeps the signed headers first, then carries exactly the given `Authorization` and `X-Date` |
| Request.EnvelopeHeaders | src/core/base_volcengine_client.py:86-87 | adding `Authorization` and `X-Date` after signing leaves the three signed headers and the digest untouched |
| Request.SignedEnvelope | src/core/base_volcengine_client.py:60-93 | the envelope built with one clock reading verifies: its digest is over the body sent, and recomputing the signature from the signed headers, the body and the time in `X-Date` reproduces `Authorization` |
| Request.VerifiesAt | src/core/base_volcengine_client.py:75-87 | an envelope whose headers carry the body's digest, the time `now` and the signature computed at `now` verifies |
| Request.BaseEnvelopeSameInstant | src/core/base_volcengine_client.py:81-87 | when both clock reads give the same time, the base client's envelope is the verifying one |
| Request.DateStampsDiffer | src/core/base_volcengine_client.py:127 | readings on different days have different date stamps |
| Request.ScopeDatesDiffer | src/core/base_volcengine_client.py:140-151 | two `Authorization` values whose scopes name different dates differ |
| Request.BaseXDateMissesSignedTime | src/core/base_volcengine_client.py:81-87 | as written, a request signed in the last second of a day whose `X-Date` is read in the next day's first second does not verify |
| Request.LegacyDigestMissesBody | src/core/video_audio_driven_client.py:141-156 | as written in the older clients, `X-Content-Sha256` hashes `data or {}` rather than the body that is sent, so with a collision-free serialiser and hash the request never verifies |
| Request.OutcomeReturnsDecodedJson | src/core/base_volcengine_client.py:92-108 | a call returns exactly when a non-error response decoded as JSON, and then returns that JSON; the older clients differ only on HTTP errors |
| Request.HttpErrorIsRawText | src/core/base_volcengine_client.py:100-106 | every HTTP error surfaces the raw response text, because the bare `except` catches the exception raised inside its own `try` |
| Request.StatusMessagesDistinct | src/core/video_audio_driven_client.py:178-188 | the audio-driven client's HTTP error messages are equal iff the codes are equal or both are server errors: 401, 403 and 429 have their own texts, and any other code is named in a generic message |
| Request.CheckUrl | src/core/base_volcengine_client.py:190-227 | a URL check passes iff `validate_url` holds, and otherwise raises `ValueError` with the image, video or audio message |
| Poll.LostTaskEscapes | src/core/video_audio_driven_client.py:411-422 | the exception raised for a lost task carries the `任务异常` marker, so the loop's own handler re-raises it |
| Poll.Loop | src/core/video_audio_driven_client.py:397-426 | from query `i`: a timeout is raised only once the deadline has passed; otherwise the loop returns the last query's answer only when the client's test says finished, raises only errors carrying the marker, and the number of queries is bounded by the time left divided by `check_interval` |
| Poll.PollBound | src/core/video_audio_driven_client.py:418-424 | each swallowed or unfinished query advances the clock by at least `check_interval`, which bounds the remaining queries |
| Poll.WaitReturns | src/core/video_audio_driven_client.py:408-415 | a returned wait hands back the last query's answer, which the client's test judged finished |
| Poll.WaitBounded | src/core/video_audio_driven_client.py:397-426 | a non-positive `max_wait_time` raises the timeout without querying; otherwise the loop queries at least once and at most `ceil(max_wait_time / check_interval)` times |
| Poll.FirstAnswerFinishes | src/core/video_audio_driven_client.py:399-415 | a first answer that finishes the task is returned at once |
| Poll.NeverFinishingTimesOut | src/core/video_audio_driven_client.py:399-426 | when every answer keeps the task going or is a swallowed error, the loop ends only at the deadline |
| Poll.InstantQueriesElapse | src/core/video_audio_driven_client.py:417-418 | with instantaneous unfinished queries the clock advances exactly one `check_interval` per query |
| Poll.InstantQueriesCount | src/core/video_audio_driven_client.py:397-426 | with instantaneous unfinished queries the loop makes exactly `ceil(max_wait_time / check_interval)` queries before timing out |
| Poll.AudioVerdict | src/core/video_audio_driven_client.py:408-415 | the audio-driven test fails (a swallowed error) exactly when the answer is not a dict |
| Poll.JimengVerdict | src/core/video_jimeng_client.py:486-510 | the Jimeng test fails exactly when the answer is not a dict |
| Poll.DrivenVerdict | src/core/video_video_driven_client.py:152-173 | the video-driven and mimic test fails exactly when the answer is not a dict |
| Poll.DrivenFinishes | src/core/video_video_driven_client.py:158-164 | the video-driven and mimic loops finish only on a dict whose status is `done` or that carries a truthy `video_url` |
| Poll.VerdictsAgree | src/core/video_jimeng_client.py:486-510 | every client finishes on `done`, aborts with the status on `not_found`/`expired`, and swallows a non-dict answer; only the Jimeng test keeps waiting on `processing`, even with a `video_url` |
| Poll.AbortsAreLost | src/core/video_lip_sync_client.py:201-211 | in every client, including lip-sync, the loop aborts only for a `not_found` or `expired` status |
| Poll.AudioAbortsAreLost | src/core/video_audio_driven_client.py:411-412 | the audio-driven loop aborts only for `not_found` or `expired` |
| Poll.LipSyncAbortsAreLost | src/core/video_lip_sync_client.py:201-211 | the lip-sync loop aborts only for `not_found` or `expired` inside a code-10000 result |
| AudioDriven.ReqKeysCoverModes | src/core/video_audio_driven_client.py:38-51 | exactly the modes `validate_mode` accepts have a `create_role` and a `generate_video` key, and no key is shared between purposes or modes |
| AudioDriven.CreateRoleCall | src/core/video_audio_driven_client.py:204-214 | the request is made iff the image URL and the mode are valid; a bad URL raises the image message first, then a bad mode raises `ValueError` naming the supported modes; the request carries only `image_url` under the mode's role key |
| AudioDriven.CreateRoleRetriesBadInput | src/core/video_audio_driven_client.py:192-209 | a bad URL or mode is a `ValueError` the decorator also catches, so the call runs four times with three pauses before that `ValueError` reaches the caller |
| AudioDriven.GetRoleResultCall | src/core/video_audio_driven_client.py:235-241 | the query is made iff the mode is known, and carries only the task id |
| AudioDriven.RoleDone | src/core/video_audio_driven_client.py:249-261 | a finished role yields a dict iff `resp_data` has `resource_id`, with keys `resource_id`, `role_type`, `face_position`, `resp_data` in that order |
| AudioDriven.GenerateVideoCall | src/core/video_audio_driven_client.py:284-304 | the request is made iff the role id is a non-empty string and the audio URL and mode are valid; it carries only `resource_id` and `audio_url` under the mode's video key |
| AudioDriven.GenerateVideoDropsAigcMeta | src/core/video_audio_driven_client.py:271-304 | the request `generate_video` sends is the same whatever `aigc_meta` is, and carries neither `aigc_meta` nor `req_json` |
| AudioDriven.GetVideoResultCall | src/core/video_audio_driven_client.py:326-337 | the query is made iff the mode is known, with `req_json` present exactly when `aigc_meta` is truthy |
| AudioDriven.VideoLinkChoice | src/core/video_audio_driven_client.py:345-374 | a finished video's `video_url` is the task's own truthy `video_url` in `loopyb`, otherwise the first entry of a non-empty `preview_url`; with neither, the result has no `video_url` key |
| AudioDriven.VideoLinkCases | src/core/video_audio_driven_client.py:354-363 | the chosen link, case by case: own URL in `loopyb`, else the first preview, else none |
| AudioDriven.UnknownOperationTimesOut | src/core/video_audio_driven_client.py:399-426 | with an operation other than `role` or `video`, every query raises a swallowed `ValueError` and the wait always ends in `TimeoutError` after `max_wait_time` |
| AudioDriven.NoMarkerInBadOperation | src/core/video_audio_driven_client.py:406-421 | the unknown-operation error does not carry the `任务异常` marker unless the operation name does |
| AudioDriven.RoleQueryVerdict | src/core/video_audio_driven_client.py:402-415 | a role answer ends the wait iff it carries `resource_id`, and aborts it iff its status is `not_found` or `expired` |
| AudioDriven.RoleVerdict | src/core/video_audio_driven_client.py:256-415 | a finished role carries `resource_id` and no `status`, and ends the wait |
| AudioDriven.ReportVerdict | src/core/video_audio_driven_client.py:265-415 | a `{status, message}` report never ends the wait, and aborts it iff its status is `not_found` or `expired` |
| AudioDriven.FlowIgnoresMaxWait | src/core/video_audio_driven_client.py:428-462 | the full flow's outcome does not depend on `max_wait_time`: the role wait uses 300 seconds and the video wait a fixed 600 |
| AudioDriven.VideoPhaseIgnoresAigcMeta | src/core/video_audio_driven_client.py:459-462 | the video half of the flow does not depend on `aigc_meta` |
| AudioDriven.FlowIgnoresAigcMeta | src/core/video_audio_driven_client.py:428-470 | the full flow's outcome does not depend on `aigc_meta`: it is passed to `generate_video`, which drops it, and the video wait queries without it |
| AudioDriven.SaveRole | src/core/video_audio_driven_client.py:450-457 | `save_avatar` on the finished role: a `resp_data` that is truthy but not a dict raises and saves nothing; otherwise the store and the verdict are those of the avatar store's save; anything but a true verdict leaves the store as it was |
| AudioDriven.SavedRoleIsFound | src/core/video_audio_driven_client.py:450-457 | after a save that reports true, the role task's id finds the role's `resource_id` under the mode it was saved with, and every other task is unchanged |
| AudioDriven.Flow | src/core/video_audio_driven_client.py:427-470 | the flow's result is that of `generate_video_from_image_audio` whatever the store holds; a failed role phase leaves the store as it was, and a finished role is saved with its task id, the role, the mode and its `resp_data` before the video is generated |
| AudioDriven.FlowReturnsRoleResource | src/core/video_audio_driven_client.py:427-470 | a successful flow had a finished role, and its answer's `resource_id` is the one the role phase read |
| AudioDriven.AwaitedKeepsResource | src/core/video_audio_driven_client.py:459-470 | a finished video wait hands back a dict whose `resource_id` is the id the video was generated from |
| AudioDriven.FlowStoresItsRole | src/core/video_audio_driven_client.py:427-470 | when the role is saved, the avatar stored under the role task holds the same `resource_id` that a successful flow returns |
| Jimeng.DetectionFlag | src/core/video_jimeng_client.py:450-461 | no flag when `resp_data` is missing or does not parse; a parsed dict yields its `status`, 0 when absent; a parsed value that is not a dict raises |
| Jimeng.GetResult | src/core/video_jimeng_client.py:395-468 | a rejected version or operation raises that `ValueError` unwrapped; every error inside the `try` is re-raised as an `Exception` starting `获取结果失败: ` |
| Jimeng.DoneFields | src/core/video_jimeng_client.py:435-463 | a finished answer reports `done` and holds only `status`, `aigc_meta_tagged` and one outcome field: a truthy `video_url` only for `generate`, `contains_subject` only for `detect`, `contains_object` only for `detect_object` |
| Jimeng.DoneShape | src/core/video_jimeng_client.py:436-463 | the finished answer holds the two fixed fields and, under the operation's own key, exactly the operation's outcome |
| Jimeng.GetResultForms | src/core/video_jimeng_client.py:426-465 | a successful query had code 10000 and a `data.status`; a `done` task gives the finished answer and any other status the `{status, message}` report |
| Jimeng.VideoQueryFinishesOnlyWhenDone | src/core/video_jimeng_client.py:488-499 | for a video task the loop ends on an answer iff that answer reports `done` |
| Jimeng.RejectedQueryTimesOut | src/core/video_jimeng_client.py:408-510 | a query the client rejects (unknown version or operation, or `detect_object` on 1.0) fails on every poll without the marker, so the wait always ends in `TimeoutError` |
| Jimeng.Delivered | src/core/video_jimeng_client.py:541-546 | the flow's answer carries the task id, the version and the result's `video_url` |
| Jimeng.Finished | src/core/video_jimeng_client.py:539-548 | a `done` result yields the four delivered fields; any other dict raises `视频生成失败: ` and the result's text |
| Jimeng.GenerateFromImageAudio | src/core/video_jimeng_client.py:530 | an unknown version raises `KeyError` from the configuration lookup before anything is sent |
| Jimeng.FlowNeverFailsAfterWait | src/core/video_jimeng_client.py:534-548 | once the task is submitted and the wait returns, the flow succeeds with that task id and version: the raise for a non-`done` result is unreachable |
| Jimeng.VideoWaitReturnsDone | src/core/video_jimeng_client.py:486-499 | a video wait that returns, returns an answer reporting `done` |
| OmniHuman.ReqKey | src/core/video_jimeng_client.py:40-50 | a service key exists exactly for versions 1.0 and 1.5 with `detect` or `generate`, and for `detect_object` only on 1.5 |
| OmniHuman.ReqKeysDistinct | src/core/jimeng_omni_client.py:31-41 | no two (version, operation) entries share a service key, so a key identifies its entry |
| OmniHuman.ResultCall | src/core/video_jimeng_client.py:408-427 | the query is sent iff the entry exists; an unknown version and then an unknown operation raise their `ValueError`s, and `detect_object` on 1.0 raises the `KeyError` of the missing entry; the query is `CVGetResult` with the entry's key and the task id |
| OmniHuman.ResultCallErrorNoMarker | src/core/video_jimeng_client.py:408-506 | the errors of a rejected query never carry the `任务异常` marker unless the caller's own version or operation text does, so the wait swallows them |
| OmniHuman.ReportNeverFinishes | src/core/video_jimeng_client.py:465-499 | the `{status, message}` report of an unfinished task is never read as finished by the wait |
| OmniHuman.PayloadFields | src/core/video_jimeng_client.py:356-378 | the submitted body holds both URLs; only version 1.5 adds the prompt and masks when truthy, the seed when not `None` and `pe_fast_mode: true` when requested; no other key is sent |
| OmniHuman.GenerateCall | src/core/video_jimeng_client.py:322-385 | the image URL, the audio URL and the version are checked in that order with their own errors; for version 1.5 a truthy `mask_url` without a length (a number, `True`) then raises the `TypeError` of `len()`; a valid call submits `CVSubmitTask` with the version's `generate` key, the gated body and `req_json` only for truthy `aigc_meta` |
| OmniHuman.DetectionCheck | src/core/video_jimeng_client.py:341-351 | the advisory check passes only for a detection result whose `contains_subject` is not 0; a 0 raises the no-subject exception |
| OmniHuman.Generate | src/core/video_jimeng_client.py:304-393 | an attempt succeeds iff the call is valid (including a mask with a length) and the service accepts the task, and then returns the task id; the detection's outcome never changes the result |
| OmniHuman.NoSubjectStillSubmits | src/core/video_jimeng_client.py:341-370 | an image the detection reports without a subject raises inside the `try`, is caught, and the attempt ends as it would without detection: the video is submitted unless the mask itself has no length |
| OmniHuman.UnsizedMaskRetried | src/core/video_jimeng_client.py:303-370 | a version 1.5 call with a truthy `mask_url` that has no length never reaches the service: the decorator runs four attempts with three pauses, and the caller gets the `TypeError` of `len()` |
| OmniHuman.ObjectCall | src/core/video_jimeng_client.py:245-266 | object detection is sent iff the image URL is valid, as a synchronous `CVProcess` call with the 1.5 object-detection key and the image URL |
| OmniHuman.ObjectDetection | src/core/video_jimeng_client.py:268-270 | one attempt's reading of the `CVProcess` response: a refusal raises `对象检测失败: ` with the service message or `未知错误`; any answer implies code 10000 |
| OmniHuman.DetectObject | src/core/video_jimeng_client.py:244-270 | `detect_object` under its retry decorator: an answer is the reading of one of the first four responses and implies a valid URL; a failure means all four attempts failed |
| OmniHuman.DetectObjectRetried | src/core/video_jimeng_client.py:244-270 | after `k` failed or refused attempts, an accepted response at attempt `k` is read and returned, after `k` pauses |
| OmniHuman.DetectObjectBadUrl | src/core/video_jimeng_client.py:244-257 | a malformed image URL is rejected on all four attempts, with three pauses, and its `ValueError` reaches the caller |
| OmniHuman.ObjectDetectionReports | src/core/jimeng_omni_client.py:127-155 | without detection data that parses, the answer is an `error` report; a parsed dict gives a `done` report carrying the data and its `status` (0 when absent) as `contains_object`, with the masks only when that status is 1, and masks without a length raise the `TypeError` of `len()` naming their type; parsed data that is not a dict raises the `AttributeError` of `.get` |
| OmniHuman.ErrorReportStatus | src/core/jimeng_omni_client.py:151-155 | both failure answers report status `error` |
| OmniHuman.ObjectReportFields | src/core/jimeng_omni_client.py:137-150 | a `done` report holds status, `contains_object`, `mask_urls` and `resp_data` under their own names |
| Omni.GetResult | src/core/jimeng_omni_client.py:247-295 | a rejected version or operation raises unwrapped; every error inside the `try` is re-raised as an `Exception` starting `获取结果失败: ` |
| Omni.GetResultForms | src/core/jimeng_omni_client.py:278-292 | a successful query had code 10000 and a `data.status`; a `done` task returns that `data` exactly as sent, any other status the `{status, message}` report |
| Omni.QueryFinishesOnlyWhenDone | src/core/jimeng_omni_client.py:313-326 | the wait ends on one of this client's answers iff it reports `done` |
| Omni.Observations | src/core/jimeng_omni_client.py:313-315 | the loop's `i`-th observation is `get_result` run against the `i`-th reply |
| Omni.WaitReturnsTaskData | src/core/jimeng_omni_client.py:311-337 | a wait that returns hands back the last response's `data` unchanged, and that data reports `done` |
| Omni.WaitReturnsQuery | src/core/jimeng_omni_client.py:315-318 | a returned wait's result is the last query's answer, which the loop judged finished |
| Omni.FinishedQueryIsData | src/core/jimeng_omni_client.py:284-290 | an answer the loop judges finished is the response's `data` as sent, reporting `done` |
| Omni.GenerateFromImageAudio | src/core/jimeng_omni_client.py:357 | an unknown version raises `KeyError` from the configuration lookup before anything is sent |
| Omni.FlowReturnsTaskData | src/core/jimeng_omni_client.py:339-367 | a successful flow returns the finished video task's `data` exactly as the last status response carried it |
| Effect.TemplatesDisjoint | src/core/video_effect_client.py:29-89 | no template id is in both generations' tables, so looking up the first generation before the second decides nothing |
| Effect.TemplateVersion | src/core/video_effect_client.py:97-112 | a template of the first table is first-generation and one of the second is second-generation, each iff it is listed; any other id raises `不支持的模板ID: ` with the id |
| Effect.ReqKey | src/core/video_effect_client.py:114-128 | a known template maps to its generation's service key, and only known templates have one |
| Effect.DualTemplates | src/core/video_effect_client.py:91-144 | exactly the four listed templates take two images, and the check succeeds only for known templates |
| Effect.CheckImages | src/core/video_effect_client.py:175-193 | a dual template passes iff the text splits at the pipe character into exactly two parts that are valid URLs once stripped; a single template passes iff there is no pipe character and the URL is valid; each failure is a `ValueError`, with the missing-separator and forbidden-separator texts as written |
| Effect.JoinedImagesFit | src/core/video_effect_client.py:176-186 | two valid URLs without a pipe character, joined by one, always pass a dual template's checks |
| Effect.PayloadFields | src/core/video_effect_client.py:196-208 | the body holds the image text and template id, and the split-screen switch only for a second-generation template, forced on for `multi_style_stacking_dolls`; nothing else |
| Effect.SubmitCall | src/core/video_effect_client.py:161-215 | the task is sent iff the image text is non-empty, the template is known and the image checks pass; the empty checks come first with their own texts; every refusal is a `ValueError`; a sent call uses the template's generation key and the body that `Effect.PayloadFields` describes |
| Effect.Submit | src/core/video_effect_client.py:217-233 | a refused check raises itself; after the request, a refused or malformed answer is re-raised as `提交任务失败: ` |
| Effect.RejectedImageRetried | src/core/video_effect_client.py:147-148 | a rejected input is rejected by every attempt, so the retry decorator makes four calls and raises the check's own `ValueError` |
| Effect.TaskReqKey | src/core/video_effect_client.py:235-274 | the probe fails iff both generations' queries raise, with one exception naming both errors; otherwise the second generation is preferred |
| Effect.ProbeSplits | src/core/video_effect_client.py:257-355 | the probe's text splits back, once or everywhere, into the key that answered and that query's response text |
| Effect.GetResult | src/core/video_effect_client.py:277-315 | every failure is re-raised under `获取结果失败: `; with a key the direct query's answer is returned as it is |
| Effect.UnkeyedQueryUsesProbedKey | src/core/video_effect_client.py:290-312 | without a key, a probe response text that parses is returned without a second query; otherwise the query is sent under the key that answered the probe |
| Effect.UnkeyedQueryFailsWithProbe | src/core/video_effect_client.py:290-315 | when both probe queries fail, the unkeyed query sends nothing more and raises the probe's error under the wrapper text |
| Effect.EffectVerdict | src/core/video_effect_client.py:340-358 | the loop finishes on a result iff it has code 10000 and its `data` reports `done` |
| Effect.ApiErrorKeepsPolling | src/core/video_effect_client.py:357-366 | a response with another code raises `API错误: `, which the loop swallows unless the response text carries the `任务异常` marker |
| Effect.NextKeyCached | src/core/video_effect_client.py:330-355 | the cached key is empty or one of the two service keys, and once set it is never replaced |
| Effect.CachedKeys | src/core/video_effect_client.py:330-366 | before every pass of the loop the cache holds nothing or one of the two service keys |
| Effect.CacheSticks | src/core/video_effect_client.py:350 | a key cached before a pass is still cached after it |
| Effect.WaitIgnoresReqKey | src/core/video_effect_client.py:317-330 | the caller's `req_key` is overwritten before the first query, so the wait's outcome does not depend on it |
| Effect.WaitReturnsDone | src/core/video_effect_client.py:340-345 | a wait that returns hands back a whole response with code 10000 whose task is `done` |
| Effect.DeliversFinished | src/core/video_effect_client.py:395-415 | on a finished response the parsed `resp_data` is what `json.loads` gives for a string it accepts and `{"raw": ...}` otherwise; the flow's last step fails exactly when that value is not a dict (so only on a parsed non-dict), and otherwise returns its `video_url`, the task id and the parsed data |
| Effect.FlowDeliversAfterWait | src/core/video_effect_client.py:370-415 | once the task is submitted and the wait returns, neither `视频生成未完成` nor `视频生成失败` can be raised |
| LipSync.ReqKey | src/core/video_lip_sync_client.py:30-33 | a service key exists exactly for the `lite` and `basic` modes |
| LipSync.SubmitCall | src/core/video_lip_sync_client.py:70-111 | the task is sent iff the video URL, the audio URL and the mode pass, checked in that order with their own `ValueError`s; it is `CVSubmitTask` under the mode's key |
| LipSync.SubmitPayloadFields | src/core/video_lip_sync_client.py:82-109 | the body always holds the video and audio URLs; each option is present only in its own mode and only when the caller passed it; a truthy `align_audio_reverse` forces `align_audio` to true; nothing else is sent |
| LipSync.PayloadOfOptions | src/core/video_lip_sync_client.py:82-109 | the options applied to the two URLs give the same fields, key by key, as the reference description of the body |
| LipSync.OptionsField | src/core/video_lip_sync_client.py:88-109 | over any starting dict, each option key is overwritten only in its mode and only when passed, `align_audio` is forced by a truthy reverse, and every other key is left alone |
| LipSync.ResultCall | src/core/video_lip_sync_client.py:134-145 | the query is sent iff the mode is known, for the given task id, with `req_json` only for a truthy `aigc_meta` |
| LipSync.DoneHasNoCode | src/core/video_lip_sync_client.py:153-172 | the answer for a finished task reports `done` and has no `code` entry |
| LipSync.ResultsCarryNoCode | src/core/video_lip_sync_client.py:147-179 | nothing `get_lip_sync_result` returns has a `code` entry: it returns a finished task's fields or a status report, never the raw response |
| LipSync.WaitAsWrittenNeverReturns | src/core/video_lip_sync_client.py:196-224 | as written, the wait tests `code == 10000` on answers that never carry a `code`, so it never returns a result, whatever the service answers |
| LipSync.CorrectedVerdict | src/core/video_lip_sync_client.py:201-211 | the intended reading of an answer fails only for a non-dict; it finishes on `done` or a `video_url`, aborts on a lost task and otherwise continues |
| LipSync.WaitReturnsFinishedTask | src/core/video_lip_sync_client.py:196-211 | with the intended reading, a task the first query reports `done` before the deadline is returned at once, after one query |
| LipSync.DoneFinishes | src/core/video_lip_sync_client.py:205-206 | an answer reporting `done` ends the corrected wait |
| LipSync.Delivered | src/core/video_lip_sync_client.py:251-256 | the flow's answer carries the submitted task id |
| LipSync.Finished | src/core/video_lip_sync_client.py:247-258 | a `done` result yields the video fields and the task id; a failed wait's error passes through |
| LipSync.ChangeAsWrittenAlwaysRaises | src/core/video_lip_sync_client.py:226-258 | as written, `change_lip_sync` never succeeds |
| LipSync.ChangeDeliversFinishedTask | src/core/video_lip_sync_client.py:226-256 | with the corrected wait, a task submitted on the first attempt and reported `done` by the first query is delivered with its task id |
| Outfit.MergeOverrides | src/core/image_outfit_client.py:105-121 | in the merged configuration a key the caller gave has the caller's value and every other key keeps its default |
| Outfit.MergeKeepsDefaults | src/core/image_outfit_client.py:105-121 | merging never drops a default key, and the default keys keep their places at the front |
| Outfit.PayloadFields | src/core/image_outfit_client.py:123-145 | the body holds the service key, the model and garment descriptions, `return_url`, the merged watermark and inference settings, and `aigc_meta` only when truthy; nothing else |
| Outfit.OutfitCall | src/core/image_outfit_client.py:88-149 | the request is sent iff both picture URLs are valid, as a synchronous `CVProcess` call with the body that `Outfit.PayloadFields` describes; a bad URL raises the image `ValueError` before anything is sent |
| Outfit.SubmitOutfit | src/core/image_outfit_client.py:89-159 | a bad model or garment URL raises the URL check's `ValueError` unwrapped, before the `try`; after the checks the call succeeds iff the response has code 10000 and a `data`, which is returned as sent, and every failure is re-raised under `图片换装失败: ` |
| Outfit.RefusalWrappedTwice | src/core/image_outfit_client.py:151-159 | a refusal reaches the caller with the failure text twice, followed by the service's message or `未知错误` |
| Outfit.Picked | src/core/image_outfit_client.py:208-213 | a result without truthy `image_urls` raises the no-picture exception; otherwise the first URL is taken |
| Outfit.DownloadAsWrittenAlwaysFails | src/core/image_outfit_client.py:215-229 | as written, asking for the download (the default) always fails, because the helper it imports does not exist; after a picture was returned, the error is the two failure texts followed by the `ImportError`'s own text, whatever that text is |
| Outfit.GenerateOutfitImage | src/core/image_outfit_client.py:195-235 | every failure is re-raised under `生成换装图片失败: `; without a download the flow returns exactly the first picture URL, and succeeds iff that is found |
| Outfit.DownloadSavesFirstPicture | src/core/image_outfit_client.py:215-227 | with a working download the flow saves the first picture under the caller's name or `outfit_<seconds>.png` and returns the saved name; without a download it agrees with the code as written |
| Driven.SubmitCall | src/core/video_video_driven_client.py:71-90 | the task is sent iff both URLs are valid, image first; the body holds the two URLs and nothing else (video driving nests the video with store type 0), under the client's action and service key, with `req_json` only for a truthy `aigc_meta` |
| Driven.PayloadCarriesUrls | src/core/jimeng_mimic_client.py:54-58 | each client's body has exactly its two keys and carries the image and video URLs where the service expects them |
| Driven.Submit | src/core/video_video_driven_client.py:88-100 | a bad URL raises itself; after the request the accepted task's id is returned, and every other failure is re-raised under the client's wrapper text |
| Driven.ResultCall | src/core/jimeng_mimic_client.py:93-100 | the query uses the client's query action and service key and the task id, adds no field of its own to the body beyond `req_key` and `task_id`, and carries `req_json` exactly when `aigc_meta` is truthy |
| Driven.GetResult | src/core/video_video_driven_client.py:121-133 | a query succeeds iff the response has code 10000 and a `data`, which is returned exactly as sent; every failure starts with the client's result-failure text |
| Driven.RefusedQueryKeepsPolling | src/core/jimeng_mimic_client.py:102-148 | a refused query raises an error the wait swallows, unless the service's own message carries the `任务异常` marker |
| Driven.WaitReturnsData | src/core/jimeng_mimic_client.py:129-139 | a wait that returns hands back the last response's `data` unchanged, and only when it reports `done` or carries a truthy `video_url` |
| Driven.WaitReturnsQuery | src/core/video_video_driven_client.py:152-162 | a returned wait's result is the last query's answer, which the loop judged finished |
| Driven.WaitRaises | src/core/video_video_driven_client.py:152-173 | the wait raises only errors carrying the marker, and after the deadline a plain `Exception` naming the wait time rather than a `TimeoutError` |
| Avatars.CreatedAt | src/modules/avatar_manager.py:41-56 | the role's time is the service's `finished_at` when truthy, else its `processed_at` when truthy, rendered; without either, or without `resp_data`, it is the clock's time; it raises exactly when there is a service time and rendering it raises |
| Avatars.Entry | src/modules/avatar_manager.py:50-62 | the stored entry carries the task id, the mode, the given time, the result's `resource_id`, `role_type` defaulting to `unknown`, `face_position` defaulting to `[]`; with `resp_data` given, `api_times` holds its `received_at`, `processed_at` and `finished_at`, and without it there is no `api_times` |
| Avatars.Save | src/modules/avatar_manager.py:36-69 | a result without `resource_id` saves nothing and reports false; a service time that cannot be rendered raises and leaves the store unchanged; otherwise the entry is stored under its task id, every other task's entry is unchanged, and it reports true |
| Avatars.UnrenderableTimeSavesNothing | src/modules/avatar_manager.py:44-48 | a truthy `finished_at` that is not a timestamp in range makes `save_avatar` raise the renderer's error before anything is stored |
| Avatars.ResourceIdByTask | src/modules/avatar_manager.py:119-122 | a resource id is found iff the task is stored, and it is that entry's resource id |
| Avatars.SavedIsFound | src/modules/avatar_manager.py:64-122 | after a save that reports true, the task's resource id is found again, with the mode it was saved under |
| Avatars.ByResource | src/modules/avatar_manager.py:75-80 | none iff no stored entry has the resource id; otherwise the first such entry in store order |
| Avatars.OfMode | src/modules/avatar_manager.py:86-87 | the filtered list holds exactly the avatars of the mode, or the whole list unchanged when no mode is given, and is never longer than the list |
| Avatars.OfModeAppend | src/modules/avatar_manager.py:86-87 | the filter keeps list order: filtering two runs in turn gives the first run's avatars of the mode followed by the second's |
| Avatars.OfModeOne | src/modules/avatar_manager.py:86-87 | one avatar passes the filter exactly when no mode is given or it has the mode |
| Avatars.Newest | src/modules/avatar_manager.py:92-94 | the head of a stable descending sort by `created_at`: an avatar with the greatest time, the earliest such in the list |
| Avatars.HeadNewest | src/modules/avatar_manager.py:93 | a first avatar at least as new as the rest's newest is the newest of the whole list |
| Avatars.TailNewest | src/modules/avatar_manager.py:93 | otherwise the rest's newest stays the newest |
| Avatars.Latest | src/modules/avatar_manager.py:82-94 | none iff no avatar has the mode; otherwise a stored avatar of the mode whose `created_at` is not older than any other of that mode, and the earliest such in store order, as the head of a stable descending sort |

## Left out

- The command-line front end (`volcengine_ai.py`), all console output and the streamed download with its progress display. They are presentation and I/O.
- The network transport (`requests.post`, `raise_for_status`, `response.json()`). A reply is a given value: a timeout, a connection failure, another request failure, or a status code with its text and decoded JSON.
- HMAC-SHA256, SHA-256, hex encoding, `json.dumps`, `json.loads` and `str()`. They are parameters, so facts about them hold for every implementation. Where a lemma needs them not to collide, that is its precondition.
- The clock and `time.sleep`. A clock reading is a parameter; sleeping advances the modelled clock by `check_interval`.
- The values read from `src/config.py` (30-second timeout, 3 retries, 2-second delay). They are constants of the model, and the environment-variable reads are left out.
- The effect client's round trip through `str(response)` and `json.loads`, which depends on Python's dict `repr`. It is modelled only as a parse that may fail.
- Avatar persistence (`_load_data`, `_save_data`, the `last_updated` stamp) and `list_avatars`. They are file I/O and printing; the store is the in-memory mapping.
- The import of `avatar_manager` inside the audio-driven flow, which loads the avatar file when the module is first imported. The store is given to `AudioDriven.Flow` as already loaded; a failed import or save is caught by the same `try`, so like a failed save it leaves the result unchanged.
- `format_duration`. It formats floating-point numbers.
- The informational tables (`CONFIG`, `VERSION_CONFIG`, `MODE_CONFIG`: prices, resolutions, feature lists). Only the one lookup that fails (an unknown version in the OmniHuman flows) is modelled.
- `detect_avatar` and the subject-detection task of the OmniHuman clients. `generate_video` sees only the detection's outcome, which it catches and prints, so that outcome is a parameter.
- The failed import of `Optional` in `jimeng_omni_client.py` and `video_lip_sync_client.py`. As written, both modules fail when imported; their logic is modelled as written.
- Concurrency. There is none.
- The texts of Python's own errors (`.get` on a non-dict, subscription, `len()`, `in`, `json.loads` of a non-string) name the value's type as CPython 3.10 words them. From 3.11 on, subscripting a string with a string also names the index type (`, not 'str'`), which the model does not render.
- The transport's JSON decoding: a 2xx reply whose body is not JSON is reported as `API请求失败: ...`. That holds where the decoding error of `requests` is one of its own request exceptions (requests 2.27 and later); with older versions it is a plain `ValueError` that leaves the request unwrapped.
- Floating-point JSON numbers. A decoded value is `None`, a boolean, an integer, a string, a list or a dict, so a float `code`, `status` or `contains_subject` such as `0.0` (equal to `0` in Python) is not represented.
- Poll.Wait: requires `check_interval > 0`, which the code does not check. With 0 the loop has no bound on its queries.
- Signer.Timestamp: renders `%Y` only for years 1000 to 9999, where it has four digits.
- Text.Lower: lower-cases ASCII letters only. Every header name the client signs is ASCII.
- Signer.SignatureSensitiveToBody: holds only for hash, hex and HMAC functions that never collide. The real ones merely make collisions infeasible.
- Request.LegacyDigestMissesBody: holds only for a serialiser and hash that never collide.

## Findings

| source | as written | input that shows it | evidently intended | confidence | as-written member | corrected member |
|---|---|---|---|---|---|---|
| src/core/base_volcengine_client.py:81-87 | the signature is computed from one clock reading, and `X-Date` comes from a second reading taken afterwards | signing at 2024-01-01 23:59:59 and reading `X-Date` at 2024-01-02 00:00:00: the credential scope names the first date, the service recomputes it for the second, and the request does not verify | one reading for both the signature and `X-Date` | not executed | Request.BaseXDateMissesSignedTime | Request.SignedEnvelope |
| src/core/video_audio_driven_client.py:141-156 | `X-Content-Sha256` is the digest of `json.dumps(data or {})`, while the body sent also holds `req_key` | any call: the sent body always holds `req_key`, while the caller's data never does, so the digest is over different bytes | the digest of the exact body sent, as the base client computes it | not executed | Request.LegacyDigestMissesBody | Request.SignedEnvelope |
| src/core/video_lip_sync_client.py:201-211 | the loop tests `code == 10000` on what `get_lip_sync_result` returns, which never has a `code` entry | a task that the first query reports `done`: the loop keeps polling until `TimeoutError`, and `change_lip_sync` always raises | test the `status` and `video_url` of the returned dict | not executed | LipSync.WaitAsWrittenNeverReturns | LipSync.WaitReturnsFinishedTask |
| src/core/image_outfit_client.py:222-229 | the download imports `download_image` from `src/utils.py`, which does not define it | `download=True` (the default) with a service answer that holds a picture URL: the import fails and the flow raises `生成换装图片失败: 下载图片失败: ...` | call a download helper that saves the picture and returns the file name | not executed | Outfit.DownloadAsWrittenAlwaysFails | Outfit.DownloadSavesFirstPicture |

=== FILE: audio_driven.dfy ===
/** The single-image audio-driven avatar client: create a role (avatar) from
    a picture, poll for it, generate a video from the role and an audio
    track, poll for that, all in one of the three modes `normal`, `loopy`
    and `loopyb`. */
module AudioDriven {
  import opened Wrappers
  import opened Text
  import opened Dicts
  import opened Py
  import opened Request
  import opened Tasks
  import opened Poll
  import Utils
  import Avatars

  // ----------------------------------------------------------- service keys

  /** `REQ_KEYS[mode]["create_role"]`. */
  function RoleKey(mode: string): Option<string> {
    if mode == "normal" then Some("realman_avatar_picture_create_role")
    else if mode == "loopy" then Some("realman_avatar_picture_create_role_loopy")
    else if mode == "loopyb" then Some("realman_avatar_picture_create_role_loopyb")
    else None
  }

  /** `REQ_KEYS[mode]["generate_video"]`. */
  function VideoKey(mode: string): Option<string> {
    if mode == "normal" then Some("realman_avatar_picture_v2")
    else if mode == "loopy" then Some("realman_avatar_picture_loopy")
    else if mode == "loopyb" then Some("realman_avatar_picture_loopyb")
    else None
  }

  /** Exactly the modes `validate_mode` accepts have both service keys, and
      no service key serves two purposes or two modes. */
  lemma ReqKeysCoverModes(m1: string, m2: string)
    ensures RoleKey(m1).Some? <==> Utils.ValidateMode(m1)
    ensures VideoKey(m1).Some? <==> Utils.ValidateMode(m1)
    ensures RoleKey(m1).Some? && VideoKey(m2).Some? ==> RoleKey(m1) != VideoKey(m2)
    ensures RoleKey(m1).Some? && m1 != m2 ==> RoleKey(m1) != RoleKey(m2)
    ensures VideoKey(m1).Some? && m1 != m2 ==> VideoKey(m1) != VideoKey(m2)
  {
  }

  function BadMode(mode: string): Exc {
    Exc(ValueError, "不支持的模式: " + mode + "，支持的模式: normal, loopy, loopyb")
  }

  /** The mode error of the result queries, which name no alternatives. */
  function UnknownMode(mode: string): Exc {
    Exc(ValueError, "不支持的模式: " + mode)
  }

  // ----------------------------------------------------------------- roles

  /** `create_role` up to the request: the image URL, then the mode, is
      checked; the body carries the image URL only. */
  function CreateRoleCall(imageUrl: string, mode: string): (r: Res<Call>)
    ensures r.Ok? <==> Utils.ValidateUrl(imageUrl) && Utils.ValidateMode(mode)
    ensures !Utils.ValidateUrl(imageUrl) ==> r == Err(Exc(ValueError, BadUrlMessage(Image)))
    ensures Utils.ValidateUrl(imageUrl) && !Utils.ValidateMode(mode) ==> r == Err(BadMode(mode))
    ensures r.Ok? ==> r.value == Call("POST", "CVSubmitTask", RoleKey(mode).value, DefaultVersion,
                                      [("image_url", Str(imageUrl))], "", "")
  {
    if !Utils.ValidateUrl(imageUrl) then Err(Exc(ValueError, BadUrlMessage(Image)))
    else if RoleKey(mode).None? then Err(BadMode(mode))
    else Ok(Call("POST", "CVSubmitTask", RoleKey(mode).value, DefaultVersion, [("image_url", Str(imageUrl))], "", ""))
  }

  /** One attempt of `create_role`: the task id of the submitted role. */
  function CreateRole(imageUrl: string, mode: string, response: Res<Json>, codec: Codec): Res<Json> {
    var _ :- CreateRoleCall(imageUrl, mode);
    var r :- response;
    Submitted(r, "创建形象任务提交失败: ", codec)
  }

  /** The successive attempts of the decorated `create_role`, attempt `i`
      meeting `responses(i)`. */
  function RoleAttempts(imageUrl: string, mode: string, responses: nat -> Res<Json>, codec: Codec): (f: nat -> Res<Json>)
    ensures forall i: nat :: f(i) == CreateRole(imageUrl, mode, responses(i), codec)
  {
    (i: nat) => CreateRole(imageUrl, mode, responses(i), codec)
  }

  /** The decorated `create_role`: a bad URL or mode is a `ValueError`,
      which the decorator catches like any exception, so the call is made
      four times with three pauses before the error reaches the caller. */
  lemma CreateRoleRetriesBadInput(imageUrl: string, mode: string, responses: nat -> Res<Json>, codec: Codec)
    requires !Utils.ValidateUrl(imageUrl) || !Utils.ValidateMode(mode)
    ensures var run := Utils.Retry(MaxRetries, RoleAttempts(imageUrl, mode, responses, codec), Utils.CatchAll);
      && run.calls == MaxRetries + 1 && run.sleeps == MaxRetries
      && run.result == Err(CreateRoleCall(imageUrl, mode).error)
      && run.result.error.kind == ValueError
  {
    var attempt := RoleAttempts(imageUrl, mode, responses, codec);
    forall j | 0 <= j <= MaxRetries ensures Utils.RetryableFailure(attempt, Utils.CatchAll, j) {
      assert attempt(j) == Err(CreateRoleCall(imageUrl, mode).error);
    }
    Utils.RetryExhausted(MaxRetries, attempt, Utils.CatchAll);
  }

  function GetRoleResultCall(taskId: string, mode: string): (r: Res<Call>)
    ensures r.Ok? <==> Utils.ValidateMode(mode)
    ensures r.Ok? ==> r.value.taskId == taskId && r.value.data == [] && r.value.reqJson == ""
  {
    if RoleKey(mode).None? then Err(UnknownMode(mode))
    else Ok(Call("POST", "CVGetResult", RoleKey(mode).value, DefaultVersion, [], taskId, ""))
  }

  /** A finished role: its `resource_id`, `role_type` (default
      `"unknown"`), `face_position` (default `[]`) and the parsed
      `resp_data` itself. */
  function RoleDone(data: PyDict, resp: PyDict): (r: Res<Json>)
    ensures r.Ok? <==> HasKey(resp, "resource_id")
    ensures r.Ok? ==> r.value.Obj? && Keys(r.value.fields) == ["resource_id", "role_type", "face_position", "resp_data"]
  {
    match Get(resp, "resource_id")
    case None => Err(Exc(KeyError, "'resource_id'"))
    case Some(id) =>
      Ok(Obj([("resource_id", id), ("role_type", GetOr(resp, "role_type", Str("unknown"))),
               ("face_position", GetOr(resp, "face_position", Arr([]))), ("resp_data", Obj(resp))]))
  }

  const RoleWrap := "获取形象创建结果失败: "

  /** `get_role_result`. */
  function GetRoleResult(taskId: string, mode: string, response: Res<Json>, codec: Codec): Res<Json> {
    var _ :- GetRoleResultCall(taskId, mode);
    Queried(response, RoleWrap, "形象创建失败: ", RoleDone, codec)
  }

  // ---------------------------------------------------------------- videos

  /** `generate_video` up to the request: the role id must be a non-empty
      string, then the audio URL and the mode are checked. The body carries
      the role id and the audio URL; `aigc_meta` is accepted and dropped. */
  function GenerateVideoCall(resourceId: Json, audioUrl: string, mode: string, aigcMeta: Json): (r: Res<Call>)
    ensures r.Ok? <==> resourceId.Str? && resourceId.s != "" && Utils.ValidateUrl(audioUrl) && Utils.ValidateMode(mode)
    ensures !(resourceId.Str? && resourceId.s != "") ==> r == Err(Exc(ValueError, "形象ID不能为空"))
    ensures r.Ok? ==> r.value == Call("POST", "CVSubmitTask", VideoKey(mode).value, DefaultVersion,
                                      [("resource_id", resourceId), ("audio_url", Str(audioUrl))], "", "")
  {
    if !Truthy(resourceId) || !resourceId.Str? then Err(Exc(ValueError, "形象ID不能为空"))
    else if !Utils.ValidateUrl(audioUrl) then Err(Exc(ValueError, BadUrlMessage(Audio)))
    else if VideoKey(mode).None? then Err(BadMode(mode))
    else Ok(Call("POST", "CVSubmitTask", VideoKey(mode).value, DefaultVersion,
                 [("resource_id", resourceId), ("audio_url", Str(audioUrl))], "", ""))
  }

  /** The request `generate_video` sends does not depend on `aigc_meta`. */
  lemma GenerateVideoDropsAigcMeta(resourceId: Json, audioUrl: string, mode: string, m1: Json, m2: Json)
    ensures GenerateVideoCall(resourceId, audioUrl, mode, m1) == GenerateVideoCall(resourceId, audioUrl, mode, m2)
    ensures GenerateVideoCall(resourceId, audioUrl, mode, m1).Ok? ==>
      !HasKey(GenerateVideoCall(resourceId, audioUrl, mode, m1).value.data, "aigc_meta")
      && GenerateVideoCall(resourceId, audioUrl, mode, m1).value.reqJson == ""
  {
    var r := GenerateVideoCall(resourceId, audioUrl, mode, m1);
    if r.Ok? {
      assert Keys(r.value.data) == ["resource_id", "audio_url"];
    }
  }

  function VideoAttempts(resourceId: Json, audioUrl: string, mode: string, aigcMeta: Json,
                         responses: nat -> Res<Json>, codec: Codec): (f: nat -> Res<Json>)
    ensures forall i: nat :: f(i) == GenerateVideo(resourceId, audioUrl, mode, aigcMeta, responses(i), codec)
  {
    (i: nat) => GenerateVideo(resourceId, audioUrl, mode, aigcMeta, responses(i), codec)
  }

  function GenerateVideo(resourceId: Json, audioUrl: string, mode: string, aigcMeta: Json,
                         response: Res<Json>, codec: Codec): Res<Json> {
    var _ :- GenerateVideoCall(resourceId, audioUrl, mode, aigcMeta);
    var r :- response;
    Submitted(r, "视频生成任务提交失败: ", codec)
  }

  function GetVideoResultCall(taskId: string, mode: string, aigcMeta: Json, codec: Codec): (r: Res<Call>)
    ensures r.Ok? <==> Utils.ValidateMode(mode)
    ensures r.Ok? ==> r.value.taskId == taskId && r.value.reqJson == AigcReqJson(aigcMeta, codec)
  {
    if VideoKey(mode).None? then Err(UnknownMode(mode))
    else Ok(Call("POST", "CVGetResult", VideoKey(mode).value, DefaultVersion, [], taskId, AigcReqJson(aigcMeta, codec)))
  }

  /** The video link of a finished video: the task's own `video_url` for
      `loopyb` when it is truthy, otherwise the first `preview_url`. */
  function VideoLink(mode: string, data: PyDict, resp: PyDict): Res<Json> {
    if mode == "loopyb" && Truthy(Field(data, "video_url")) then Ok(Field(data, "video_url"))
    else
      var previews := GetOr(resp, "preview_url", Arr([]));
      if Truthy(previews) then First(previews) else Ok(Null)
  }

  /** A finished video: status, `aigc_meta_tagged` (default false), then
      the link when there is one and the video metadata when there is one. */
  function VideoDone(mode: string, data: PyDict, resp: PyDict): Res<Json> {
    var link :- VideoLink(mode, data, resp);
    var meta :- VideoMeta(GetOr(resp, "video", Obj([])));
    var base := [("status", Str("done")), ("aigc_meta_tagged", GetOr(data, "aigc_meta_tagged", Bool(false)))];
    var withLink := Appended(base, "video_url", if Truthy(link) then Some(link) else None);
    Ok(Obj(Appended(withLink, "video_meta", meta)))
  }

  /** Which link a finished video reports: for `loopyb` a truthy task
      `video_url` wins; otherwise, and in the other modes always, the first
      entry of a non-empty `preview_url` list; with neither, the result has
      no `video_url` at all. */
  lemma VideoLinkChoice(mode: string, data: PyDict, resp: PyDict)
    requires VideoDone(mode, data, resp).Ok?
    ensures var r := VideoDone(mode, data, resp).value;
      var own := Field(data, "video_url");
      var previews := GetOr(resp, "preview_url", Arr([]));
      && r.Obj?
      && (mode == "loopyb" && Truthy(own) ==> Get(r.fields, "video_url") == Some(own))
      && (!(mode == "loopyb" && Truthy(own)) && previews.Arr? && previews.items != [] && Truthy(previews.items[0]) ==>
            Get(r.fields, "video_url") == Some(previews.items[0]))
      && (!(mode == "loopyb" && Truthy(own)) && !Truthy(previews) ==> !HasKey(r.fields, "video_url"))
  {
    var base := [("status", Str("done")), ("aigc_meta_tagged", GetOr(data, "aigc_meta_tagged", Bool(false)))];
    var link := VideoLink(mode, data, resp).value;
    var meta := VideoMeta(GetOr(resp, "video", Obj([]))).value;
    var withLink := Appended(base, "video_url", if Truthy(link) then Some(link) else None);
    var r := VideoDone(mode, data, resp).value;
    assert r == Obj(Appended(withLink, "video_meta", meta));
    GetTwo(base, "video_url");
    assert Get(r.fields, "video_url") == Get(withLink, "video_url") == if Truthy(link) then Some(link) else None;
    VideoLinkCases(mode, data, resp);
  }

  /** The link itself, case by case. */
  lemma VideoLinkCases(mode: string, data: PyDict, resp: PyDict)
    requires VideoLink(mode, data, resp).Ok?
    ensures var link := VideoLink(mode, data, resp).value;
      var own := Field(data, "video_url");
      var previews := GetOr(resp, "preview_url", Arr([]));
      && (mode == "loopyb" && Truthy(own) ==> link == own)
      && (!(mode == "loopyb" && Truthy(own)) && previews.Arr? && previews.items != [] ==> link == previews.items[0])
      && (!(mode == "loopyb" && Truthy(own)) && !Truthy(previews) ==> link == Null)
  {
  }

  const VideoWrap := "获取视频生成结果失败: "

  /** `get_video_result`. */
  function GetVideoResult(taskId: string, mode: string, aigcMeta: Json, response: Res<Json>, codec: Codec): Res<Json> {
    var _ :- GetVideoResultCall(taskId, mode, aigcMeta, codec);
    Queried(response, VideoWrap, "视频生成失败: ", (data, resp) => VideoDone(mode, data, resp), codec)
  }

  // ----------------------------------------------------------------- waiting

  /** One status query of `wait_for_completion`; an unknown operation type
      raises a `ValueError` inside the loop's `try`. */
  function StatusQuery(taskId: string, mode: string, operation: string, response: Res<Json>, codec: Codec): Res<Json> {
    if operation == "role" then GetRoleResult(taskId, mode, response, codec)
    else if operation == "video" then GetVideoResult(taskId, mode, Null, response, codec)
    else Err(Exc(ValueError, "不支持的操作类型: " + operation))
  }

  /** The loop's view of the `i`-th query: its answer and how long it took. */
  function Observations(taskId: string, mode: string, operation: string, replies: nat -> Observation, codec: Codec): (f: nat -> Observation)
    ensures forall i: nat :: f(i) == Observation(StatusQuery(taskId, mode, operation, replies(i).result, codec), replies(i).took)
  {
    (i: nat) => Observation(StatusQuery(taskId, mode, operation, replies(i).result, codec), replies(i).took)
  }

  /** `wait_for_completion(task_id, mode, operation_type, max_wait_time,
      check_interval)`: `replies(i)` is the response to the `i`-th query and
      how long it took. */
  function Wait(taskId: string, mode: string, operation: string, maxWait: int, interval: nat,
                replies: nat -> Observation, codec: Codec): PollEnd
    requires interval > 0
  {
    Poll.Wait(AudioVerdict, TimeoutErrorFor(maxWait), Observations(taskId, mode, operation, replies, codec), maxWait, interval)
  }

  /** With an operation type other than `role` or `video`, every query
      raises inside the loop, is swallowed, and the wait always ends in
      `TimeoutError`. */
  lemma UnknownOperationTimesOut(taskId: string, mode: string, operation: string, maxWait: int, interval: nat,
                                 replies: nat -> Observation, codec: Codec)
    requires interval > 0
    requires operation != "role" && operation != "video"
    requires !Contains(operation, Marker)
    ensures var r := Wait(taskId, mode, operation, maxWait, interval, replies, codec);
      r.exit == DeadlinePassed && r.result == Err(Exc(TimeoutError, "等待任务完成超时 (" + Decimal(maxWait) + "秒)"))
  {
    var obs := Observations(taskId, mode, operation, replies, codec);
    forall j: nat | j >= 0
      ensures Judge(AudioVerdict, obs(j)).Err? && !Escapes(Judge(AudioVerdict, obs(j)).error)
    {
      assert obs(j).result == Err(Exc(ValueError, "不支持的操作类型: " + operation));
      NoMarkerInBadOperation(operation);
    }
    NeverFinishingTimesOut(AudioVerdict, TimeoutErrorFor(maxWait), obs, maxWait, interval, 0, 0);
  }

  lemma NoMarkerInBadOperation(operation: string)
    requires !Contains(operation, Marker)
    ensures !Escapes(Exc(ValueError, "不支持的操作类型: " + operation))
  {
    ContainsPastPrefix("不支持的操作类型: ", operation, Marker);
  }

  /** The shape of a finished role. */
  predicate IsRole(r: Json) {
    r.Obj? && Keys(r.fields) == ["resource_id", "role_type", "face_position", "resp_data"]
  }

  /** How the loop reads a role query's answer: a finished role (it carries
      `resource_id`) ends the wait, a task reported `not_found` or
      `expired` aborts it, and every other answer keeps it going. */
  lemma RoleQueryVerdict(taskId: string, mode: string, response: Res<Json>, codec: Codec)
    requires GetRoleResult(taskId, mode, response, codec).Ok?
    ensures var r := GetRoleResult(taskId, mode, response, codec).value;
      && r.Obj?
      && (AudioVerdict(r) == Ok(Finish) <==> HasKey(r.fields, "resource_id"))
      && (AudioVerdict(r).Ok? && AudioVerdict(r).value.Abort? <==>
            (FieldIs(r.fields, "status", "not_found") || FieldIs(r.fields, "status", "expired")))
  {
    var r := GetRoleResult(taskId, mode, response, codec).value;
    QueriedForms(response, RoleWrap, "形象创建失败: ", RoleDone, codec, IsRole);
    if IsRole(r) {
      RoleVerdict(r);
    } else {
      ReportVerdict(r, codec);
    }
  }

  lemma RoleVerdict(r: Json)
    requires IsRole(r)
    ensures AudioVerdict(r) == Ok(Finish) && HasKey(r.fields, "resource_id")
    ensures !HasKey(r.fields, "status")
  {
  }

  lemma ReportVerdict(r: Json, codec: Codec)
    requires IsStatusReport(r, codec)
    ensures !HasKey(r.fields, "resource_id") && !HasKey(r.fields, "video_url")
    ensures AudioVerdict(r) != Ok(Finish)
    ensures AudioVerdict(r).Ok? && AudioVerdict(r).value.Abort? <==>
      FieldIs(r.fields, "status", "not_found") || FieldIs(r.fields, "status", "expired")
  {
    StatusReportKeys(r.fields[0].1, codec, "resource_id");
    StatusReportKeys(r.fields[0].1, codec, "video_url");
  }

  // -------------------------------------------------------------- full flow

  /** What the network answers in each phase of the full flow: the
      responses to successive `create_role` attempts, to the role's status
      queries, to successive `generate_video` attempts and to the video's
      status queries. */
  datatype Network = Network(roleSubmits: nat -> Res<Json>, rolePolls: nat -> Observation,
                             videoSubmits: nat -> Res<Json>, videoPolls: nat -> Observation)

  const RoleWait := 300
  const VideoWait := 600
  const CheckInterval := 15

  /** Create the role (with retries) and wait for it with the default 300
      seconds: the role task's id and the finished role. */
  function RoleAwaited(imageUrl: string, mode: string, net: Network, codec: Codec): Res<(Json, Json)> {
    var roleTask :- Utils.Retry(MaxRetries, RoleAttempts(imageUrl, mode, net.roleSubmits, codec), Utils.CatchAll).result;
    var role :- Wait(PyStr(roleTask, codec), mode, "role", RoleWait, CheckInterval, net.rolePolls, codec).result;
    Ok((roleTask, role))
  }

  /** The first half of `generate_video_from_image_audio`: the finished
      role's `resource_id`. Saving the role to the avatar store happens
      next, in `Flow`; it does not change the result. */
  function RolePhase(imageUrl: string, mode: string, net: Network, codec: Codec): Res<Json> {
    var awaited :- RoleAwaited(imageUrl, mode, net, codec);
    Index(awaited.1, "resource_id")
  }

  /** The `resp_data` handed to `save_avatar`, as the dict it reads: a dict
      as it is, a falsy value as no data; `None` for a truthy value that is
      not a dict, on which `resp_data.get` raises. */
  function RespDict(raw: Json): Option<PyDict> {
    if raw.Obj? then Some(raw.fields)
    else if !Truthy(raw) then Some([])
    else None
  }

  /** `avatar_manager.save_avatar(role_task_id, role_result, mode,
      role_result.get("resp_data"))`: what it reports or raises, and the
      store after it. A failed or refused save leaves the store as it was. */
  function SaveRole(store: Avatars.Store, roleTask: Json, role: PyDict, mode: string,
                    now: string, isoformat: Json -> Res<string>, codec: Codec): (r: (Res<bool>, Avatars.Store))
    ensures r.0 != Ok(true) ==> r.1 == store
    ensures RespDict(Field(role, "resp_data")).None? ==> r == (Err(NoAttribute(Field(role, "resp_data"))), store)
    ensures RespDict(Field(role, "resp_data")).Some? ==>
      r == Avatars.Save(store, PyStr(roleTask, codec), role, mode, RespDict(Field(role, "resp_data")).value, now, isoformat)
  {
    var raw := Field(role, "resp_data");
    match RespDict(raw)
    case None => (Err(NoAttribute(raw)), store)
    case Some(respData) => Avatars.Save(store, PyStr(roleTask, codec), role, mode, respData, now, isoformat)
  }

  /** A save that reports true stores the role under its task id with the
      role's `resource_id` and the mode, and touches no other task. */
  lemma SavedRoleIsFound(store: Avatars.Store, roleTask: Json, role: PyDict, mode: string,
                         now: string, isoformat: Json -> Res<string>, codec: Codec)
    requires SaveRole(store, roleTask, role, mode, now, isoformat, codec).0 == Ok(true)
    ensures var after := SaveRole(store, roleTask, role, mode, now, isoformat, codec).1;
      && HasKey(role, "resource_id")
      && Avatars.ResourceIdByTask(after, PyStr(roleTask, codec)) == Some(Get(role, "resource_id").value)
      && Avatars.ByTask(after, PyStr(roleTask, codec)).value.mode == mode
      && forall k :: k != PyStr(roleTask, codec) ==> Get(after, k) == Get(store, k)
  {
    var respData := RespDict(Field(role, "resp_data")).value;
    Avatars.SavedIsFound(store, PyStr(roleTask, codec), role, mode, respData, now, isoformat);
  }

  /** `generate_video_from_image_audio` with the avatar store it leaves
      behind. Once the role's `resource_id` is read the role is saved;
      whatever saving raises is caught and printed, so the store may stay as
      it was, and the flow's result never depends on the store. */
  function Flow(imageUrl: string, audioUrl: string, mode: string, aigcMeta: Json, maxWait: int, net: Network,
                codec: Codec, store: Avatars.Store, now: string, isoformat: Json -> Res<string>): (r: (Res<Json>, Avatars.Store))
    ensures r.0 == GenerateFromImageAudio(imageUrl, audioUrl, mode, aigcMeta, maxWait, net, codec)
    ensures RolePhase(imageUrl, mode, net, codec).Err? ==> r.1 == store
    ensures RolePhase(imageUrl, mode, net, codec).Ok? ==>
      var awaited := RoleAwaited(imageUrl, mode, net, codec).value;
      && awaited.1.Obj?
      && r.1 == SaveRole(store, awaited.0, awaited.1.fields, mode, now, isoformat, codec).1
  {
    match RoleAwaited(imageUrl, mode, net, codec)
    case Err(e) => (Err(e), store)
    case Ok(awaited) =>
      match Index(awaited.1, "resource_id")
      case Err(e) => (Err(e), store)
      case Ok(resourceId) =>
        var saved := SaveRole(store, awaited.0, awaited.1.fields, mode, now, isoformat, codec);
        (VideoPhase(resourceId, audioUrl, mode, aigcMeta, net, codec), saved.1)
  }

  /** A successful flow hands back the `resource_id` its role phase read. */
  lemma FlowReturnsRoleResource(imageUrl: string, audioUrl: string, mode: string, aigcMeta: Json, maxWait: int,
                                net: Network, codec: Codec)
    requires GenerateFromImageAudio(imageUrl, audioUrl, mode, aigcMeta, maxWait, net, codec).Ok?
    ensures var r := GenerateFromImageAudio(imageUrl, audioUrl, mode, aigcMeta, maxWait, net, codec);
      && RolePhase(imageUrl, mode, net, codec).Ok?
      && r.value.Obj? && Get(r.value.fields, "resource_id") == Some(RolePhase(imageUrl, mode, net, codec).value)
  {
    var rid := RolePhase(imageUrl, mode, net, codec).value;
    var submitted := Utils.Retry(MaxRetries, VideoAttempts(rid, audioUrl, mode, aigcMeta, net.videoSubmits, codec), Utils.CatchAll).result;
    assert GenerateFromImageAudio(imageUrl, audioUrl, mode, aigcMeta, maxWait, net, codec) == VideoAwaited(rid, submitted, mode, net, codec);
    AwaitedKeepsResource(rid, submitted, mode, net, codec);
  }

  /** The video half carries the resource id it was given into its result. */
  lemma AwaitedKeepsResource(resourceId: Json, submitted: Res<Json>, mode: string, net: Network, codec: Codec)
    requires VideoAwaited(resourceId, submitted, mode, net, codec).Ok?
    ensures var r := VideoAwaited(resourceId, submitted, mode, net, codec).value;
      r.Obj? && Get(r.fields, "resource_id") == Some(resourceId)
  {
    var r := VideoAwaited(resourceId, submitted, mode, net, codec).value;
    GetFour(r.fields, "resource_id");
  }

  /** When the save succeeds, the avatar stored under the role task holds
      the same `resource_id` the flow hands back with its video. */
  lemma FlowStoresItsRole(imageUrl: string, audioUrl: string, mode: string, aigcMeta: Json, maxWait: int, net: Network,
                          codec: Codec, store: Avatars.Store, now: string, isoformat: Json -> Res<string>)
    requires RolePhase(imageUrl, mode, net, codec).Ok?
    requires var awaited := RoleAwaited(imageUrl, mode, net, codec).value;
      awaited.1.Obj? && SaveRole(store, awaited.0, awaited.1.fields, mode, now, isoformat, codec).0 == Ok(true)
    ensures var awaited := RoleAwaited(imageUrl, mode, net, codec).value;
      var r := Flow(imageUrl, audioUrl, mode, aigcMeta, maxWait, net, codec, store, now, isoformat);
      && Avatars.ResourceIdByTask(r.1, PyStr(awaited.0, codec)) == Some(RolePhase(imageUrl, mode, net, codec).value)
      && (r.0.Ok? ==> r.0.value.Obj? && Get(r.0.value.fields, "resource_id") == Some(RolePhase(imageUrl, mode, net, codec).value))
  {
    var awaited := RoleAwaited(imageUrl, mode, net, codec).value;
    assert RolePhase(imageUrl, mode, net, codec).value == Get(awaited.1.fields, "resource_id").value;
    SavedRoleIsFound(store, awaited.0, awaited.1.fields, mode, now, isoformat, codec);
    if GenerateFromImageAudio(imageUrl, audioUrl, mode, aigcMeta, maxWait, net, codec).Ok? {
      FlowReturnsRoleResource(imageUrl, audioUrl, mode, aigcMeta, maxWait, net, codec);
    }
  }

  /** The second half: generate the video (with retries), wait for it with
      a fixed 600 seconds and pick out the video fields. */
  function VideoPhase(resourceId: Json, audioUrl: string, mode: string, aigcMeta: Json, net: Network, codec: Codec): Res<Json> {
    VideoAwaited(resourceId, Utils.Retry(MaxRetries, VideoAttempts(resourceId, audioUrl, mode, aigcMeta, net.videoSubmits, codec), Utils.CatchAll).result,
                 mode, net, codec)
  }

  function VideoAwaited(resourceId: Json, submitted: Res<Json>, mode: string, net: Network, codec: Codec): Res<Json> {
    var videoTask :- submitted;
    var video :- Wait(PyStr(videoTask, codec), mode, "video", VideoWait, CheckInterval, net.videoPolls, codec).result;
    match video
    case Obj(f) =>
      Ok(Obj([("resource_id", resourceId), ("video_url", Field(f, "video_url")),
              ("video_meta", Field(f, "video_meta")), ("aigc_meta_tagged", Field(f, "aigc_meta_tagged"))]))
    case _ => Err(NoAttribute(video))
  }

  /** `generate_video_from_image_audio`. */
  function GenerateFromImageAudio(imageUrl: string, audioUrl: string, mode: string, aigcMeta: Json, maxWait: int,
                                  net: Network, codec: Codec): Res<Json>
  {
    var resourceId :- RolePhase(imageUrl, mode, net, codec);
    VideoPhase(resourceId, audioUrl, mode, aigcMeta, net, codec)
  }

  /** The full flow waits at most 300 seconds for the role and 600 for the
      video whatever `max_wait_time` says. */
  lemma FlowIgnoresMaxWait(imageUrl: string, audioUrl: string, mode: string, aigcMeta: Json,
                           w1: int, w2: int, net: Network, codec: Codec)
    ensures GenerateFromImageAudio(imageUrl, audioUrl, mode, aigcMeta, w1, net, codec)
         == GenerateFromImageAudio(imageUrl, audioUrl, mode, aigcMeta, w2, net, codec)
  {
  }

  lemma VideoPhaseIgnoresAigcMeta(rid: Json, audioUrl: string, mode: string, m1: Json, m2: Json, net: Network, codec: Codec)
    ensures VideoPhase(rid, audioUrl, mode, m1, net, codec) == VideoPhase(rid, audioUrl, mode, m2, net, codec)
  {
    var a1 := VideoAttempts(rid, audioUrl, mode, m1, net.videoSubmits, codec);
    var a2 := VideoAttempts(rid, audioUrl, mode, m2, net.videoSubmits, codec);
    forall j: nat ensures a1(j) == a2(j) {
      GenerateVideoDropsAigcMeta(rid, audioUrl, mode, m1, m2);
    }
    Utils.RetryCongruent(MaxRetries, a1, a2, Utils.CatchAll);
  }

  /** Nor does the flow send `aigc_meta` anywhere: its outcome does not
      depend on it. */
  lemma FlowIgnoresAigcMeta(imageUrl: string, audioUrl: string, mode: string, m1: Json, m2: Json,
                            maxWait: int, net: Network, codec: Codec)
    ensures GenerateFromImageAudio(imageUrl, audioUrl, mode, m1, maxWait, net, codec)
         == GenerateFromImageAudio(imageUrl, audioUrl, mode, m2, maxWait, net, codec)
  {
    var role := RolePhase(imageUrl, mode, net, codec);
    if role.Ok? {
      VideoPhaseIgnoresAigcMeta(role.value, audioUrl, mode, m1, m2, net, codec);
    }
  }
}

=== FILE: avatars.dfy ===
/** The avatar store: the roles created by the audio-driven client, kept
    under the id of the task that created them, in insertion order. Only
    the in-memory mapping is modelled; the clock is a parameter (`now`, the
    current time already in ISO form, and `isoformat`, which renders a
    service timestamp as `datetime.fromtimestamp(t).isoformat()` does, or
    raises as it does for a value that is not a timestamp in range). */
module Avatars {
  import opened Wrappers
  import opened Text
  import opened Dicts
  import opened Py

  datatype ApiTimes = ApiTimes(receivedAt: Json, processedAt: Json, finishedAt: Json)

  datatype Avatar = Avatar(taskId: string, resourceId: Json, roleType: Json, facePosition: Json,
                           mode: string, createdAt: string, apiTimes: Option<ApiTimes>)

  /** `data["avatars"]`: task id to avatar. */
  type Store = Dict<Avatar>

  /** `resp_data.get(k)` on a dict that may be absent (empty). */
  function TimeField(respData: PyDict, k: string): Json {
    GetOr(respData, k, Null)
  }

  /** The service timestamp `save_avatar` renders: `finished_at` if truthy,
      else `processed_at`; `None` without `resp_data` or when neither is
      truthy. */
  function ServiceStamp(respData: PyDict): Option<Json> {
    if |respData| == 0 then None
    else
      var t := if Truthy(TimeField(respData, "finished_at")) then TimeField(respData, "finished_at")
               else TimeField(respData, "processed_at");
      if Truthy(t) then Some(t) else None
  }

  /** `created_at`: the service's time when there is one and it renders to
      a non-empty text, else the clock; a stamp the renderer rejects raises
      the renderer's error. */
  function CreatedAt(respData: PyDict, now: string, isoformat: Json -> Res<string>): (r: Res<string>)
    ensures |respData| > 0 && Truthy(TimeField(respData, "finished_at")) ==>
      (isoformat(TimeField(respData, "finished_at")).Err? ==> r == Err(isoformat(TimeField(respData, "finished_at")).error))
      && (isoformat(TimeField(respData, "finished_at")).Ok? && isoformat(TimeField(respData, "finished_at")).value != "" ==>
            r == isoformat(TimeField(respData, "finished_at")))
    ensures |respData| > 0 && !Truthy(TimeField(respData, "finished_at")) && Truthy(TimeField(respData, "processed_at")) ==>
      (isoformat(TimeField(respData, "processed_at")).Err? ==> r == Err(isoformat(TimeField(respData, "processed_at")).error))
      && (isoformat(TimeField(respData, "processed_at")).Ok? && isoformat(TimeField(respData, "processed_at")).value != "" ==>
            r == isoformat(TimeField(respData, "processed_at")))
    ensures |respData| == 0 || (!Truthy(TimeField(respData, "finished_at")) && !Truthy(TimeField(respData, "processed_at"))) ==>
      r == Ok(now)
    ensures r.Err? <==> ServiceStamp(respData).Some? && isoformat(ServiceStamp(respData).value).Err?
  {
    match ServiceStamp(respData)
    case None => Ok(now)
    case Some(t) =>
      var rendered :- isoformat(t);
      Ok(if rendered != "" then rendered else now)
  }

  /** The entry `save_avatar` stores, once its time is known. */
  function Entry(taskId: string, result: PyDict, mode: string, respData: PyDict, createdAt: string): (a: Avatar)
    requires HasKey(result, "resource_id")
    ensures a.taskId == taskId && a.mode == mode && a.createdAt == createdAt
    ensures a.resourceId == Get(result, "resource_id").value
    ensures a.roleType == GetOr(result, "role_type", Str("unknown"))
    ensures a.facePosition == GetOr(result, "face_position", Arr([]))
    ensures a.apiTimes.None? <==> |respData| == 0
    ensures a.apiTimes.Some? ==>
      a.apiTimes.value == ApiTimes(TimeField(respData, "received_at"), TimeField(respData, "processed_at"),
                                   TimeField(respData, "finished_at"))
  {
    Avatar(taskId, Get(result, "resource_id").value, GetOr(result, "role_type", Str("unknown")),
           GetOr(result, "face_position", Arr([])), mode, createdAt,
           if |respData| > 0 then Some(ApiTimes(TimeField(respData, "received_at"), TimeField(respData, "processed_at"),
                                               TimeField(respData, "finished_at")))
           else None)
  }

  /** `save_avatar`: what it returns (or raises), and the store afterwards.
      A result without `resource_id` and a time that cannot be rendered
      both leave the store as it was. */
  function Save(store: Store, taskId: string, result: PyDict, mode: string, respData: PyDict,
                now: string, isoformat: Json -> Res<string>): (r: (Res<bool>, Store))
    ensures !HasKey(result, "resource_id") ==> r == (Ok(false), store)
    ensures HasKey(result, "resource_id") && CreatedAt(respData, now, isoformat).Err? ==>
      r == (Err(CreatedAt(respData, now, isoformat).error), store)
    ensures HasKey(result, "resource_id") && CreatedAt(respData, now, isoformat).Ok? ==>
      && r.0 == Ok(true)
      && Get(r.1, taskId) == Some(Entry(taskId, result, mode, respData, CreatedAt(respData, now, isoformat).value))
      && forall k :: k != taskId ==> Get(r.1, k) == Get(store, k)
  {
    if !HasKey(result, "resource_id") then (Ok(false), store)
    else match CreatedAt(respData, now, isoformat)
      case Err(e) => (Err(e), store)
      case Ok(t) =>
        var a := Entry(taskId, result, mode, respData, t);
        forall k ensures Get(Set(store, taskId, a), k) == if k == taskId then Some(a) else Get(store, k) {
          GetSet(store, taskId, a, k);
        }
        (Ok(true), Set(store, taskId, a))
  }

  /** A `finished_at` that is not a timestamp in range (a date string, a
      millisecond count) makes `save_avatar` raise before anything is
      stored. */
  lemma UnrenderableTimeSavesNothing(store: Store, taskId: string, result: PyDict, mode: string, respData: PyDict,
                                     now: string, isoformat: Json -> Res<string>)
    requires HasKey(result, "resource_id")
    requires |respData| > 0 && Truthy(TimeField(respData, "finished_at"))
    requires isoformat(TimeField(respData, "finished_at")).Err?
    ensures Save(store, taskId, result, mode, respData, now, isoformat) ==
      (Err(isoformat(TimeField(respData, "finished_at")).error), store)
  {
  }

  /** `get_avatar_by_task_id`. */
  function ByTask(store: Store, taskId: string): Option<Avatar> {
    Get(store, taskId)
  }

  /** `get_resource_id_by_task_id`. */
  function ResourceIdByTask(store: Store, taskId: string): (r: Option<Json>)
    ensures r.Some? <==> HasKey(store, taskId)
    ensures r.Some? ==> r.value == ByTask(store, taskId).value.resourceId
  {
    match ByTask(store, taskId)
    case Some(a) => Some(a.resourceId)
    case None => None
  }

  /** A saved role is found again by its task, with the resource id the
      result carried. */
  lemma SavedIsFound(store: Store, taskId: string, result: PyDict, mode: string, respData: PyDict,
                     now: string, isoformat: Json -> Res<string>)
    requires Save(store, taskId, result, mode, respData, now, isoformat).0 == Ok(true)
    ensures var after := Save(store, taskId, result, mode, respData, now, isoformat).1;
      && ResourceIdByTask(after, taskId) == Some(Get(result, "resource_id").value)
      && ByTask(after, taskId).value.mode == mode
  {
  }

  /** `get_avatar_by_resource_id`: the first entry, in store order, whose
      resource id is the one asked for. */
  function ByResource(store: Store, resourceId: string): (r: Option<Avatar>)
    ensures r.None? <==> forall i | 0 <= i < |store| :: store[i].1.resourceId != Str(resourceId)
    ensures r.Some? ==> exists i | 0 <= i < |store| ::
      && store[i].1 == r.value && r.value.resourceId == Str(resourceId)
      && forall j | 0 <= j < i :: store[j].1.resourceId != Str(resourceId)
    decreases |store|
  {
    if |store| == 0 then None
    else if store[0].1.resourceId == Str(resourceId) then Some(store[0].1)
    else
      var r := ByResource(store[1..], resourceId);
      assert forall i | 1 <= i < |store| :: store[i] == store[1..][i - 1];
      r
  }

  /** The avatars of one mode, in store order; an empty mode keeps all. */
  function OfMode(avatars: seq<Avatar>, mode: string): (r: seq<Avatar>)
    ensures forall a :: a in r <==> a in avatars && (mode == "" || a.mode == mode)
    ensures mode == "" ==> r == avatars
    ensures |r| <= |avatars|
    decreases |avatars|
  {
    if |avatars| == 0 then []
    else
      var rest := OfMode(avatars[1..], mode);
      assert forall a :: a in avatars <==> a == avatars[0] || a in avatars[1..];
      assert avatars == [avatars[0]] + avatars[1..];
      if mode == "" || avatars[0].mode == mode then [avatars[0]] + rest else rest
  }

  /** The filter keeps store order: filtering two runs one after the other
      gives the first run's avatars followed by the second's. */
  lemma {:induction false} OfModeAppend(xs: seq<Avatar>, ys: seq<Avatar>, mode: string)
    ensures OfMode(xs + ys, mode) == OfMode(xs, mode) + OfMode(ys, mode)
    decreases |xs|
  {
    if |xs| > 0 {
      assert (xs + ys)[1..] == xs[1..] + ys;
      OfModeAppend(xs[1..], ys, mode);
    } else {
      assert xs + ys == ys;
    }
  }

  /** A single avatar passes the filter exactly when it has the mode. */
  lemma OfModeOne(a: Avatar, mode: string)
    ensures OfMode([a], mode) == if mode == "" || a.mode == mode then [a] else []
  {
    assert [a][1..] == [];
  }

  /** `a` is what a stable descending sort by `created_at` puts first: one
      with the greatest time, and the earliest of those in the sequence. */
  predicate FirstNewest(avatars: seq<Avatar>, a: Avatar) {
    && a in avatars
    && (forall x | x in avatars :: Le(x.createdAt, a.createdAt))
    && exists i | 0 <= i < |avatars| :: avatars[i] == a && forall j | 0 <= j < i :: !Le(a.createdAt, avatars[j].createdAt)
  }

  function Newest(avatars: seq<Avatar>): (a: Avatar)
    requires |avatars| > 0
    ensures FirstNewest(avatars, a)
    decreases |avatars|
  {
    if |avatars| == 1 then
      OnlyNewest(avatars);
      avatars[0]
    else
      var b := Newest(avatars[1..]);
      if Le(b.createdAt, avatars[0].createdAt) then
        HeadNewest(avatars, b);
        avatars[0]
      else
        TailNewest(avatars, b);
        b
  }

  lemma OnlyNewest(avatars: seq<Avatar>)
    requires |avatars| == 1
    ensures FirstNewest(avatars, avatars[0])
  {
    LeReflexive(avatars[0].createdAt);
    assert forall x | x in avatars :: x == avatars[0];
  }

  /** A head at least as new as the rest's newest is the newest. */
  lemma HeadNewest(avatars: seq<Avatar>, b: Avatar)
    requires |avatars| > 1 && FirstNewest(avatars[1..], b) && Le(b.createdAt, avatars[0].createdAt)
    ensures FirstNewest(avatars, avatars[0])
  {
    var head := avatars[0];
    LeReflexive(head.createdAt);
    forall x | x in avatars ensures Le(x.createdAt, head.createdAt) {
      if x != head {
        assert x in avatars[1..];
        LeTransitive(x.createdAt, b.createdAt, head.createdAt);
      }
    }
    assert avatars[0] == head;
  }

  /** Otherwise the rest's newest stays the newest. */
  lemma TailNewest(avatars: seq<Avatar>, b: Avatar)
    requires |avatars| > 1 && FirstNewest(avatars[1..], b) && !Le(b.createdAt, avatars[0].createdAt)
    ensures FirstNewest(avatars, b)
  {
    var head := avatars[0];
    LeTotal(b.createdAt, head.createdAt);
    assert forall x | x in avatars :: x == head || x in avatars[1..];
    var i :| 0 <= i < |avatars[1..]| && avatars[1..][i] == b && forall j | 0 <= j < i :: !Le(b.createdAt, avatars[1..][j].createdAt);
    assert avatars[i + 1] == b;
    assert forall j | 1 <= j < i + 1 :: avatars[j] == avatars[1..][j - 1];
  }

  function Values(store: Store): (vs: seq<Avatar>)
    ensures |vs| == |store|
    ensures forall i | 0 <= i < |store| :: vs[i] == store[i].1
  {
    seq(|store|, i requires 0 <= i < |store| => store[i].1)
  }

  /** `get_latest_avatar`. */
  function Latest(store: Store, mode: string): (r: Option<Avatar>)
    ensures r.None? <==> forall i | 0 <= i < |store| :: !(mode == "" || store[i].1.mode == mode)
    ensures r.Some? ==>
      && r.value in Values(store) && (mode == "" || r.value.mode == mode)
      && forall i | 0 <= i < |store| && (mode == "" || store[i].1.mode == mode) :: Le(store[i].1.createdAt, r.value.createdAt)
    ensures r.Some? ==> FirstNewest(OfMode(Values(store), mode), r.value)
  {
    var avatars := OfMode(Values(store), mode);
    assert forall i | 0 <= i < |store| :: store[i].1 in Values(store);
    if |avatars| == 0 then None else Some(Newest(avatars))
  }
}

=== FILE: canonical.dfy ===
/** The canonical forms the request signature is computed over: the query
    string with its `&`-separated parameters in sorted order, and the header
    block with one `name:value` line per header plus the `;`-joined list of
    signed header names. */
module Canonical {
  import opened Text
  import opened Sorting
  import opened Dicts

  // ------------------------------------------------------------ query string

  lemma {:induction false} JoinedLengthInsert(x: string, xs: seq<string>)
    requires SortedBy(xs, Identity)
    ensures JoinedLength(Insert(x, xs, Identity)) == |x| + JoinedLength(xs)
    decreases |xs|
  {
    if |xs| > 0 && !Le(x, xs[0]) {
      JoinedLengthInsert(x, xs[1..]);
      assert SortedBy(xs[1..], Identity);
    }
  }

  /** Sorting keeps the total length of the parts. */
  lemma {:induction false} JoinedLengthSort(xs: seq<string>)
    ensures JoinedLength(Sort(xs, Identity)) == JoinedLength(xs)
    decreases |xs|
  {
    if |xs| > 0 {
      JoinedLengthSort(xs[1..]);
      JoinedLengthInsert(xs[0], Sort(xs[1..], Identity));
    }
  }

  /** Every element of a permutation of `&`-free parts is `&`-free. */
  lemma NoSepInPermutation(xs: seq<string>, ys: seq<string>, c: char)
    requires multiset(xs) == multiset(ys)
    requires forall i :: 0 <= i < |xs| ==> c !in xs[i]
    ensures forall i :: 0 <= i < |ys| ==> c !in ys[i]
  {
    forall i | 0 <= i < |ys| ensures c !in ys[i] {
      assert ys[i] in multiset(ys);
      var k :| 0 <= k < |xs| && xs[k] == ys[i];
    }
  }

  /** The facts behind `CanonicalQuery` for a non-empty query. */
  lemma CanonicalQuerySorted(q: string)
    requires q != ""
    ensures var params := Split(q, '&');
      var sorted := Sort(params, Identity);
      && (forall i :: 0 <= i < |sorted| ==> '&' !in sorted[i])
      && Split(Join(sorted, "&"), '&') == sorted
      && |Join(sorted, "&")| == |q|
  {
    var params := Split(q, '&');
    var sorted := Sort(params, Identity);
    NoSepInPermutation(params, sorted, '&');
    SplitJoin(sorted, '&');
    SortedJoinLength(q);
  }

  /** Re-joining the sorted parameters gives back a string of the same
      length: sorting keeps the parts' total length and their count. */
  lemma SortedJoinLength(q: string)
    ensures |Join(Sort(Split(q, '&'), Identity), "&")| == |q|
  {
    var params := Split(q, '&');
    var sorted := Sort(params, Identity);
    var n := |params|;
    assert |"&"| == 1 && |sorted| == n;
    JoinLength(params, "&");
    JoinLength(sorted, "&");
    assert |Join(params, "&")| == JoinedLength(params) + (n - 1);
    assert |Join(sorted, "&")| == JoinedLength(sorted) + (n - 1);
    JoinedLengthSort(params);
    JoinSplit(q, '&');
  }

  /** `_canonicalize_query_params`: the empty string stays empty, anything
      else is re-joined with its parameters in sorted order. */
  function CanonicalQuery(q: string): (r: string)
    ensures q == "" ==> r == ""
    ensures |r| == |q|
    ensures q != "" ==>
      && SortedBy(Split(r, '&'), Identity)
      && multiset(Split(r, '&')) == multiset(Split(q, '&'))
  {
    if q == "" then ""
    else
      CanonicalQuerySorted(q);
      Join(Sort(Split(q, '&'), Identity), "&")
  }

  /** Canonicalising a canonical query string changes nothing. */
  lemma CanonicalQueryIdempotent(q: string)
    ensures CanonicalQuery(CanonicalQuery(q)) == CanonicalQuery(q)
  {
    if q != "" {
      CanonicalQuerySorted(q);
      SortOfSorted(Sort(Split(q, '&'), Identity), Identity);
    }
  }

  lemma SortedHeadLeast(a: seq<string>, x: string)
    requires SortedBy(a, Identity) && x in multiset(a)
    ensures Le(a[0], x)
  {
    var i :| 0 <= i < |a| && a[i] == x;
    if i > 0 {
      assert Le(Identity(a[0]), Identity(a[i]));
    } else {
      LeReflexive(a[0]);
    }
  }

  lemma SortedTail(a: seq<string>)
    requires |a| > 0 && SortedBy(a, Identity)
    ensures SortedBy(a[1..], Identity)
  {
    forall i, j | 0 <= i < j < |a[1..]| ensures Le(Identity(a[1..][i]), Identity(a[1..][j])) {
      assert a[1..][i] == a[i + 1] && a[1..][j] == a[j + 1];
    }
  }

  lemma MultisetTail(a: seq<string>)
    requires |a| > 0
    ensures multiset(a[1..]) == multiset(a) - multiset{a[0]}
  {
    assert a == [a[0]] + a[1..];
  }

  /** Two sorted lists with the same elements are the same list. */
  lemma {:induction false} SortedUnique(a: seq<string>, b: seq<string>)
    requires SortedBy(a, Identity) && SortedBy(b, Identity)
    requires multiset(a) == multiset(b)
    ensures a == b
    decreases |a|
  {
    assert |a| == |multiset(a)| == |multiset(b)| == |b|;
    if |a| > 0 {
      assert a[0] == b[0] by {
        assert a[0] in multiset(a) && b[0] in multiset(b);
        SortedHeadLeast(a, b[0]);
        SortedHeadLeast(b, a[0]);
        LeAntisymmetric(a[0], b[0]);
      }
      assert multiset(a[1..]) == multiset(b[1..]) by {
        MultisetTail(a);
        MultisetTail(b);
      }
      SortedTail(a);
      SortedTail(b);
      SortedUnique(a[1..], b[1..]);
      assert a == [a[0]] + a[1..] && b == [b[0]] + b[1..];
    }
  }

  /** The order in which the caller lists the query parameters does not
      matter: two query strings with the same parameters canonicalise alike. */
  lemma QueryOrderIrrelevant(q1: string, q2: string)
    requires q1 != "" && q2 != ""
    requires multiset(Split(q1, '&')) == multiset(Split(q2, '&'))
    ensures CanonicalQuery(q1) == CanonicalQuery(q2)
  {
    var s1 := Sort(Split(q1, '&'), Identity);
    var s2 := Sort(Split(q2, '&'), Identity);
    SortedUnique(s1, s2);
  }

  // ---------------------------------------------------------------- headers

  type Headers = Dict<string>

  /** `sorted(headers.items())` orders by the header name as given. */
  function HeaderKey(h: (string, string)): string { h.0 }

  /** A header's name as it is signed: lower-cased and stripped. */
  function HeaderName(h: (string, string)): string { Lower(Strip(h.0)) }

  function HeaderLine(h: (string, string)): string { HeaderName(h) + ":" + Strip(h.1) }

  datatype HeaderForms = HeaderForms(block: string, signed: string)

  function Lines(hs: Headers): (r: seq<string>)
    ensures |r| == |hs|
    ensures forall i :: 0 <= i < |hs| ==> r[i] == HeaderLine(hs[i])
  {
    seq(|hs|, i requires 0 <= i < |hs| => HeaderLine(hs[i]))
  }

  function Names(hs: Headers): (r: seq<string>)
    ensures |r| == |hs|
    ensures forall i :: 0 <= i < |hs| ==> r[i] == HeaderName(hs[i])
  {
    seq(|hs|, i requires 0 <= i < |hs| => HeaderName(hs[i]))
  }

  /** A header line holds a newline only where its header's name or value
      holds one inside it. */
  lemma LineNewlines(h: (string, string))
    ensures '\n' in HeaderLine(h) ==> '\n' in h.0 || '\n' in h.1
  {
    LowerKeeps(Strip(h.0), '\n');
    StripKeeps(h.0, '\n');
    StripKeeps(h.1, '\n');
  }

  /** A signed name holds a `;` only where the header's own name does. */
  lemma NameSemicolons(h: (string, string))
    ensures ';' in HeaderName(h) ==> ';' in h.0
  {
    LowerKeeps(Strip(h.0), ';');
    StripKeeps(h.0, ';');
  }

  /** `_canonicalize_headers`: the newline-joined lines with a final
      newline, and the `;`-joined names, both in sorted header order. */
  function CanonicalHeaders(headers: Headers): HeaderForms {
    var sorted := Sort(headers, HeaderKey);
    HeaderForms(Join(Lines(sorted), "\n") + "\n", Join(Names(sorted), ";"))
  }

  /** Each line followed by its own newline. */
  function Terminated(lines: seq<string>): string
    decreases |lines|
  {
    if |lines| == 0 then "" else lines[0] + "\n" + Terminated(lines[1..])
  }

  lemma {:induction false} JoinTerminated(lines: seq<string>)
    requires |lines| >= 1
    ensures Join(lines, "\n") + "\n" == Terminated(lines)
    decreases |lines|
  {
    if |lines| > 1 {
      JoinTerminated(lines[1..]);
    }
  }

  /** The canonical header block is one newline-terminated `name:value` line
      per header, with every header taken exactly once in ascending order of
      its name as given; the signed-header list names the same headers in
      the same order. An empty header map still yields a single newline. */
  lemma CanonicalHeadersForm(headers: Headers)
    ensures var order := Sort(headers, HeaderKey);
      && SortedBy(order, HeaderKey)
      && multiset(order) == multiset(headers)
      && (|headers| >= 1 ==> CanonicalHeaders(headers).block == Terminated(Lines(order)))
      && (|headers| == 0 ==> CanonicalHeaders(headers) == HeaderForms("\n", ""))
      && (|headers| >= 1 && (forall i :: 0 <= i < |headers| ==> ';' !in HeaderName(headers[i])) ==>
            Split(CanonicalHeaders(headers).signed, ';') == Names(order))
  {
    var order := Sort(headers, HeaderKey);
    if |headers| >= 1 {
      JoinTerminated(Lines(order));
      if forall i :: 0 <= i < |headers| ==> ';' !in HeaderName(headers[i]) {
        forall i | 0 <= i < |order| ensures ';' !in Names(order)[i] {
          assert order[i] in multiset(headers);
          var k :| 0 <= k < |headers| && headers[k] == order[i];
        }
        SplitJoin(Names(order), ';');
      }
    }
  }

  /** When no header name or value holds a newline, the canonical block
      without its final newline splits back into exactly the header lines,
      in sorted order: the service can read every header off the block. */
  lemma HeaderBlockSplits(headers: Headers)
    requires |headers| >= 1
    requires forall i :: 0 <= i < |headers| ==> '\n' !in headers[i].0 && '\n' !in headers[i].1
    ensures var block := CanonicalHeaders(headers).block;
      && |block| >= 1 && block[|block| - 1] == '\n'
      && Split(block[..|block| - 1], '\n') == Lines(Sort(headers, HeaderKey))
  {
    var order := Sort(headers, HeaderKey);
    var lines := Lines(order);
    forall i | 0 <= i < |lines| ensures '\n' !in lines[i] {
      assert order[i] in multiset(headers);
      var k :| 0 <= k < |headers| && headers[k] == order[i];
      LineNewlines(order[i]);
    }
    SplitJoin(lines, '\n');
    var block := CanonicalHeaders(headers).block;
    assert block == Join(lines, "\n") + "\n";
    assert block[..|block| - 1] == Join(lines, "\n");
  }

  /** A header name with no surrounding whitespace is signed in lower case. */
  lemma NameOfPlain(name: string, lowered: string, v: string)
    requires |name| > 0 && !IsSpace(name[0]) && !IsSpace(name[|name| - 1])
    requires |lowered| == |name| && forall i :: 0 <= i < |name| ==> lowered[i] == LowerChar(name[i])
    ensures HeaderName((name, v)) == lowered
  {
  }

  lemma ClientHeadersSorted(h: Headers)
    requires |h| == 3 && h[0].0 == "Content-Type" && h[1].0 == "Host" && h[2].0 == "X-Content-Sha256"
    ensures SortedBy(h, HeaderKey)
  {
    assert Le("Content-Type", "Host");
    assert Le("Host", "X-Content-Sha256");
    assert Le("Content-Type", "X-Content-Sha256");
  }

  lemma ContentTypeLowered()
    ensures HeaderName(("Content-Type", "")) == "content-type"
  {
    NameOfPlain("Content-Type", "content-type", "");
  }

  lemma HostLowered()
    ensures HeaderName(("Host", "")) == "host"
  {
    NameOfPlain("Host", "host", "");
  }

  lemma DigestLowered()
    ensures HeaderName(("X-Content-Sha256", "")) == "x-content-sha256"
  {
    NameOfPlain("X-Content-Sha256", "x-content-sha256", "");
  }

  lemma ClientHeaderNames(h: Headers)
    requires |h| == 3 && h[0].0 == "Content-Type" && h[1].0 == "Host" && h[2].0 == "X-Content-Sha256"
    ensures Names(h) == ["content-type", "host", "x-content-sha256"]
  {
    var n := Names(h);
    assert n[0] == "content-type" by {
      ContentTypeLowered();
      assert HeaderName(h[0]) == HeaderName(("Content-Type", ""));
    }
    assert n[1] == "host" by {
      HostLowered();
      assert HeaderName(h[1]) == HeaderName(("Host", ""));
    }
    assert n[2] == "x-content-sha256" by {
      DigestLowered();
      assert HeaderName(h[2]) == HeaderName(("X-Content-Sha256", ""));
    }
  }

  /** The three headers every request signs are already in order, and their
      names are signed as `content-type;host;x-content-sha256`. */
  lemma SignedRequestHeaders(contentType: string, host: string, digest: string)
    ensures var h := [("Content-Type", contentType), ("Host", host), ("X-Content-Sha256", digest)];
      CanonicalHeaders(h).signed == Join(["content-type", "host", "x-content-sha256"], ";")
  {
    var h := [("Content-Type", contentType), ("Host", host), ("X-Content-Sha256", digest)];
    ClientHeadersSorted(h);
    SortOfSorted(h, HeaderKey);
    var n := Names(h);
    ClientHeaderNames(h);
    assert CanonicalHeaders(h).signed == Join(n, ";");
  }
}

=== FILE: dicts.dfy ===
/** Python's `dict` with string keys, as an insertion-ordered list of entries.
    `d[k] = v` overwrites an existing entry in place and appends a new one at
    the end, `d.update(e)` does that for each entry of `e` in order, and
    iteration follows the entry order. */
module Dicts {
  import opened Wrappers

  type Dict<V> = seq<(string, V)>

  function Keys<V>(d: Dict<V>): (ks: seq<string>)
    ensures |ks| == |d|
    ensures forall i :: 0 <= i < |d| ==> ks[i] == d[i].0
  {
    seq(|d|, i requires 0 <= i < |d| => d[i].0)
  }

  /** Every Python dict has pairwise distinct keys. */
  ghost predicate NoDupKeys<V>(d: Dict<V>) {
    forall i, j :: 0 <= i < j < |d| ==> d[i].0 != d[j].0
  }

  predicate HasKey<V>(d: Dict<V>, k: string) {
    k in Keys(d)
  }

  /** `d.get(k)`: the value of the first entry with key `k`. */
  function Get<V>(d: Dict<V>, k: string): (r: Option<V>)
    ensures r.Some? <==> HasKey(d, k)
    ensures r.Some? ==> (k, r.value) in d
    decreases |d|
  {
    if |d| == 0 then None
    else if d[0].0 == k then Some(d[0].1)
    else
      assert Keys(d) == [d[0].0] + Keys(d[1..]);
      Get(d[1..], k)
  }

  /** `d.get(k, default)`. */
  function GetOr<V>(d: Dict<V>, k: string, default: V): V {
    Get(d, k).GetOr(default)
  }

  /** `d[k] = v`. */
  function Set<V>(d: Dict<V>, k: string, v: V): (r: Dict<V>)
    decreases |d|
  {
    if |d| == 0 then [(k, v)]
    else if d[0].0 == k then [(k, v)] + d[1..]
    else [d[0]] + Set(d[1..], k, v)
  }

  /** `d.update(e)`. */
  function Update<V>(d: Dict<V>, e: Dict<V>): (r: Dict<V>)
    decreases |e|
  {
    if |e| == 0 then d else Update(Set(d, e[0].0, e[0].1), e[1..])
  }

  /** After `d[k] = v`, `k` maps to `v` and every other key is untouched. */
  lemma {:induction false} GetSet<V>(d: Dict<V>, k: string, v: V, k': string)
    ensures Get(Set(d, k, v), k') == if k' == k then Some(v) else Get(d, k')
    decreases |d|
  {
    if |d| > 0 && d[0].0 != k {
      GetSet(d[1..], k, v, k');
      assert Set(d, k, v)[1..] == Set(d[1..], k, v);
    }
  }

  /** `d[k] = v` keeps the key order and appends `k` only if it is new. */
  lemma {:induction false} KeysSet<V>(d: Dict<V>, k: string, v: V)
    ensures Keys(Set(d, k, v)) == if HasKey(d, k) then Keys(d) else Keys(d) + [k]
    decreases |d|
  {
    if |d| > 0 {
      assert Keys(d) == [d[0].0] + Keys(d[1..]);
      if d[0].0 != k {
        KeysSet(d[1..], k, v);
        assert Set(d, k, v) == [d[0]] + Set(d[1..], k, v);
        assert Keys(Set(d, k, v)) == [d[0].0] + Keys(Set(d[1..], k, v));
      } else {
        assert Keys(Set(d, k, v)) == [k] + Keys(d[1..]);
      }
    }
  }

  lemma NoDupSet<V>(d: Dict<V>, k: string, v: V)
    requires NoDupKeys(d)
    ensures NoDupKeys(Set(d, k, v))
  {
    KeysSet(d, k, v);
    var r := Set(d, k, v);
    assert forall i :: 0 <= i < |r| ==> r[i].0 == Keys(r)[i];
    assert forall i :: 0 <= i < |d| ==> d[i].0 == Keys(d)[i];
  }

  /** `d.update(e)`: a key of `e` takes `e`'s value, any other key keeps `d`'s. */
  lemma {:induction false} GetUpdate<V>(d: Dict<V>, e: Dict<V>, k: string)
    requires NoDupKeys(e)
    ensures Get(Update(d, e), k) == if HasKey(e, k) then Get(e, k) else Get(d, k)
    decreases |e|
  {
    if |e| > 0 {
      var d' := Set(d, e[0].0, e[0].1);
      assert NoDupKeys(e[1..]);
      GetUpdate(d', e[1..], k);
      GetSet(d, e[0].0, e[0].1, k);
      assert Keys(e) == [e[0].0] + Keys(e[1..]);
      if k == e[0].0 {
        assert !HasKey(e[1..], k);
      }
    }
  }

  /** `d.update(e)` keeps the keys of `d` in front, in their order. */
  lemma {:induction false} KeysUpdatePrefix<V>(d: Dict<V>, e: Dict<V>)
    ensures |Update(d, e)| >= |d|
    ensures Keys(Update(d, e))[..|d|] == Keys(d)
    decreases |e|
  {
    if |e| > 0 {
      var d' := Set(d, e[0].0, e[0].1);
      KeysSet(d, e[0].0, e[0].1);
      KeysUpdatePrefix(d', e[1..]);
      assert Keys(d')[..|d|] == Keys(d);
    }
  }

  lemma {:induction false} NoDupUpdate<V>(d: Dict<V>, e: Dict<V>)
    requires NoDupKeys(d)
    ensures NoDupKeys(Update(d, e))
    decreases |e|
  {
    if |e| > 0 {
      NoDupSet(d, e[0].0, e[0].1);
      NoDupUpdate(Set(d, e[0].0, e[0].1), e[1..]);
    }
  }

  /** A lookup in `d + e` finds `d`'s entry if there is one, else `e`'s. */
  lemma {:induction false} GetAppend<V>(d: Dict<V>, e: Dict<V>, k: string)
    ensures Get(d + e, k) == if HasKey(d, k) then Get(d, k) else Get(e, k)
    decreases |d|
  {
    if |d| > 0 {
      assert Keys(d) == [d[0].0] + Keys(d[1..]);
      assert (d + e)[1..] == d[1..] + e;
      GetAppend(d[1..], e, k);
    } else {
      assert d + e == e;
    }
  }

  /** A lookup in a dict of two entries tries them in order. */
  lemma GetTwo<V>(d: Dict<V>, k: string)
    requires |d| == 2
    ensures Get(d, k) == if d[0].0 == k then Some(d[0].1) else if d[1].0 == k then Some(d[1].1) else None
  {
    assert d[1..][1..] == [];
  }

  /** A lookup in a dict of three entries tries them in order. */
  lemma GetThree<V>(d: Dict<V>, k: string)
    requires |d| == 3
    ensures Get(d, k) == if d[0].0 == k then Some(d[0].1) else if d[1].0 == k then Some(d[1].1)
                         else if d[2].0 == k then Some(d[2].1) else None
  {
    assert d[1..][1..][1..] == [];
  }

  /** A lookup in a dict of four entries tries them in order. */
  lemma GetFour<V>(d: Dict<V>, k: string)
    requires |d| == 4
    ensures Get(d, k) == if d[0].0 == k then Some(d[0].1) else if d[1].0 == k then Some(d[1].1)
                         else if d[2].0 == k then Some(d[2].1) else if d[3].0 == k then Some(d[3].1) else None
  {
    var rest := d[1..];
    assert |rest| == 3 && rest[0] == d[1] && rest[1] == d[2] && rest[2] == d[3];
    GetThree(rest, k);
  }
}

=== FILE: driven.dfy ===
/** The two image-plus-video clients: single-image video driving and
    Jimeng action mimicry. Both validate the two URLs, submit one task,
    query it by id and hand back the response's `data` unchanged, and poll
    until the task is done or carries a video URL. They differ only in the
    service key, the actions, the payload shape and the error texts. */
module Driven {
  import opened Wrappers
  import opened Text
  import opened Dicts
  import opened Py
  import opened Request
  import opened Tasks
  import opened Poll

  datatype Client = VideoDriven | Mimic

  function ServiceKey(c: Client): string {
    match c
    case VideoDriven => "realman_avatar_imitator_v2v_gen_video"
    case Mimic => "jimeng_dream_actor_m1_gen_video_cv"
  }

  function SubmitAction(c: Client): string {
    match c
    case VideoDriven => "CVSubmitTask"
    case Mimic => "CVSync2AsyncSubmitTask"
  }

  function QueryAction(c: Client): string {
    match c
    case VideoDriven => "CVGetResult"
    case Mimic => "CVSync2AsyncGetResult"
  }

  /** The text of a refused submit, raised inside the `try`. */
  function SubmitFailure(c: Client): string {
    match c
    case VideoDriven => "单图视频驱动任务提交失败: "
    case Mimic => "动作模仿任务提交失败: "
  }

  /** The text every submit error is re-raised under. */
  function SubmitWrap(c: Client): string {
    match c
    case VideoDriven => "提交单图视频驱动任务失败: "
    case Mimic => "提交动作模仿任务失败: "
  }

  /** The text of a refused query, and also the one it is re-raised under. */
  function ResultFailure(c: Client): string {
    match c
    case VideoDriven => "获取单图视频驱动结果失败: "
    case Mimic => "获取动作模仿结果失败: "
  }

  /** The submit payload: the picture, and the driving video either nested
      with the fixed store type 0 or given directly. */
  function Payload(c: Client, imageUrl: string, videoUrl: string): PyDict {
    match c
    case VideoDriven =>
      [("image_url", Str(imageUrl)), ("driving_video_info", Obj([("store_type", Int(0)), ("video_url", Str(videoUrl))]))]
    case Mimic => [("image_url", Str(imageUrl)), ("video_url", Str(videoUrl))]
  }

  /** Where the driving video's URL sits in the payload. */
  function VideoOf(c: Client, data: PyDict): Option<Json> {
    match c
    case VideoDriven =>
      var info := Get(data, "driving_video_info");
      if info.Some? && info.value.Obj? then Get(info.value.fields, "video_url") else None
    case Mimic => Get(data, "video_url")
  }

  /** The request `submit_*_task` sends once both URLs pass: the caller's
      two URLs, nothing else, and `req_json` only with a truthy `aigc_meta`. */
  function SubmitCall(c: Client, imageUrl: string, videoUrl: string, aigcMeta: Json, codec: Codec): (r: Res<Call>)
    ensures r.Ok? <==> Utils.ValidateUrl(imageUrl) && Utils.ValidateUrl(videoUrl)
    ensures !Utils.ValidateUrl(imageUrl) ==> r == Err(Exc(ValueError, BadUrlMessage(Image)))
    ensures Utils.ValidateUrl(imageUrl) && !Utils.ValidateUrl(videoUrl) ==> r == Err(Exc(ValueError, BadUrlMessage(Video)))
    ensures r.Ok? ==>
      && r.value.action == SubmitAction(c) && r.value.reqKey == ServiceKey(c) && r.value.taskId == ""
      && Keys(r.value.data) == (if c == Mimic then ["image_url", "video_url"] else ["image_url", "driving_video_info"])
      && Get(r.value.data, "image_url") == Some(Str(imageUrl))
      && VideoOf(c, r.value.data) == Some(Str(videoUrl))
      && r.value.reqJson == (if Truthy(aigcMeta) then codec.dumps(Obj([("aigc_meta", aigcMeta)])) else "")
  {
    var _ :- CheckUrl(imageUrl, Image);
    var _ :- CheckUrl(videoUrl, Video);
    PayloadCarriesUrls(c, imageUrl, videoUrl);
    Ok(Call("POST", SubmitAction(c), ServiceKey(c), DefaultVersion, Payload(c, imageUrl, videoUrl), "", AigcReqJson(aigcMeta, codec)))
  }

  /** The payload holds the two URLs and nothing else. */
  lemma PayloadCarriesUrls(c: Client, imageUrl: string, videoUrl: string)
    ensures var data := Payload(c, imageUrl, videoUrl);
      && Keys(data) == (if c == Mimic then ["image_url", "video_url"] else ["image_url", "driving_video_info"])
      && Get(data, "image_url") == Some(Str(imageUrl))
      && VideoOf(c, data) == Some(Str(videoUrl))
  {
    var data := Payload(c, imageUrl, videoUrl);
    if c == VideoDriven {
      assert Keys(data) == ["image_url", "driving_video_info"];
      assert Keys(Obj([("store_type", Int(0)), ("video_url", Str(videoUrl))]).fields) == ["store_type", "video_url"];
    } else {
      assert Keys(data) == ["image_url", "video_url"];
    }
  }

  /** `submit_*_task`: the URL checks raise before the request; every
      error after it is re-raised under the client's wrapper text. */
  function Submit(c: Client, imageUrl: string, videoUrl: string, aigcMeta: Json, response: Res<Json>, codec: Codec): (r: Res<Json>)
    ensures SubmitCall(c, imageUrl, videoUrl, aigcMeta, codec).Err? ==> r == Err(SubmitCall(c, imageUrl, videoUrl, aigcMeta, codec).error)
    ensures SubmitCall(c, imageUrl, videoUrl, aigcMeta, codec).Ok? ==>
      if response.Ok? && Submitted(response.value, SubmitFailure(c), codec).Ok?
      then r == Submitted(response.value, SubmitFailure(c), codec)
      else r.Err? && r.error.kind == Exception && StartsWith(r.error.msg, SubmitWrap(c))
  {
    var _ :- SubmitCall(c, imageUrl, videoUrl, aigcMeta, codec);
    var answer := (var resp :- response; Submitted(resp, SubmitFailure(c), codec));
    match answer
    case Ok(id) => Ok(id)
    case Err(e) => Err(Exc(Exception, SubmitWrap(c) + e.msg))
  }

  /** The query `get_*_result` sends. */
  function ResultCall(c: Client, taskId: string, aigcMeta: Json, codec: Codec): (r: Call)
    ensures r.action == QueryAction(c) && r.reqKey == ServiceKey(c) && r.taskId == taskId && r.data == []
    ensures r.reqJson == if Truthy(aigcMeta) then codec.dumps(Obj([("aigc_meta", aigcMeta)])) else ""
  {
    Call("POST", QueryAction(c), ServiceKey(c), DefaultVersion, [], taskId, AigcReqJson(aigcMeta, codec))
  }

  /** The body of the query's `try`. */
  function Answer(c: Client, response: Res<Json>, codec: Codec): Res<Json> {
    var r :- response;
    match r
    case Obj(f) =>
      if !Succeeded(f) then Err(Exc(Exception, ResultFailure(c) + PyStr(GetOr(f, "message", Str(UnknownError)), codec)))
      else Index(r, "data")
    case _ => Err(NoAttribute(r))
  }

  /** `get_*_result`: a successful response's `data`, exactly as sent. */
  function GetResult(c: Client, response: Res<Json>, codec: Codec): (r: Res<Json>)
    ensures r.Ok? <==> response.Ok? && response.value.Obj? && Succeeded(response.value.fields) && HasKey(response.value.fields, "data")
    ensures r.Ok? ==> r.value == Get(response.value.fields, "data").value
    ensures r.Err? ==> r.error.kind == Exception && StartsWith(r.error.msg, ResultFailure(c))
  {
    match Answer(c, response, codec)
    case Ok(data) => Ok(data)
    case Err(e) => Err(Exc(Exception, ResultFailure(c) + e.msg))
  }

  /** A refused query is an error the loop swallows, unless the service's
      own message carries the marker. */
  lemma RefusedQueryKeepsPolling(c: Client, response: Json, codec: Codec)
    requires response.Obj? && !Succeeded(response.fields)
    requires !Contains(PyStr(GetOr(response.fields, "message", Str(UnknownError)), codec), Marker)
    ensures GetResult(c, Ok(response), codec).Err?
    ensures !Escapes(GetResult(c, Ok(response), codec).error)
  {
    var m := PyStr(GetOr(response.fields, "message", Str(UnknownError)), codec);
    var f := ResultFailure(c);
    assert Answer(c, Ok(response), codec) == Err(Exc(Exception, f + m));
    assert f + (f + m) == (f + f) + m;
    assert Marker[0] !in f + f;
    ContainsPastPrefix(f + f, m, Marker);
  }

  // -------------------------------------------------------------- waiting

  function Observations(c: Client, replies: nat -> Observation, codec: Codec): (f: nat -> Observation)
    ensures forall i: nat :: f(i) == Observation(GetResult(c, replies(i).result, codec), replies(i).took)
  {
    (i: nat) => Observation(GetResult(c, replies(i).result, codec), replies(i).took)
  }

  /** `wait_for_completion`: the deadline raises a plain `Exception`. */
  function Wait(c: Client, maxWait: int, interval: nat, replies: nat -> Observation, codec: Codec): PollEnd
    requires interval > 0
  {
    Poll.Wait(DrivenVerdict, PlainTimeoutFor(maxWait), Observations(c, replies, codec), maxWait, interval)
  }

  /** The wait returns the last response's `data` unchanged, and only when
      it reports the task done or carries a truthy video URL. */
  lemma WaitReturnsData(c: Client, maxWait: int, interval: nat, replies: nat -> Observation, codec: Codec)
    requires interval > 0
    requires Wait(c, maxWait, interval, replies, codec).exit == Returned
    ensures var w := Wait(c, maxWait, interval, replies, codec);
      && w.polls > 0 && replies(w.polls - 1).result.Ok?
      && var response := replies(w.polls - 1).result.value;
      && response.Obj? && Succeeded(response.fields) && HasKey(response.fields, "data")
      && w.result == Ok(Get(response.fields, "data").value)
      && w.result.value.Obj?
      && (FieldIs(w.result.value.fields, "status", "done") || PresentTruthy(w.result.value.fields, "video_url"))
  {
    var w := Wait(c, maxWait, interval, replies, codec);
    WaitReturnsQuery(c, maxWait, interval, replies, codec);
    DrivenFinishes(w.result.value);
  }

  /** A returned wait hands back the last query's result, which the loop
      judged finished. */
  lemma WaitReturnsQuery(c: Client, maxWait: int, interval: nat, replies: nat -> Observation, codec: Codec)
    requires interval > 0
    requires Wait(c, maxWait, interval, replies, codec).exit == Returned
    ensures var w := Wait(c, maxWait, interval, replies, codec);
      && w.polls > 0
      && w.result == GetResult(c, replies(w.polls - 1).result, codec)
      && w.result.Ok? && DrivenVerdict(w.result.value) == Ok(Finish)
  {
    var w := Wait(c, maxWait, interval, replies, codec);
    var obs := Observations(c, replies, codec);
    WaitReturns(DrivenVerdict, PlainTimeoutFor(maxWait), obs, maxWait, interval);
    assert obs(w.polls - 1).result == GetResult(c, replies(w.polls - 1).result, codec);
  }

  /** The loop raises for a lost task or an error carrying the marker,
      and after the deadline raises a plain `Exception`, not a
      `TimeoutError`. */
  lemma WaitRaises(c: Client, maxWait: int, interval: nat, replies: nat -> Observation, codec: Codec)
    requires interval > 0
    ensures var w := Wait(c, maxWait, interval, replies, codec);
      && (w.exit == Raised ==> w.result.Err? && Escapes(w.result.error))
      && (w.exit == DeadlinePassed ==>
            w.result == Err(Exc(Exception, "等待超时 (" + Decimal(maxWait) + "秒)，任务可能仍在处理")))
  {
  }
}

=== FILE: effect.dfy ===
/** The creative-effect video client. A template id decides which of two
    service generations serves it (and so the `req_key`), whether it takes
    one image URL or two joined by `|`, and whether the split-screen switch
    is sent. Result queries may run without a `req_key`: the client then
    probes both generations for the task and caches the first that answers. */
module Effect {
  import opened Wrappers
  import opened Text
  import opened Dicts
  import opened Py
  import opened Request
  import opened Tasks
  import opened Poll
  import Utils

  // ------------------------------------------------------------ templates

  const V1Templates: seq<string> := [
    "becoming_doll", "becoming_doll_720p",
    "all_things_ridability_pig", "all_things_ridability_pig_720p",
    "all_things_ridability_tiger", "all_things_ridability_tiger_720p",
    "all_things_ridability_loong", "all_things_ridability_loong_720p",
    "all_things_bloom_with_flowers", "all_things_bloom_with_flowers_720p",
    "double_embrace_single_person", "double_embrace_single_person_720p",
    "double_embrace", "double_embrace_720p",
    "beauty_surround", "beauty_surround_720p",
    "handsome_man_surround", "handsome_man_surround_720p",
    "ai_baby", "ai_baby_720p"]

  const V2Templates: seq<string> := [
    "multi_style_stacking_dolls",
    "fluffy_dream_doll_s2e", "fluffy_dream_doll_s2e_720p",
    "fluffy_dream_doll", "fluffy_dream_doll_720p",
    "my_world", "my_world_720p",
    "crystal_ball", "crystal_ball_720p",
    "lying_on_fluffy_belly", "lying_on_fluffy_belly_720p",
    "angel_figure", "angel_figure_720p",
    "felt_keychain", "felt_keychain_720p",
    "acrylic_charm", "acrylic_charm_720p",
    "polaroid", "polaroid_720p",
    "blister_pack_action_figure", "blister_pack_action_figure_720p",
    "french_kiss_dual_version", "french_kiss_dual_version_720p",
    "french_kiss_solo_version", "french_kiss_solo_version_720p",
    "costume_bikini", "costume_bikini_720p",
    "hot_dance", "hot_dance_720p",
    "transform_into_mermaid", "transform_into_mermaid_720p"]

  const V1Dual: seq<string> := ["double_embrace", "double_embrace_720p"]
  const V2Dual: seq<string> := ["french_kiss_dual_version", "french_kiss_dual_version_720p"]

  const V1Key := "i2v_bytedance_effects_v1"
  const V2Key := "i2v_template_cv_v2"

  /** The template that never gets the split screen turned off. */
  const StackingDolls := "multi_style_stacking_dolls"

  datatype Generation = V1 | V2

  lemma FirstV1NotV2()
    ensures forall i | 0 <= i < 5 :: V1Templates[i] !in V2Templates
  {
  }

  lemma SecondV1NotV2()
    ensures forall i | 5 <= i < 10 :: V1Templates[i] !in V2Templates
  {
  }

  lemma ThirdV1NotV2()
    ensures forall i | 10 <= i < 15 :: V1Templates[i] !in V2Templates
  {
  }

  lemma FourthV1NotV2()
    ensures forall i | 15 <= i < 20 :: V1Templates[i] !in V2Templates
  {
  }

  /** No template id belongs to both generations, so the order in which
      they are looked up does not matter. */
  lemma TemplatesDisjoint(t: string)
    ensures !(t in V1Templates && t in V2Templates)
  {
    FirstV1NotV2();
    SecondV1NotV2();
    ThirdV1NotV2();
    FourthV1NotV2();
  }

  predicate KnownTemplate(t: string) {
    t in V1Templates || t in V2Templates
  }

  /** `_detect_template_version`. */
  function TemplateVersion(t: string): (r: Res<Generation>)
    ensures r == Ok(V1) <==> t in V1Templates
    ensures r == Ok(V2) <==> t in V2Templates
    ensures r.Err? <==> !KnownTemplate(t)
    ensures r.Err? ==> r.error == Exc(ValueError, "不支持的模板ID: " + t)
  {
    TemplatesDisjoint(t);
    if t in V1Templates then Ok(V1)
    else if t in V2Templates then Ok(V2)
    else Err(Exc(ValueError, "不支持的模板ID: " + t))
  }

  function KeyOf(g: Generation): string {
    match g
    case V1 => V1Key
    case V2 => V2Key
  }

  /** `_get_req_key`. */
  function ReqKey(t: string): (r: Res<string>)
    ensures r.Ok? <==> KnownTemplate(t)
    ensures t in V1Templates ==> r == Ok(V1Key)
    ensures t in V2Templates ==> r == Ok(V2Key)
  {
    var g :- TemplateVersion(t);
    Ok(KeyOf(g))
  }

  function DualOf(t: string, g: Generation): bool {
    match g
    case V1 => t in V1Dual
    case V2 => t in V2Dual
  }

  /** `_is_dual_template`. */
  function IsDual(t: string): Res<bool> {
    var g :- TemplateVersion(t);
    Ok(DualOf(t, g))
  }

  /** The dual templates are exactly the four listed ones, and each of
      them belongs to a generation. */
  lemma DualTemplates(t: string)
    ensures IsDual(t) == Ok(true) <==> t in V1Dual || t in V2Dual
    ensures IsDual(t).Ok? <==> KnownTemplate(t)
  {
    if t in V2Dual {
      TemplatesDisjoint(t);
    }
  }

  // --------------------------------------------------------------- submit

  /** Two URLs joined by a single `|`, each valid once surrounding white
      space is stripped. */
  predicate TwoImages(imageUrl: string) {
    && '|' in imageUrl
    && var urls := Split(imageUrl, '|');
    && |urls| == 2 && Utils.ValidateUrl(Strip(urls[0])) && Utils.ValidateUrl(Strip(urls[1]))
  }

  /** One valid URL with no `|` in it. */
  predicate OneImage(imageUrl: string) {
    '|' !in imageUrl && Utils.ValidateUrl(imageUrl)
  }

  function NeedsTwo(t: string): string {
    "模板 '" + t + "' 需要两张图片链接，请用'|'分隔，例如：'https://person1.jpg|https://person2.png'"
  }

  function NeedsExactlyTwo(t: string): string {
    "模板 '" + t + "' 需要恰好两张图片链接"
  }

  function OnlyOne(t: string): string {
    "模板 '" + t + "' 只支持单张图片，不能包含'|'分隔符"
  }

  const BadImageUrl := "图片URL格式不正确"

  /** The image checks of `submit_task`; the URL named in a dual
      template's error is the part as split, before stripping. */
  function CheckImages(imageUrl: string, t: string, dual: bool): (r: Res<()>)
    ensures r.Ok? <==> if dual then TwoImages(imageUrl) else OneImage(imageUrl)
    ensures r.Err? ==> r.error.kind == ValueError
    ensures dual && '|' !in imageUrl ==> r == Err(Exc(ValueError, NeedsTwo(t)))
    ensures !dual && '|' in imageUrl ==> r == Err(Exc(ValueError, OnlyOne(t)))
  {
    if dual then
      if '|' !in imageUrl then Err(Exc(ValueError, NeedsTwo(t)))
      else
        var urls := Split(imageUrl, '|');
        if |urls| != 2 then Err(Exc(ValueError, NeedsExactlyTwo(t)))
        else if !Utils.ValidateUrl(Strip(urls[0])) then Err(Exc(ValueError, BadImageUrl + ": " + urls[0]))
        else if !Utils.ValidateUrl(Strip(urls[1])) then Err(Exc(ValueError, BadImageUrl + ": " + urls[1]))
        else Ok(())
    else if '|' in imageUrl then Err(Exc(ValueError, OnlyOne(t)))
    else if !Utils.ValidateUrl(imageUrl) then Err(Exc(ValueError, BadImageUrl))
    else Ok(())
  }

  /** Two valid URLs joined by `|` pass a dual template's checks. */
  lemma JoinedImagesFit(a: string, b: string)
    requires '|' !in a && '|' !in b
    requires Utils.ValidateUrl(Strip(a)) && Utils.ValidateUrl(Strip(b))
    ensures TwoImages(a + "|" + b)
  {
    SplitAtSep(a, '|', b);
    SplitNoSep(b, '|');
    assert '|' == (a + "|" + b)[|a|];
  }

  /** The submit payload: the image text and template id, plus the
      split-screen switch for the second generation, always on for the
      stacking-dolls template. */
  function Payload(imageUrl: string, t: string, g: Generation, finalStitch: bool): PyDict {
    var base := [("image_input", Str(imageUrl)), ("template_id", Str(t))];
    if g == V2 then
      base + [("final_stitch_switch", Bool(if t == StackingDolls then true else finalStitch))]
    else base
  }

  /** What the payload holds under each key, stated field by field. */
  function PayloadField(imageUrl: string, t: string, finalStitch: bool, k: string): Option<Json> {
    if k == "image_input" then Some(Str(imageUrl))
    else if k == "template_id" then Some(Str(t))
    else if k == "final_stitch_switch" && t in V2Templates then Some(Bool(t == StackingDolls || finalStitch))
    else None
  }

  /** The payload holds exactly the fields the reference names. */
  lemma PayloadFields(imageUrl: string, t: string, g: Generation, finalStitch: bool, k: string)
    requires TemplateVersion(t) == Ok(g)
    ensures Get(Payload(imageUrl, t, g, finalStitch), k) == PayloadField(imageUrl, t, finalStitch, k)
  {
    PayloadLookup(imageUrl, t, g, finalStitch, k);
    assert g == V2 <==> t in V2Templates;
  }

  lemma PayloadLookup(imageUrl: string, t: string, g: Generation, finalStitch: bool, k: string)
    ensures Get(Payload(imageUrl, t, g, finalStitch), k) ==
      if k == "image_input" then Some(Str(imageUrl))
      else if k == "template_id" then Some(Str(t))
      else if k == "final_stitch_switch" && g == V2 then Some(Bool(t == StackingDolls || finalStitch))
      else None
  {
    var base := [("image_input", Str(imageUrl)), ("template_id", Str(t))];
    GetTwo(base, k);
    if g == V2 {
      var flag := [("final_stitch_switch", Bool(if t == StackingDolls then true else finalStitch))];
      GetAppend(base, flag, k);
      assert Get(flag, k) == if k == "final_stitch_switch" then Some(flag[0].1) else None;
    }
  }

  lemma EmptyIdUnknown()
    ensures !KnownTemplate("")
  {
    assert forall i | 0 <= i < |V1Templates| :: |V1Templates[i]| > 0;
    assert forall i | 0 <= i < |V2Templates| :: |V2Templates[i]| > 0;
  }

  /** The request `submit_task` sends, or the `ValueError` a check raises
      before sending anything. */
  function SubmitCall(imageUrl: string, t: string, finalStitch: bool): (r: Res<Call>)
    ensures r.Ok? <==>
      && imageUrl != "" && KnownTemplate(t)
      && if t in V1Dual || t in V2Dual then TwoImages(imageUrl) else OneImage(imageUrl)
    ensures imageUrl == "" ==> r == Err(Exc(ValueError, "图片URL不能为空"))
    ensures imageUrl != "" && t == "" ==> r == Err(Exc(ValueError, "模板ID不能为空"))
    ensures r.Err? ==> r.error.kind == ValueError
    ensures r.Ok? ==>
      && r.value.action == "CVSync2AsyncSubmitTask" && r.value.reqKey == ReqKey(t).value
      && forall k :: Get(r.value.data, k) == PayloadField(imageUrl, t, finalStitch, k)
  {
    EmptyIdUnknown();
    if imageUrl == "" then Err(Exc(ValueError, "图片URL不能为空"))
    else if t == "" then Err(Exc(ValueError, "模板ID不能为空"))
    else
      var g :- TemplateVersion(t);
      DualTemplates(t);
      var _ :- CheckImages(imageUrl, t, DualOf(t, g));
      var data := Payload(imageUrl, t, g, finalStitch);
      forall k ensures Get(data, k) == PayloadField(imageUrl, t, finalStitch, k) {
        PayloadFields(imageUrl, t, g, finalStitch, k);
      }
      Ok(Call("POST", "CVSync2AsyncSubmitTask", KeyOf(g), DefaultVersion, data, "", ""))
  }

  const SubmitFailure := "任务提交失败: "
  const SubmitWrap := "提交任务失败: "

  /** One call of `submit_task`: the checks raise before the request, and
      everything raised after it is re-raised under the wrapper text. */
  function Submit(imageUrl: string, t: string, finalStitch: bool, response: Res<Json>, codec: Codec): (r: Res<Json>)
    ensures SubmitCall(imageUrl, t, finalStitch).Err? ==> r == Err(SubmitCall(imageUrl, t, finalStitch).error)
    ensures SubmitCall(imageUrl, t, finalStitch).Ok? ==>
      if response.Ok? && Submitted(response.value, SubmitFailure, codec).Ok?
      then r == Submitted(response.value, SubmitFailure, codec)
      else r.Err? && r.error.kind == Exception && StartsWith(r.error.msg, SubmitWrap)
  {
    var _ :- SubmitCall(imageUrl, t, finalStitch);
    var answer := (var resp :- response; Submitted(resp, SubmitFailure, codec));
    match answer
    case Ok(id) => Ok(id)
    case Err(e) => Err(Exc(Exception, SubmitWrap + e.msg))
  }

  function SubmitAttempts(imageUrl: string, t: string, finalStitch: bool, responses: nat -> Res<Json>, codec: Codec): (f: nat -> Res<Json>)
    ensures forall i: nat :: f(i) == Submit(imageUrl, t, finalStitch, responses(i), codec)
  {
    (i: nat) => Submit(imageUrl, t, finalStitch, responses(i), codec)
  }

  /** `submit_task` under `@retry(3, 2)`. */
  function Submission(imageUrl: string, t: string, finalStitch: bool, responses: nat -> Res<Json>, codec: Codec): Res<Json> {
    Utils.Retry(MaxRetries, SubmitAttempts(imageUrl, t, finalStitch, responses, codec), Utils.CatchAll).result
  }

  /** A rejected image is rejected by every retry, so the decorator makes
      four calls and raises the check's own `ValueError`. */
  lemma RejectedImageRetried(imageUrl: string, t: string, finalStitch: bool, responses: nat -> Res<Json>, codec: Codec)
    requires SubmitCall(imageUrl, t, finalStitch).Err?
    ensures var run := Utils.Retry(MaxRetries, SubmitAttempts(imageUrl, t, finalStitch, responses, codec), Utils.CatchAll);
      run.calls == MaxRetries + 1 && run.result == Err(SubmitCall(imageUrl, t, finalStitch).error)
  {
    Utils.RetryExhausted(MaxRetries, SubmitAttempts(imageUrl, t, finalStitch, responses, codec), Utils.CatchAll);
  }

  // ------------------------------------------------- probing the req_key

  /** What the two probing queries of `get_task_req_key` returned: first
      under the second generation's key, then under the first's. */
  datatype Probe = Probe(v2: Res<Json>, v1: Res<Json>)

  /** `get_task_req_key`: the key that answered, a `|` and the response
      text; when both queries raise, one exception naming both errors. */
  function TaskReqKey(p: Probe, codec: Codec): (r: Res<string>)
    ensures r.Err? <==> p.v2.Err? && p.v1.Err?
    ensures r.Err? ==> r.error == Exc(Exception, "V2: " + p.v2.error.msg + " | V1: " + p.v1.error.msg)
  {
    match p.v2
    case Ok(resp) => Ok(V2Key + "|" + codec.show(resp))
    case Err(e2) =>
      match p.v1
      case Ok(resp) => Ok(V1Key + "|" + codec.show(resp))
      case Err(e1) => Err(Exc(Exception, "V2: " + e2.msg + " | V1: " + e1.msg))
  }

  /** The generation that answered first. */
  function Answering(p: Probe): Option<(string, Json)> {
    if p.v2.Ok? then Some((V2Key, p.v2.value))
    else if p.v1.Ok? then Some((V1Key, p.v1.value))
    else None
  }

  /** The probe's text splits back into the key that answered and that
      query's response text, whether split once or everywhere. */
  lemma ProbeSplits(p: Probe, codec: Codec)
    requires TaskReqKey(p, codec).Ok?
    ensures var s := TaskReqKey(p, codec).value;
      && Answering(p).Some? && '|' in s
      && SplitOnce(s, '|') == (Answering(p).value.0, codec.show(Answering(p).value.1))
      && Split(s, '|')[0] == Answering(p).value.0
  {
    var (key, resp) := Answering(p).value;
    var s := TaskReqKey(p, codec).value;
    assert s == key + ['|'] + codec.show(resp);
    assert '|' == s[|key|];
    SplitOnceJoined(key, '|', codec.show(resp));
    SplitAtSep(key, '|', codec.show(resp));
  }

  // ------------------------------------------------------- result query

  /** What one call of `get_result` meets: the probe (used only without a
      `req_key`) and the response to the direct query. */
  datatype Attempt = Attempt(probe: Probe, query: Res<Json>)

  function QueryCall(taskId: string, reqKey: string): Call {
    Call("POST", "CVSync2AsyncGetResult", reqKey, DefaultVersion, [], taskId, "")
  }

  /** The direct query `get_result` sends, if any: none when the probe
      raises or its response text parses as JSON. */
  function SentQuery(taskId: string, reqKey: string, a: Attempt, codec: Codec): Option<Call> {
    if reqKey != "" then Some(QueryCall(taskId, reqKey))
    else match TaskReqKey(a.probe, codec)
      case Err(_) => None
      case Ok(found) =>
        if '|' in found then
          var parts := SplitOnce(found, '|');
          if codec.loads(parts.1).Some? then None else Some(QueryCall(taskId, parts.0))
        else Some(QueryCall(taskId, found))
  }

  /** The body of `get_result`'s `try`. */
  function ResultBody(taskId: string, reqKey: string, a: Attempt, codec: Codec): Res<Json> {
    if reqKey != "" then a.query
    else
      var found :- TaskReqKey(a.probe, codec);
      if '|' in found then
        match codec.loads(SplitOnce(found, '|').1)
        case Some(parsed) => Ok(parsed)
        case None => a.query
      else a.query
  }

  const ResultFailure := "获取结果失败: "

  /** One call of `get_result`; every exception is re-raised under the
      wrapper text. */
  function GetResult(taskId: string, reqKey: string, a: Attempt, codec: Codec): (r: Res<Json>)
    ensures r.Err? ==> r.error.kind == Exception && StartsWith(r.error.msg, ResultFailure)
    ensures reqKey != "" && a.query.Ok? ==> r == a.query
  {
    match ResultBody(taskId, reqKey, a, codec)
    case Ok(v) => Ok(v)
    case Err(e) => Err(Exc(Exception, ResultFailure + e.msg))
  }

  /** Without a `req_key`, `get_result` answers from the probe itself when
      the response text parses, and otherwise queries again under the key
      that answered the probe. */
  lemma UnkeyedQueryUsesProbedKey(taskId: string, a: Attempt, codec: Codec)
    requires TaskReqKey(a.probe, codec).Ok?
    ensures var (key, resp) := Answering(a.probe).value;
      && (codec.loads(codec.show(resp)).Some? ==>
            SentQuery(taskId, "", a, codec).None? && GetResult(taskId, "", a, codec) == Ok(codec.loads(codec.show(resp)).value))
      && (codec.loads(codec.show(resp)).None? ==>
            SentQuery(taskId, "", a, codec) == Some(QueryCall(taskId, key))
            && (a.query.Ok? ==> GetResult(taskId, "", a, codec) == a.query))
  {
    ProbeSplits(a.probe, codec);
  }

  /** A probe with both generations failing fails the unkeyed query, and
      sends nothing further. */
  lemma UnkeyedQueryFailsWithProbe(taskId: string, a: Attempt, codec: Codec)
    requires a.probe.v2.Err? && a.probe.v1.Err?
    ensures SentQuery(taskId, "", a, codec).None?
    ensures GetResult(taskId, "", a, codec) == Err(Exc(Exception, ResultFailure + TaskReqKey(a.probe, codec).error.msg))
  {
  }

  function ResultAttempts(taskId: string, reqKey: string, attempts: nat -> Attempt, codec: Codec): (f: nat -> Res<Json>)
    ensures forall i: nat :: f(i) == GetResult(taskId, reqKey, attempts(i), codec)
  {
    (i: nat) => GetResult(taskId, reqKey, attempts(i), codec)
  }

  /** `get_result` under `@retry(3, 2)`. */
  function Queried(taskId: string, reqKey: string, attempts: nat -> Attempt, codec: Codec): Res<Json> {
    Utils.Retry(MaxRetries, ResultAttempts(taskId, reqKey, attempts, codec), Utils.CatchAll).result
  }

  // -------------------------------------------------------------- waiting

  /** A response with code 10000 whose `data` reports the task `done`. */
  predicate FinishedResponse(result: Json) {
    && result.Obj? && Succeeded(result.fields)
    && var data := Field(result.fields, "data");
    && data.Obj? && FieldIs(data.fields, "status", "done")
  }

  /** How the loop reads one result: only a response with code 10000 is
      examined, by the `status` inside its `data`; any other response
      raises an error carrying its text. */
  function EffectVerdict(result: Json, codec: Codec): (v: Res<Verdict>)
    ensures v == Ok(Finish) <==> FinishedResponse(result)
  {
    var code :- GetKey(result, "code");
    if EqInt(code, SuccessCode) then
      var data := GetOrDefault(result, "data", Obj([])).value;
      var status :- GetKey(data, "status");
      if status == Str("done") then Ok(Finish)
      else if LostStatus(status) then Ok(Abort(status.s))
      else Ok(Continue)
    else Err(Exc(Exception, "API错误: " + codec.show(result)))
  }

  /** A response with another code is an error the loop swallows, unless
      its text happens to carry the marker. */
  lemma ApiErrorKeepsPolling(result: Json, codec: Codec)
    requires result.Obj? && !Succeeded(result.fields)
    requires !Contains(codec.show(result), Marker)
    ensures EffectVerdict(result, codec).Err? && !Escapes(EffectVerdict(result, codec).error)
  {
    ContainsPastPrefix("API错误: ", codec.show(result), Marker);
  }

  function Classifier(codec: Codec): (f: Json -> Res<Verdict>)
    ensures forall j :: f(j) == EffectVerdict(j, codec)
  {
    (j: Json) => EffectVerdict(j, codec)
  }

  /** What one pass of the loop meets: the retried result query, the probe
      made when the task is still running and no key is cached, and the
      seconds the pass took. */
  datatype Round = Round(attempts: nat -> Attempt, recheck: Probe, took: nat)

  /** What the cache may hold: nothing, or one of the two service keys. */
  predicate CacheValue(k: string) {
    k == "" || k == V1Key || k == V2Key
  }

  /** The key cached after one pass: only a pass that ran without a key
      and found the task still running stores what its recheck found. */
  function NextKey(prev: string, answer: Res<Json>, recheck: Probe, codec: Codec): string {
    if prev == "" && answer.Ok? && EffectVerdict(answer.value, codec) == Ok(Continue) then
      match TaskReqKey(recheck, codec)
      case Ok(found) => Split(found, '|')[0]
      case Err(_) => ""
    else prev
  }

  /** A stored key is one of the two service keys, and it is never replaced. */
  lemma NextKeyCached(prev: string, answer: Res<Json>, recheck: Probe, codec: Codec)
    ensures CacheValue(prev) ==> CacheValue(NextKey(prev, answer, recheck, codec))
    ensures prev != "" ==> NextKey(prev, answer, recheck, codec) == prev
  {
    if TaskReqKey(recheck, codec).Ok? {
      ProbeSplits(recheck, codec);
    }
  }

  /** The query of every pass, for every key it might be given. */
  function Answers(taskId: string, rounds: nat -> Round, codec: Codec): (f: (string, nat) -> Res<Json>)
    ensures forall key, i: nat :: f(key, i) == Queried(taskId, key, rounds(i).attempts, codec)
  {
    (key: string, i: nat) => Queried(taskId, key, rounds(i).attempts, codec)
  }

  /** The probe each pass would make. */
  function Rechecks(rounds: nat -> Round): (f: nat -> Probe)
    ensures forall i: nat :: f(i) == rounds(i).recheck
  {
    (i: nat) => rounds(i).recheck
  }

  /** The `req_key` cached before pass `i`: none at first. */
  function KeyAt(answers: (string, nat) -> Res<Json>, rechecks: nat -> Probe, codec: Codec, i: nat): string
    decreases i
  {
    if i == 0 then ""
    else
      var prev := KeyAt(answers, rechecks, codec, i - 1);
      NextKey(prev, answers(prev, i - 1), rechecks(i - 1), codec)
  }

  /** The cached key is never anything but none or one of the two service
      keys. */
  lemma {:induction false} CachedKeys(answers: (string, nat) -> Res<Json>, rechecks: nat -> Probe, codec: Codec, i: nat)
    ensures CacheValue(KeyAt(answers, rechecks, codec, i))
    decreases i
  {
    if i > 0 {
      CachedKeys(answers, rechecks, codec, i - 1);
      var prev := KeyAt(answers, rechecks, codec, i - 1);
      NextKeyCached(prev, answers(prev, i - 1), rechecks(i - 1), codec);
    }
  }

  /** Once a key is cached it stays. */
  lemma CacheSticks(answers: (string, nat) -> Res<Json>, rechecks: nat -> Probe, codec: Codec, i: nat)
    ensures KeyAt(answers, rechecks, codec, i) != "" ==>
      KeyAt(answers, rechecks, codec, i + 1) == KeyAt(answers, rechecks, codec, i)
  {
    var k := KeyAt(answers, rechecks, codec, i);
    NextKeyCached(k, answers(k, i), rechecks(i), codec);
  }

  /** What pass `i` observes: the query's result, or the recheck's error
      when the recheck raises. */
  function Outcome(taskId: string, rounds: nat -> Round, codec: Codec, i: nat): Res<Json> {
    var key := KeyAt(Answers(taskId, rounds, codec), Rechecks(rounds), codec, i);
    var r := Queried(taskId, key, rounds(i).attempts, codec);
    if key == "" && r.Ok? && EffectVerdict(r.value, codec) == Ok(Continue) && TaskReqKey(rounds(i).recheck, codec).Err?
    then Err(TaskReqKey(rounds(i).recheck, codec).error)
    else r
  }

  function Observed(taskId: string, rounds: nat -> Round, codec: Codec): (f: nat -> Observation)
    ensures forall i: nat :: f(i) == Observation(Outcome(taskId, rounds, codec, i), rounds(i).took)
  {
    (i: nat) => Observation(Outcome(taskId, rounds, codec, i), rounds(i).took)
  }

  /** `wait_for_completion`. Its `req_key` argument is overwritten with
      none before the first query, so it takes no part. */
  function Wait(taskId: string, reqKey: string, maxWait: int, interval: nat,
                rounds: nat -> Round, codec: Codec): PollEnd
    requires interval > 0
  {
    Poll.Wait(Classifier(codec), TimeoutErrorFor(maxWait), Observed(taskId, rounds, codec), maxWait, interval)
  }

  /** The key a caller hands to the wait changes nothing. */
  lemma WaitIgnoresReqKey(taskId: string, k1: string, k2: string, maxWait: int, interval: nat,
                          rounds: nat -> Round, codec: Codec)
    requires interval > 0
    ensures Wait(taskId, k1, maxWait, interval, rounds, codec) == Wait(taskId, k2, maxWait, interval, rounds, codec)
  {
  }

  /** The wait returns only a response with code 10000 whose task is
      `done`, and returns it whole. */
  lemma WaitReturnsDone(taskId: string, reqKey: string, maxWait: int, interval: nat,
                        rounds: nat -> Round, codec: Codec)
    requires interval > 0
    requires Wait(taskId, reqKey, maxWait, interval, rounds, codec).exit == Returned
    ensures var w := Wait(taskId, reqKey, maxWait, interval, rounds, codec);
      w.polls > 0 && w.result.Ok? && FinishedResponse(w.result.value)
  {
    var w := Wait(taskId, reqKey, maxWait, interval, rounds, codec);
    assert Classifier(codec)(w.result.value) == Ok(Finish);
  }

  // ------------------------------------------------------------- the flow

  datatype Network = Network(submits: nat -> Res<Json>, rounds: nat -> Round)

  const CheckInterval := 15

  /** `resp_data` parsed, or kept under `raw` when it is not a string
      holding JSON. */
  function RespData(raw: Json, codec: Codec): (r: Json)
    ensures raw.Str? && codec.loads(raw.s).Some? ==> r == codec.loads(raw.s).value
    ensures !(raw.Str? && codec.loads(raw.s).Some?) ==> r == Obj([("raw", raw)])
  {
    match Loads(raw, codec)
    case Ok(v) => v
    case Err(_) => Obj([("raw", raw)])
  }

  const Unfinished := "视频生成未完成: "
  const FlowFailure := "视频生成失败: "

  /** The flow's last step on the waited-for result: a finished task's
      video URL, the task id and the parsed `resp_data`. */
  function Delivered(result: Json, taskId: Json, codec: Codec): Res<Json> {
    var code :- GetKey(result, "code");
    if EqInt(code, SuccessCode) then
      var data := GetOrDefault(result, "data", Obj([])).value;
      var status :- GetKey(data, "status");
      if status == Str("done") then
        var respData := RespData(GetOrDefault(data, "resp_data", Str("{}")).value, codec);
        var link :- GetKey(respData, "video_url");
        Ok(Obj([("video_url", link), ("task_id", taskId), ("resp_data", respData)]))
      else Err(Exc(Exception, Unfinished + codec.show(result)))
    else Err(Exc(Exception, FlowFailure + codec.show(result)))
  }

  /** `generate_video_from_image`. */
  function GenerateFromImage(imageUrl: string, t: string, finalStitch: bool, maxWait: int,
                             net: Network, codec: Codec): Res<Json>
  {
    var taskId :- Submission(imageUrl, t, finalStitch, net.submits, codec);
    var reqKey := if t in V2Templates then V2Key else V1Key;
    var result :- Wait(PyStr(taskId, codec), reqKey, maxWait, CheckInterval, net.rounds, codec).result;
    Delivered(result, taskId, codec)
  }

  /** Once the task is submitted and the wait returns, neither of the
      flow's own raises can happen: the result is the video URL, the task
      id and the parsed `resp_data`, unless that parse is not a dict. */
  lemma FlowDeliversAfterWait(imageUrl: string, t: string, finalStitch: bool, maxWait: int, net: Network, codec: Codec)
    requires Submission(imageUrl, t, finalStitch, net.submits, codec).Ok?
    requires var taskId := Submission(imageUrl, t, finalStitch, net.submits, codec).value;
      Wait(PyStr(taskId, codec), V1Key, maxWait, CheckInterval, net.rounds, codec).exit == Returned
    ensures var taskId := Submission(imageUrl, t, finalStitch, net.submits, codec).value;
      var w := Wait(PyStr(taskId, codec), V1Key, maxWait, CheckInterval, net.rounds, codec);
      var data := Field(w.result.value.fields, "data");
      var respData := RespData(GetOr(data.fields, "resp_data", Str("{}")), codec);
      var r := GenerateFromImage(imageUrl, t, finalStitch, maxWait, net, codec);
      && (r.Ok? <==> respData.Obj?)
      && (r.Ok? ==> r.value == Obj([("video_url", Field(respData.fields, "video_url")), ("task_id", taskId), ("resp_data", respData)]))
  {
    var taskId := Submission(imageUrl, t, finalStitch, net.submits, codec).value;
    var id := PyStr(taskId, codec);
    var reqKey := if t in V2Templates then V2Key else V1Key;
    var w := Wait(id, V1Key, maxWait, CheckInterval, net.rounds, codec);
    WaitIgnoresReqKey(id, reqKey, V1Key, maxWait, CheckInterval, net.rounds, codec);
    WaitReturnsDone(id, V1Key, maxWait, CheckInterval, net.rounds, codec);
    DeliversFinished(w.result.value, taskId, codec);
    assert GenerateFromImage(imageUrl, t, finalStitch, maxWait, net, codec) == Delivered(w.result.value, taskId, codec);
  }

  /** On a finished response the flow's last step fails only when the
      parsed `resp_data` is not a dict. */
  lemma DeliversFinished(result: Json, taskId: Json, codec: Codec)
    requires FinishedResponse(result)
    ensures var respData := RespData(GetOr(Field(result.fields, "data").fields, "resp_data", Str("{}")), codec);
      var r := Delivered(result, taskId, codec);
      && (r.Ok? <==> respData.Obj?)
      && (r.Ok? ==> r.value == Obj([("video_url", Field(respData.fields, "video_url")), ("task_id", taskId), ("resp_data", respData)]))
  {
    assert GetKey(result, "code") == Ok(Field(result.fields, "code"));
  }
}

=== FILE: jimeng.dfy ===
/** The older stand-alone OmniHuman client: its result query reshapes a
    finished task's data per operation, and its full flow repackages the
    finished video. Its request layer is the legacy one of the `Request`
    module (the digest of the caller's data only, HTTP errors as raw text). */
module Jimeng {
  import opened Wrappers
  import opened Text
  import opened Dicts
  import opened Py
  import opened Request
  import opened Tasks
  import opened Poll
  import opened OmniHuman
  import Utils

  const ResultFailure := "获取结果失败: "

  /** `contains_subject` or `contains_object` of a detection task: the
      `status` of its `resp_data` (0 when absent); nothing when there is no
      data or it does not parse; a parsed value that is not a dict raises. */
  function DetectionFlag(raw: Json, codec: Codec): (r: Res<Option<Json>>)
    ensures Parsed(raw, codec).None? ==> r == Ok(None)
    ensures Parsed(raw, codec).Some? ==> (r.Ok? <==> Parsed(raw, codec).value.Obj?)
    ensures r.Ok? && r.value.Some? ==> r.value.value == GetOr(Parsed(raw, codec).value.fields, "status", Int(0))
  {
    match Parsed(raw, codec)
    case None => Ok(None)
    case Some(p) =>
      var status :- GetOrDefault(p, "status", Int(0));
      Ok(Some(status))
  }

  /** The key under which an operation reports its outcome. */
  function OutcomeKey(operation: string): string {
    if operation == "generate" then "video_url"
    else if operation == "detect" then "contains_subject"
    else "contains_object"
  }

  /** What the operation adds to a finished task's answer: a truthy
      `video_url` for a video, the detection flag for a detection. */
  function OutcomeValue(operation: string, data: PyDict, codec: Codec): Res<Option<Json>> {
    if operation == "generate" then
      var link := Field(data, "video_url");
      Ok(if Truthy(link) then Some(link) else None)
    else if operation == "detect" || operation == "detect_object" then
      DetectionFlag(Field(data, "resp_data"), codec)
    else Ok(None)
  }

  /** The answer for a finished task: `done`, `aigc_meta_tagged` (false when
      absent) and the operation's outcome when there is one. */
  function Done(operation: string, data: PyDict, codec: Codec): Res<Json> {
    var base: PyDict := [("status", Str("done")), ("aigc_meta_tagged", GetOr(data, "aigc_meta_tagged", Bool(false)))];
    var outcome :- OutcomeValue(operation, data, codec);
    Ok(Obj(Appended(base, OutcomeKey(operation), outcome)))
  }

  /** The body of `get_result`'s `try`. */
  function ResultBody(operation: string, response: Res<Json>, codec: Codec): Res<Json> {
    var r :- response;
    match r
    case Obj(f) =>
      if !Succeeded(f) then Err(Exc(Exception, ResultFailure + codec.show(r)))
      else
        var data :- Index(r, "data");
        var status :- Index(data, "status");
        if status == Str("done") then Done(operation, data.fields, codec)
        else Ok(StatusReport(status, codec))
    case _ => Err(NoAttribute(r))
  }

  /** `get_result`: a rejected version or operation raises as such;
      everything raised inside the `try` is re-raised with the failure
      prefix. */
  function GetResult(taskId: string, operation: string, version: string, aigcMeta: Json,
                     response: Res<Json>, codec: Codec): (r: Res<Json>)
    ensures ResultCall(taskId, operation, version, aigcMeta, codec).Err? ==>
      r == Err(ResultCall(taskId, operation, version, aigcMeta, codec).error)
    ensures ResultCall(taskId, operation, version, aigcMeta, codec).Ok? && r.Err? ==>
      r.error.kind == Exception && StartsWith(r.error.msg, ResultFailure)
  {
    var _ :- ResultCall(taskId, operation, version, aigcMeta, codec);
    match ResultBody(operation, response, codec)
    case Ok(v) => Ok(v)
    case Err(e) => Err(Exc(Exception, ResultFailure + e.msg))
  }

  /** A finished task's answer is `done`, and carries a video link only for
      a video, a subject flag only for a subject detection and an object
      flag only for an object detection. */
  lemma DoneFields(operation: string, data: PyDict, codec: Codec, k: string)
    requires Done(operation, data, codec).Ok?
    ensures var f := Done(operation, data, codec).value.fields;
      && FieldIs(f, "status", "done")
      && (HasKey(f, "video_url") ==> operation == "generate" && PresentTruthy(f, "video_url"))
      && (HasKey(f, "contains_subject") ==> operation == "detect")
      && (HasKey(f, "contains_object") ==> operation != "generate" && operation != "detect")
      && (HasKey(f, k) ==> k in {"status", "aigc_meta_tagged", "video_url", "contains_subject", "contains_object"})
  {
    var f := Done(operation, data, codec).value.fields;
    var key := OutcomeKey(operation);
    DoneShape(operation, data, codec);
    if HasKey(f, "video_url") {
      assert key == "video_url";
    }
    if HasKey(f, "contains_subject") {
      assert key == "contains_subject";
    }
    if HasKey(f, "contains_object") {
      assert key == "contains_object";
    }
  }

  /** The answer holds the two fixed fields and, under the operation's own
      key, exactly its outcome. */
  lemma DoneShape(operation: string, data: PyDict, codec: Codec)
    requires Done(operation, data, codec).Ok?
    ensures var f := Done(operation, data, codec).value.fields;
      var key := OutcomeKey(operation);
      && FieldIs(f, "status", "done")
      && Get(f, key) == OutcomeValue(operation, data, codec).value
      && (forall k :: HasKey(f, k) ==> k == key || k == "status" || k == "aigc_meta_tagged")
      && (operation == "generate" && HasKey(f, key) ==> PresentTruthy(f, key))
  {
    var base: PyDict := [("status", Str("done")), ("aigc_meta_tagged", GetOr(data, "aigc_meta_tagged", Bool(false)))];
    var key := OutcomeKey(operation);
    var f := Done(operation, data, codec).value.fields;
    assert f == Appended(base, key, OutcomeValue(operation, data, codec).value);
    GetTwo(base, key);
    GetTwo(base, "status");
    forall k | HasKey(f, k) ensures k == key || k == "status" || k == "aigc_meta_tagged" {
      GetTwo(base, k);
    }
  }

  /** What a successful query returns: the finished task's answer, or the
      status report of a task that is not done. */
  lemma GetResultForms(taskId: string, operation: string, version: string, response: Res<Json>, codec: Codec)
    requires GetResult(taskId, operation, version, Null, response, codec).Ok?
    ensures var v := GetResult(taskId, operation, version, Null, response, codec).value;
      && response.Ok? && response.value.Obj? && Succeeded(response.value.fields)
      && var data := Get(response.value.fields, "data").value;
      && data.Obj? && HasKey(data.fields, "status")
      && (FieldIs(data.fields, "status", "done") ==> Done(operation, data.fields, codec) == Ok(v))
      && (!FieldIs(data.fields, "status", "done") ==> IsStatusReport(v, codec))
  {
  }

  /** For a video task the loop's reading is exact: an answer ends the wait
      exactly when it reports the task done. */
  lemma VideoQueryFinishesOnlyWhenDone(taskId: string, version: string, response: Res<Json>, codec: Codec)
    requires GetResult(taskId, "generate", version, Null, response, codec).Ok?
    ensures var v := GetResult(taskId, "generate", version, Null, response, codec).value;
      v.Obj? && (JimengVerdict(v) == Ok(Finish) <==> FieldIs(v.fields, "status", "done"))
  {
    var v := GetResult(taskId, "generate", version, Null, response, codec).value;
    GetResultForms(taskId, "generate", version, response, codec);
    var data := Get(response.value.fields, "data").value;
    if FieldIs(data.fields, "status", "done") {
      DoneFields("generate", data.fields, codec, "status");
      assert GetKey(v, "status") == Ok(Str("done"));
    } else {
      ReportNeverFinishes(v, codec);
    }
  }

  // ----------------------------------------------------------------- waiting

  function Observations(taskId: string, operation: string, version: string, replies: nat -> Observation, codec: Codec): (f: nat -> Observation)
    ensures forall i: nat :: f(i) == Observation(GetResult(taskId, operation, version, Null, replies(i).result, codec), replies(i).took)
  {
    (i: nat) => Observation(GetResult(taskId, operation, version, Null, replies(i).result, codec), replies(i).took)
  }

  /** `wait_for_completion`. */
  function Wait(taskId: string, operation: string, version: string, maxWait: int, interval: nat,
                replies: nat -> Observation, codec: Codec): PollEnd
    requires interval > 0
  {
    Poll.Wait(JimengVerdict, TimeoutErrorFor(maxWait), Observations(taskId, operation, version, replies, codec), maxWait, interval)
  }

  /** A query the client itself rejects (an unknown version or operation,
      or object detection on version 1.0) fails on every poll, and since
      the failure does not mention the marker the loop keeps polling until
      it times out. */
  lemma RejectedQueryTimesOut(taskId: string, operation: string, version: string, maxWait: int, interval: nat,
                              replies: nat -> Observation, codec: Codec)
    requires interval > 0
    requires ReqKey(version, operation).None?
    requires !Contains(version, Marker) && !Contains(operation, Marker)
    ensures var r := Wait(taskId, operation, version, maxWait, interval, replies, codec);
      r.exit == DeadlinePassed && r.result == Err(TimeoutErrorFor(maxWait))
  {
    var obs := Observations(taskId, operation, version, replies, codec);
    forall j: nat | j >= 0
      ensures Judge(JimengVerdict, obs(j)).Err? && !Escapes(Judge(JimengVerdict, obs(j)).error)
    {
      ResultCallErrorNoMarker(taskId, operation, version, Null, codec);
    }
    NeverFinishingTimesOut(JimengVerdict, TimeoutErrorFor(maxWait), obs, maxWait, interval, 0, 0);
  }

  // --------------------------------------------------------------- the flow

  /** What each detection, each submit attempt and each status query
      returned or raised. */
  datatype Network = Network(detections: nat -> Res<Json>, submits: nat -> Res<Json>, polls: nat -> Observation)

  const CheckInterval := 15

  /** The fields `generate_video_from_image_audio` hands back. */
  function Delivered(f: PyDict, taskId: Json, version: string): (r: PyDict)
    ensures Get(r, "task_id") == Some(taskId) && Get(r, "version") == Some(Str(version))
    ensures Get(r, "video_url") == Some(Field(f, "video_url"))
  {
    var r := [("video_url", Field(f, "video_url")), ("aigc_meta_tagged", Field(f, "aigc_meta_tagged")),
              ("task_id", taskId), ("version", Str(version))];
    GetFour(r, "task_id");
    GetFour(r, "version");
    GetFour(r, "video_url");
    r
  }

  const FlowFailure := "视频生成失败: "

  /** The end of the flow once the wait returned: a finished task yields
      its fields, any other answer raises. */
  function Finished(result: Json, taskId: Json, version: string, codec: Codec): (r: Res<Json>)
    ensures result.Obj? && FieldIs(result.fields, "status", "done") ==> r == Ok(Obj(Delivered(result.fields, taskId, version)))
    ensures result.Obj? && !FieldIs(result.fields, "status", "done") ==> r == Err(Exc(Exception, FlowFailure + codec.show(result)))
  {
    match result
    case Obj(f) =>
      if FieldIs(f, "status", "done") then Ok(Obj(Delivered(f, taskId, version)))
      else Err(Exc(Exception, FlowFailure + codec.show(result)))
    case _ => Err(NoAttribute(result))
  }

  /** `generate_video_from_image_audio`: an unknown version fails the
      configuration lookup before anything is sent. */
  function GenerateFromImageAudio(imageUrl: string, audioUrl: string, version: string, opts: Options, aigcMeta: Json,
                                  maxWait: int, net: Network, codec: Codec): (r: Res<Json>)
    ensures !KnownVersion(version) ==> r == Err(Exc(KeyError, "'" + version + "'"))
  {
    if !KnownVersion(version) then Err(Exc(KeyError, "'" + version + "'"))
    else
      var taskId :- Submission(imageUrl, audioUrl, version, opts, aigcMeta, net.detections, net.submits, codec);
      var result :- Wait(PyStr(taskId, codec), "generate", version, maxWait, CheckInterval, net.polls, codec).result;
      Finished(result, taskId, version, codec)
  }

  /** Once a task was submitted and the wait returned, the flow succeeds
      with the task's id and version: the loop returns a video task's answer
      only when it reports `done`, so the failure raised for any other
      answer is never reached. */
  lemma FlowNeverFailsAfterWait(imageUrl: string, audioUrl: string, version: string, opts: Options, aigcMeta: Json,
                                maxWait: int, net: Network, codec: Codec)
    requires KnownVersion(version)
    requires Submission(imageUrl, audioUrl, version, opts, aigcMeta, net.detections, net.submits, codec).Ok?
    requires var taskId := Submission(imageUrl, audioUrl, version, opts, aigcMeta, net.detections, net.submits, codec).value;
      Wait(PyStr(taskId, codec), "generate", version, maxWait, CheckInterval, net.polls, codec).exit == Returned
    ensures var taskId := Submission(imageUrl, audioUrl, version, opts, aigcMeta, net.detections, net.submits, codec).value;
      var r := GenerateFromImageAudio(imageUrl, audioUrl, version, opts, aigcMeta, maxWait, net, codec);
      && r.Ok? && r.value.Obj?
      && Get(r.value.fields, "task_id") == Some(taskId) && Get(r.value.fields, "version") == Some(Str(version))
  {
    var taskId := Submission(imageUrl, audioUrl, version, opts, aigcMeta, net.detections, net.submits, codec).value;
    var id := PyStr(taskId, codec);
    var w := Wait(id, "generate", version, maxWait, CheckInterval, net.polls, codec);
    VideoWaitReturnsDone(id, version, maxWait, CheckInterval, net.polls, codec);
    assert GenerateFromImageAudio(imageUrl, audioUrl, version, opts, aigcMeta, maxWait, net, codec)
           == Finished(w.result.value, taskId, version, codec);
  }

  /** A video wait that returns, returns a `done` answer. */
  lemma VideoWaitReturnsDone(taskId: string, version: string, maxWait: int, interval: nat,
                             replies: nat -> Observation, codec: Codec)
    requires interval > 0
    requires Wait(taskId, "generate", version, maxWait, interval, replies, codec).exit == Returned
    ensures var w := Wait(taskId, "generate", version, maxWait, interval, replies, codec);
      w.result.Ok? && w.result.value.Obj? && FieldIs(w.result.value.fields, "status", "done")
  {
    var w := Wait(taskId, "generate", version, maxWait, interval, replies, codec);
    var obs := Observations(taskId, "generate", version, replies, codec);
    assert w.result == obs(w.polls - 1).result;
    VideoQueryFinishesOnlyWhenDone(taskId, version, replies(w.polls - 1).result, codec);
  }
}

=== FILE: lip_sync.dfy ===
/** The lip-sync client: re-time the mouth of the speaker in a video to a
    new voice track, in the `lite` or the `basic` mode. */
module LipSync {
  import opened Wrappers
  import opened Text
  import opened Dicts
  import opened Py
  import opened Request
  import opened Tasks
  import opened Poll
  import Utils

  /** `REQ_KEYS[mode]`. */
  function ReqKey(mode: string): (r: Option<string>)
    ensures r.Some? <==> mode == "lite" || mode == "basic"
  {
    if mode == "lite" then Some("realman_change_lips")
    else if mode == "basic" then Some("realman_change_lips_basic_chimera")
    else None
  }

  // ---------------------------------------------------------------- submit

  /** The optional arguments as `submit_lip_sync_task` copies them: the
      scene and vocal switches only in `basic` mode, the looping and start
      time only in `lite` mode, where a truthy `align_audio_reverse` also
      turns `align_audio` on. */
  function Options(data: PyDict, mode: string, kwargs: PyDict): PyDict {
    var basic := mode == "basic";
    var lite := mode == "lite";
    var d1 := CopyIf(data, kwargs, "separate_vocal", basic);
    var d2 := CopyIf(d1, kwargs, "open_scenedet", basic);
    var d3 := CopyIf(d2, kwargs, "align_audio", lite);
    var d4 := CopyIf(d3, kwargs, "align_audio_reverse", lite);
    var d5 := SetWhen(d4, "align_audio", Bool(true), lite && ReverseRequested(kwargs));
    CopyIf(d5, kwargs, "templ_start_seconds", lite)
  }

  predicate ReverseRequested(kwargs: PyDict) {
    HasKey(kwargs, "align_audio_reverse") && Truthy(Get(kwargs, "align_audio_reverse").value)
  }

  /** `submit_lip_sync_task` up to the request: the video URL, the audio
      URL and the mode are checked in that order. */
  function SubmitCall(videoUrl: string, audioUrl: string, mode: string, kwargs: PyDict): (r: Res<Call>)
    ensures r.Ok? <==> Utils.ValidateUrl(videoUrl) && Utils.ValidateUrl(audioUrl) && ReqKey(mode).Some?
    ensures !Utils.ValidateUrl(videoUrl) ==> r == Err(Exc(ValueError, BadUrlMessage(Video)))
    ensures Utils.ValidateUrl(videoUrl) && !Utils.ValidateUrl(audioUrl) ==> r == Err(Exc(ValueError, BadUrlMessage(Audio)))
    ensures r.Ok? ==> r.value.reqKey == ReqKey(mode).value && r.value.action == "CVSubmitTask"
  {
    var _ :- CheckUrl(videoUrl, Video);
    var _ :- CheckUrl(audioUrl, Audio);
    if ReqKey(mode).None? then Err(Exc(ValueError, "不支持的模式: " + mode + "，支持的模式: lite, basic"))
    else
      var data := Options([("url", Str(videoUrl)), ("pure_audio_url", Str(audioUrl))], mode, kwargs);
      Ok(Call("POST", "CVSubmitTask", ReqKey(mode).value, DefaultVersion, data, "", ""))
  }

  /** What the submitted body holds under each key, written key by key. */
  function PayloadField(videoUrl: string, audioUrl: string, mode: string, kwargs: PyDict, k: string): Option<Json> {
    if k == "url" then Some(Str(videoUrl))
    else if k == "pure_audio_url" then Some(Str(audioUrl))
    else if k == "separate_vocal" || k == "open_scenedet" then
      if mode == "basic" then Get(kwargs, k) else None
    else if k == "align_audio" then
      if mode != "lite" then None
      else if ReverseRequested(kwargs) then Some(Bool(true))
      else Get(kwargs, k)
    else if k == "align_audio_reverse" || k == "templ_start_seconds" then
      if mode == "lite" then Get(kwargs, k) else None
    else None
  }

  /** The body always carries the video and audio URLs; each option is
      present only in its own mode and only when the caller passed it;
      a truthy `align_audio_reverse` forces `align_audio` to true whatever
      the caller said; and nothing else is sent. */
  lemma SubmitPayloadFields(videoUrl: string, audioUrl: string, mode: string, kwargs: PyDict, k: string)
    requires SubmitCall(videoUrl, audioUrl, mode, kwargs).Ok?
    ensures Get(SubmitCall(videoUrl, audioUrl, mode, kwargs).value.data, k) == PayloadField(videoUrl, audioUrl, mode, kwargs, k)
  {
    var base: PyDict := [("url", Str(videoUrl)), ("pure_audio_url", Str(audioUrl))];
    assert SubmitCall(videoUrl, audioUrl, mode, kwargs).value.data == Options(base, mode, kwargs);
    PayloadOfOptions(videoUrl, audioUrl, mode, kwargs, k);
  }

  lemma PayloadOfOptions(videoUrl: string, audioUrl: string, mode: string, kwargs: PyDict, k: string)
    ensures Get(Options([("url", Str(videoUrl)), ("pure_audio_url", Str(audioUrl))], mode, kwargs), k)
         == PayloadField(videoUrl, audioUrl, mode, kwargs, k)
  {
    var base: PyDict := [("url", Str(videoUrl)), ("pure_audio_url", Str(audioUrl))];
    OptionsField(base, mode, kwargs, k);
    if k != "url" && k != "pure_audio_url" {
      assert Get(base, k) == None;
    }
  }

  /** The options step, key by key, over any starting dict. */
  lemma OptionsField(data: PyDict, mode: string, kwargs: PyDict, k: string)
    ensures Get(Options(data, mode, kwargs), k) ==
      if k == "separate_vocal" || k == "open_scenedet" then
        (if mode == "basic" && HasKey(kwargs, k) then Get(kwargs, k) else Get(data, k))
      else if k == "align_audio" then
        (if mode == "lite" && ReverseRequested(kwargs) then Some(Bool(true))
         else if mode == "lite" && HasKey(kwargs, k) then Get(kwargs, k) else Get(data, k))
      else if k == "align_audio_reverse" || k == "templ_start_seconds" then
        (if mode == "lite" && HasKey(kwargs, k) then Get(kwargs, k) else Get(data, k))
      else Get(data, k)
  {
  }

  function SubmitAttempts(videoUrl: string, audioUrl: string, mode: string, kwargs: PyDict,
                          responses: nat -> Res<Json>, codec: Codec): (f: nat -> Res<Json>)
    ensures forall i: nat :: f(i) == Submit(videoUrl, audioUrl, mode, kwargs, responses(i), codec)
  {
    (i: nat) => Submit(videoUrl, audioUrl, mode, kwargs, responses(i), codec)
  }

  /** One attempt of `submit_lip_sync_task`: the submitted task's id. */
  function Submit(videoUrl: string, audioUrl: string, mode: string, kwargs: PyDict, response: Res<Json>, codec: Codec): Res<Json> {
    var _ :- SubmitCall(videoUrl, audioUrl, mode, kwargs);
    var r :- response;
    Submitted(r, "视频改口型任务提交失败: ", codec)
  }

  // ---------------------------------------------------------------- result

  function ResultCall(taskId: string, mode: string, aigcMeta: Json, codec: Codec): (r: Res<Call>)
    ensures r.Ok? <==> ReqKey(mode).Some?
    ensures r.Ok? ==> r.value.taskId == taskId && r.value.reqJson == AigcReqJson(aigcMeta, codec)
  {
    if ReqKey(mode).None? then Err(Exc(ValueError, "不支持的模式: " + mode))
    else Ok(Call("POST", "CVGetResult", ReqKey(mode).value, DefaultVersion, [], taskId, AigcReqJson(aigcMeta, codec)))
  }

  /** A finished lip-sync task: status, task id and `aigc_meta_tagged`,
      then the video link (`url` of `resp_data`) when truthy and the video
      metadata when present. */
  function Done(taskId: string, data: PyDict, resp: PyDict): Res<Json> {
    var meta :- VideoMeta(GetOr(resp, "vid_info", Obj([])));
    var base := [("status", Str("done")), ("task_id", Str(taskId)),
                 ("aigc_meta_tagged", GetOr(data, "aigc_meta_tagged", Bool(false)))];
    var link := Field(resp, "url");
    var withLink := Appended(base, "video_url", if Truthy(link) then Some(link) else None);
    Ok(Obj(Appended(withLink, "video_meta", meta)))
  }

  const ResultWrap := "获取视频改口型结果失败: "

  /** `get_lip_sync_result`. */
  function GetResult(taskId: string, mode: string, aigcMeta: Json, response: Res<Json>, codec: Codec): Res<Json> {
    var _ :- ResultCall(taskId, mode, aigcMeta, codec);
    Queried(response, ResultWrap, "视频改口型失败: ", (data, resp) => Done(taskId, data, resp), codec)
  }

  /** A dict without a `code` entry. */
  predicate NoCode(r: Json) {
    r.Obj? && !HasKey(r.fields, "code")
  }

  /** A done task's answer is a dict with `status` done and no `code`. */
  lemma DoneHasNoCode(taskId: string, data: PyDict, resp: PyDict)
    requires Done(taskId, data, resp).Ok?
    ensures NoCode(Done(taskId, data, resp).value)
    ensures FieldIs(Done(taskId, data, resp).value.fields, "status", "done")
  {
    var base := [("status", Str("done")), ("task_id", Str(taskId)),
                 ("aigc_meta_tagged", GetOr(data, "aigc_meta_tagged", Bool(false)))];
    GetThree(base, "code");
    GetThree(base, "status");
    var link := Field(resp, "url");
    var withLink := Appended(base, "video_url", if Truthy(link) then Some(link) else None);
    var meta := VideoMeta(GetOr(resp, "vid_info", Obj([]))).value;
    assert Done(taskId, data, resp).value == Obj(Appended(withLink, "video_meta", meta));
  }

  /** Nothing `get_lip_sync_result` returns carries a `code`: it returns a
      finished task's fields or a status report, never the raw response. */
  lemma ResultsCarryNoCode(taskId: string, mode: string, aigcMeta: Json, response: Res<Json>, codec: Codec)
    ensures GetResult(taskId, mode, aigcMeta, response, codec).Ok? ==> NoCode(GetResult(taskId, mode, aigcMeta, response, codec).value)
  {
    var onDone := (data, resp) => Done(taskId, data, resp);
    forall d, p | onDone(d, p).Ok? ensures NoCode(onDone(d, p).value) {
      DoneHasNoCode(taskId, d, p);
    }
    QueriedForms(response, ResultWrap, "视频改口型失败: ", onDone, codec, NoCode);
    var r := GetResult(taskId, mode, aigcMeta, response, codec);
    if r.Ok? && IsStatusReport(r.value, codec) {
      StatusReportKeys(r.value.fields[0].1, codec, "code");
    }
  }

  // ----------------------------------------------------------------- waiting

  function Observations(taskId: string, mode: string, replies: nat -> Observation, codec: Codec): (f: nat -> Observation)
    ensures forall i: nat :: f(i) == Observation(GetResult(taskId, mode, Null, replies(i).result, codec), replies(i).took)
  {
    (i: nat) => Observation(GetResult(taskId, mode, Null, replies(i).result, codec), replies(i).took)
  }

  /** `wait_for_completion` as written: it looks for `code == 10000` in
      what `get_lip_sync_result` returned. */
  function WaitAsWritten(taskId: string, mode: string, maxWait: int, interval: nat,
                         replies: nat -> Observation, codec: Codec): PollEnd
    requires interval > 0
  {
    Poll.Wait(LipSyncVerdict, TimeoutErrorFor(maxWait), Observations(taskId, mode, replies, codec), maxWait, interval)
  }

  lemma NoCodeContinues(r: Json)
    requires NoCode(r)
    ensures LipSyncVerdict(r) == Ok(Continue)
  {
    assert Get(r.fields, "code") == None;
  }

  /** As written, the wait can never return a result: whatever the service
      answers, even a finished task on the first query, it ends in a
      timeout or an escaping error. */
  lemma WaitAsWrittenNeverReturns(taskId: string, mode: string, maxWait: int, interval: nat,
                                  replies: nat -> Observation, codec: Codec)
    requires interval > 0
    ensures WaitAsWritten(taskId, mode, maxWait, interval, replies, codec).exit != Returned
    ensures WaitAsWritten(taskId, mode, maxWait, interval, replies, codec).result.Err?
  {
    var r := WaitAsWritten(taskId, mode, maxWait, interval, replies, codec);
    var obs := Observations(taskId, mode, replies, codec);
    if r.polls > 0 {
      var o := obs(r.polls - 1);
      ResultsCarryNoCode(taskId, mode, Null, replies(r.polls - 1).result, codec);
      if o.result.Ok? {
        NoCodeContinues(o.result.value);
      }
    }
  }

  /** The reading of a result the loop evidently intends: the status that
      `get_lip_sync_result` reports, and its `video_url`. */
  function CorrectedVerdict(res: Json): (v: Res<Verdict>)
    ensures v.Err? <==> !res.Obj?
  {
    var status :- GetKey(res, "status");
    if status == Str("done") then Ok(Finish)
    else if LostStatus(status) then Ok(Abort(status.s))
    else if In(res.fields, "video_url") then Ok(Finish)
    else Ok(Continue)
  }

  /** `wait_for_completion` reading the result as evidently intended. */
  function Wait(taskId: string, mode: string, maxWait: int, interval: nat,
                replies: nat -> Observation, codec: Codec): PollEnd
    requires interval > 0
  {
    Poll.Wait(CorrectedVerdict, TimeoutErrorFor(maxWait), Observations(taskId, mode, replies, codec), maxWait, interval)
  }

  /** With the corrected reading, a task reported finished by the first
      query before the deadline is returned at once. */
  lemma WaitReturnsFinishedTask(taskId: string, mode: string, maxWait: int, interval: nat,
                                replies: nat -> Observation, codec: Codec)
    requires interval > 0 && maxWait > 0
    requires ReportsDone(GetResult(taskId, mode, Null, replies(0).result, codec))
    ensures var r := Wait(taskId, mode, maxWait, interval, replies, codec);
      r.exit == Returned && r.polls == 1 && r.result == GetResult(taskId, mode, Null, replies(0).result, codec)
  {
    var obs := Observations(taskId, mode, replies, codec);
    var res := GetResult(taskId, mode, Null, replies(0).result, codec);
    assert obs(0).result == res;
    DoneFinishes(res.value);
    FirstAnswerFinishes(CorrectedVerdict, TimeoutErrorFor(maxWait), obs, maxWait, interval);
  }

  lemma DoneFinishes(res: Json)
    requires res.Obj? && FieldIs(res.fields, "status", "done")
    ensures CorrectedVerdict(res) == Ok(Finish)
  {
    assert GetKey(res, "status") == Ok(Str("done"));
  }

  // --------------------------------------------------------------- the flow

  /** The responses to successive submit attempts, and to the status queries. */
  datatype Network = Network(submits: nat -> Res<Json>, polls: nat -> Observation)

  const CheckInterval := 15

  /** The fields `change_lip_sync` hands back for a finished task. */
  function Delivered(f: PyDict, taskId: Json): (r: PyDict)
    ensures Get(r, "task_id") == Some(taskId)
  {
    var front := [("video_url", Field(f, "video_url")), ("video_meta", Field(f, "video_meta")),
                  ("aigc_meta_tagged", Field(f, "aigc_meta_tagged"))];
    assert Keys(front) == ["video_url", "video_meta", "aigc_meta_tagged"];
    GetAppend(front, [("task_id", taskId)], "task_id");
    front + [("task_id", taskId)]
  }

  /** The end of `change_lip_sync` once the wait is over: only a finished
      task yields the video fields; any other result raises. */
  function Finished(taskId: Json, waited: Res<Json>, codec: Codec): (r: Res<Json>)
    ensures ReportsDone(waited) ==> r == Ok(Obj(Delivered(waited.value.fields, taskId)))
    ensures waited.Err? ==> r == Err(waited.error)
  {
    var result :- waited;
    match result
    case Obj(f) =>
      if FieldIs(f, "status", "done") then Ok(Obj(Delivered(f, taskId)))
      else Err(Exc(Exception, "视频改口型失败: " + codec.show(result)))
    case _ => Err(NoAttribute(result))
  }

  /** `change_lip_sync` as written. */
  function ChangeAsWritten(videoUrl: string, audioUrl: string, mode: string, maxWait: int, kwargs: PyDict,
                           net: Network, codec: Codec): Res<Json> {
    var taskId :- Utils.Retry(MaxRetries, SubmitAttempts(videoUrl, audioUrl, mode, kwargs, net.submits, codec), Utils.CatchAll).result;
    Finished(taskId, WaitAsWritten(PyStr(taskId, codec), mode, maxWait, CheckInterval, net.polls, codec).result, codec)
  }

  /** As written, `change_lip_sync` never succeeds. */
  lemma ChangeAsWrittenAlwaysRaises(videoUrl: string, audioUrl: string, mode: string, maxWait: int, kwargs: PyDict,
                                    net: Network, codec: Codec)
    ensures ChangeAsWritten(videoUrl, audioUrl, mode, maxWait, kwargs, net, codec).Err?
  {
    var run := Utils.Retry(MaxRetries, SubmitAttempts(videoUrl, audioUrl, mode, kwargs, net.submits, codec), Utils.CatchAll);
    if run.result.Ok? {
      WaitAsWrittenNeverReturns(PyStr(run.result.value, codec), mode, maxWait, CheckInterval, net.polls, codec);
    }
  }

  /** `change_lip_sync` (the `aigc_meta` argument is not passed on by the
      source either), waiting with the corrected reading. */
  function Change(videoUrl: string, audioUrl: string, mode: string, maxWait: int, kwargs: PyDict,
                  net: Network, codec: Codec): Res<Json> {
    var taskId :- Utils.Retry(MaxRetries, SubmitAttempts(videoUrl, audioUrl, mode, kwargs, net.submits, codec), Utils.CatchAll).result;
    Finished(taskId, Wait(PyStr(taskId, codec), mode, maxWait, CheckInterval, net.polls, codec).result, codec)
  }

  /** With the corrected wait, a submitted task that the first status
      query reports finished yields its video fields and task id. */
  lemma ChangeDeliversFinishedTask(videoUrl: string, audioUrl: string, mode: string, maxWait: int, kwargs: PyDict,
                                   net: Network, codec: Codec)
    requires maxWait > 0
    requires Submit(videoUrl, audioUrl, mode, kwargs, net.submits(0), codec).Ok?
    requires var taskId := PyStr(Submit(videoUrl, audioUrl, mode, kwargs, net.submits(0), codec).value, codec);
      ReportsDone(GetResult(taskId, mode, Null, net.polls(0).result, codec))
    ensures var r := Change(videoUrl, audioUrl, mode, maxWait, kwargs, net, codec);
      && r.Ok? && r.value.Obj?
      && Get(r.value.fields, "task_id") == Some(Submit(videoUrl, audioUrl, mode, kwargs, net.submits(0), codec).value)
  {
    var attempts := SubmitAttempts(videoUrl, audioUrl, mode, kwargs, net.submits, codec);
    Utils.RetrySucceedsAt(MaxRetries, attempts, Utils.CatchAll, 0);
    var taskId := Submit(videoUrl, audioUrl, mode, kwargs, net.submits(0), codec).value;
    assert Utils.Retry(MaxRetries, attempts, Utils.CatchAll).result == Ok(taskId);
    var res := GetResult(PyStr(taskId, codec), mode, Null, net.polls(0).result, codec);
    WaitReturnsFinishedTask(PyStr(taskId, codec), mode, maxWait, CheckInterval, net.polls, codec);
    var waited := Wait(PyStr(taskId, codec), mode, maxWait, CheckInterval, net.polls, codec).result;
    assert waited == res;
    assert Change(videoUrl, audioUrl, mode, maxWait, kwargs, net, codec) == Finished(taskId, waited, codec);
  }
}

=== FILE: omni.dfy ===
/** The OmniHuman client built on the base client: its result query hands
    back a finished task's data as the service sent it, and its full flow
    returns whatever the wait returned. */
module Omni {
  import opened Wrappers
  import opened Text
  import opened Dicts
  import opened Py
  import opened Request
  import opened Tasks
  import opened Poll
  import opened OmniHuman
  import Utils

  const ResultFailure := "获取结果失败: "

  /** The body of `get_result`'s `try`: a finished task's `data` is copied
      unchanged, any other status is reported back. */
  function ResultBody(response: Res<Json>, codec: Codec): Res<Json> {
    var r :- response;
    match r
    case Obj(f) =>
      if !Succeeded(f) then Err(Exc(Exception, ResultFailure + codec.show(r)))
      else
        var data :- Index(r, "data");
        var status :- Index(data, "status");
        if status == Str("done") then Ok(data)
        else Ok(StatusReport(status, codec))
    case _ => Err(NoAttribute(r))
  }

  /** `get_result`. */
  function GetResult(taskId: string, operation: string, version: string, aigcMeta: Json,
                     response: Res<Json>, codec: Codec): (r: Res<Json>)
    ensures ResultCall(taskId, operation, version, aigcMeta, codec).Err? ==>
      r == Err(ResultCall(taskId, operation, version, aigcMeta, codec).error)
    ensures ResultCall(taskId, operation, version, aigcMeta, codec).Ok? && r.Err? ==>
      r.error.kind == Exception && StartsWith(r.error.msg, ResultFailure)
  {
    var _ :- ResultCall(taskId, operation, version, aigcMeta, codec);
    match ResultBody(response, codec)
    case Ok(v) => Ok(v)
    case Err(e) => Err(Exc(Exception, ResultFailure + e.msg))
  }

  /** A successful query is either the finished task's `data`, exactly as
      the service sent it, or the status report of a task that is not done. */
  lemma GetResultForms(taskId: string, operation: string, version: string, response: Res<Json>, codec: Codec)
    requires GetResult(taskId, operation, version, Null, response, codec).Ok?
    ensures var v := GetResult(taskId, operation, version, Null, response, codec).value;
      && ReqKey(version, operation).Some?
      && response.Ok? && response.value.Obj? && Succeeded(response.value.fields)
      && var data := Get(response.value.fields, "data").value;
      && data.Obj? && HasKey(data.fields, "status")
      && (FieldIs(data.fields, "status", "done") ==> v == data)
      && (!FieldIs(data.fields, "status", "done") ==> IsStatusReport(v, codec))
  {
  }

  /** The loop reads this client's answers exactly: one ends the wait when
      it reports the task done, and never otherwise. */
  lemma QueryFinishesOnlyWhenDone(taskId: string, operation: string, version: string, response: Res<Json>, codec: Codec)
    requires GetResult(taskId, operation, version, Null, response, codec).Ok?
    ensures var v := GetResult(taskId, operation, version, Null, response, codec).value;
      v.Obj? && (JimengVerdict(v) == Ok(Finish) <==> FieldIs(v.fields, "status", "done"))
  {
    var v := GetResult(taskId, operation, version, Null, response, codec).value;
    GetResultForms(taskId, operation, version, response, codec);
    if FieldIs(v.fields, "status", "done") {
      assert GetKey(v, "status") == Ok(Str("done"));
    } else {
      ReportNeverFinishes(v, codec);
    }
  }

  // ----------------------------------------------------------------- waiting

  function Observations(taskId: string, operation: string, version: string, replies: nat -> Observation, codec: Codec): (f: nat -> Observation)
    ensures forall i: nat :: f(i) == Observation(GetResult(taskId, operation, version, Null, replies(i).result, codec), replies(i).took)
  {
    (i: nat) => Observation(GetResult(taskId, operation, version, Null, replies(i).result, codec), replies(i).took)
  }

  /** `wait_for_completion`, with the same exits as the older client's. */
  function Wait(taskId: string, operation: string, version: string, maxWait: int, interval: nat,
                replies: nat -> Observation, codec: Codec): PollEnd
    requires interval > 0
  {
    Poll.Wait(JimengVerdict, TimeoutErrorFor(maxWait), Observations(taskId, operation, version, replies, codec), maxWait, interval)
  }

  /** When the wait returns, it returns the `data` of the last response
      unchanged, and that data reports the task done. */
  lemma WaitReturnsTaskData(taskId: string, operation: string, version: string, maxWait: int, interval: nat,
                            replies: nat -> Observation, codec: Codec)
    requires interval > 0
    requires Wait(taskId, operation, version, maxWait, interval, replies, codec).exit == Returned
    ensures var w := Wait(taskId, operation, version, maxWait, interval, replies, codec);
      && w.polls > 0
      && var response := replies(w.polls - 1).result;
      && response.Ok? && Index(response.value, "data").Ok?
      && w.result == Index(response.value, "data")
      && FieldIs(w.result.value.fields, "status", "done")
  {
    var w := Wait(taskId, operation, version, maxWait, interval, replies, codec);
    WaitReturnsQuery(taskId, operation, version, maxWait, interval, replies, codec);
    FinishedQueryIsData(taskId, operation, version, replies(w.polls - 1).result, codec);
  }

  /** A returned wait hands back the last query's result, which the loop
      judged finished. */
  lemma WaitReturnsQuery(taskId: string, operation: string, version: string, maxWait: int, interval: nat,
                         replies: nat -> Observation, codec: Codec)
    requires interval > 0
    requires Wait(taskId, operation, version, maxWait, interval, replies, codec).exit == Returned
    ensures var w := Wait(taskId, operation, version, maxWait, interval, replies, codec);
      && w.polls > 0
      && w.result == GetResult(taskId, operation, version, Null, replies(w.polls - 1).result, codec)
      && w.result.Ok? && JimengVerdict(w.result.value) == Ok(Finish)
  {
    var w := Wait(taskId, operation, version, maxWait, interval, replies, codec);
    var obs := Observations(taskId, operation, version, replies, codec);
    WaitReturns(JimengVerdict, TimeoutErrorFor(maxWait), obs, maxWait, interval);
    assert obs(w.polls - 1).result == GetResult(taskId, operation, version, Null, replies(w.polls - 1).result, codec);
  }

  /** A query the loop judges finished is the task's `data` as sent. */
  lemma FinishedQueryIsData(taskId: string, operation: string, version: string, response: Res<Json>, codec: Codec)
    requires GetResult(taskId, operation, version, Null, response, codec).Ok?
    requires JimengVerdict(GetResult(taskId, operation, version, Null, response, codec).value) == Ok(Finish)
    ensures var v := GetResult(taskId, operation, version, Null, response, codec).value;
      && response.Ok? && Index(response.value, "data") == Ok(v)
      && v.Obj? && FieldIs(v.fields, "status", "done")
  {
    QueryFinishesOnlyWhenDone(taskId, operation, version, response, codec);
    GetResultForms(taskId, operation, version, response, codec);
    assert Index(response.value, "data") == Ok(Get(response.value.fields, "data").value);
  }

  // --------------------------------------------------------------- the flow

  datatype Network = Network(detections: nat -> Res<Json>, submits: nat -> Res<Json>, polls: nat -> Observation)

  const CheckInterval := 15

  /** `generate_video_from_image_audio`: an unknown version fails the
      configuration lookup before anything is sent; otherwise the poller's
      result is returned as it is. */
  function GenerateFromImageAudio(imageUrl: string, audioUrl: string, version: string, opts: Options, aigcMeta: Json,
                                  maxWait: int, net: Network, codec: Codec): (r: Res<Json>)
    ensures !KnownVersion(version) ==> r == Err(Exc(KeyError, "'" + version + "'"))
  {
    if !KnownVersion(version) then Err(Exc(KeyError, "'" + version + "'"))
    else
      var taskId :- Submission(imageUrl, audioUrl, version, opts, aigcMeta, net.detections, net.submits, codec);
      Wait(PyStr(taskId, codec), "generate", version, maxWait, CheckInterval, net.polls, codec).result
  }

  /** A successful flow returns the finished video task's `data` exactly
      as the last status response carried it. */
  lemma FlowReturnsTaskData(imageUrl: string, audioUrl: string, version: string, opts: Options, aigcMeta: Json,
                            maxWait: int, net: Network, codec: Codec)
    requires KnownVersion(version)
    requires Submission(imageUrl, audioUrl, version, opts, aigcMeta, net.detections, net.submits, codec).Ok?
    ensures var taskId := Submission(imageUrl, audioUrl, version, opts, aigcMeta, net.detections, net.submits, codec).value;
      var w := Wait(PyStr(taskId, codec), "generate", version, maxWait, CheckInterval, net.polls, codec);
      var r := GenerateFromImageAudio(imageUrl, audioUrl, version, opts, aigcMeta, maxWait, net, codec);
      r.Ok? ==>
        && w.exit == Returned && w.polls > 0 && net.polls(w.polls - 1).result.Ok?
        && r == Index(net.polls(w.polls - 1).result.value, "data")
        && r.value.Obj? && FieldIs(r.value.fields, "status", "done")
  {
    var taskId := Submission(imageUrl, audioUrl, version, opts, aigcMeta, net.detections, net.submits, codec).value;
    var id := PyStr(taskId, codec);
    var w := Wait(id, "generate", version, maxWait, CheckInterval, net.polls, codec);
    var r := GenerateFromImageAudio(imageUrl, audioUrl, version, opts, aigcMeta, maxWait, net, codec);
    assert r == w.result;
    if r.Ok? {
      WaitReturnsTaskData(id, "generate", version, maxWait, CheckInterval, net.polls, codec);
    }
  }
}

=== FILE: omni_human.dfy ===
/** What the two OmniHuman digital-human clients share: the older
    stand-alone Jimeng client and the newer one built on the base client
    have the same service keys per version and operation, the same video
    submit with its version-gated options and its advisory subject
    detection, and the same synchronous object detection. */
module OmniHuman {
  import opened Wrappers
  import opened Text
  import opened Dicts
  import opened Py
  import opened Request
  import opened Tasks
  import Utils
  import Poll

  predicate KnownVersion(version: string) {
    version == "1.0" || version == "1.5"
  }

  /** `REQ_KEYS[version][operation]`: only version 1.5 has object detection. */
  function ReqKey(version: string, operation: string): (r: Option<string>)
    ensures r.Some? <==>
      KnownVersion(version) && (operation == "detect" || operation == "generate" || (operation == "detect_object" && version == "1.5"))
  {
    if version == "1.0" then
      if operation == "detect" then Some("jimeng_realman_avatar_picture_create_role_omni")
      else if operation == "generate" then Some("jimeng_realman_avatar_picture_omni_v2")
      else None
    else if version == "1.5" then
      if operation == "detect" then Some("jimeng_realman_avatar_picture_create_role_omni_v15")
      else if operation == "detect_object" then Some("jimeng_realman_avatar_object_detection")
      else if operation == "generate" then Some("jimeng_realman_avatar_picture_omni_v15")
      else None
    else None
  }

  /** No two entries of the table share a service key. */
  lemma ReqKeysDistinct(v1: string, o1: string, v2: string, o2: string)
    requires ReqKey(v1, o1).Some? && ReqKey(v2, o2).Some?
    requires ReqKey(v1, o1) == ReqKey(v2, o2)
    ensures v1 == v2 && o1 == o2
  {
  }

  // ------------------------------------------------------------ result query

  const UnknownVersionPrefix := "不支持的版本: "
  const UnknownOperationPrefix := "不支持的操作类型: "

  /** `get_result` up to its `try`: the version is checked, then the
      operation type, and looking up `detect_object` for version 1.0 raises
      the `KeyError` of the missing entry. */
  function ResultCall(taskId: string, operation: string, version: string, aigcMeta: Json, codec: Codec): (r: Res<Call>)
    ensures r.Ok? <==> ReqKey(version, operation).Some?
    ensures !KnownVersion(version) ==> r == Err(Exc(ValueError, UnknownVersionPrefix + version))
    ensures KnownVersion(version) && operation != "detect" && operation != "detect_object" && operation != "generate" ==>
      r == Err(Exc(ValueError, UnknownOperationPrefix + operation))
    ensures version == "1.0" && operation == "detect_object" ==> r == Err(Exc(KeyError, "'detect_object'"))
    ensures r.Ok? ==>
      && r.value.action == "CVGetResult" && r.value.reqKey == ReqKey(version, operation).value
      && r.value.taskId == taskId && r.value.reqJson == AigcReqJson(aigcMeta, codec) && r.value.data == []
  {
    if !KnownVersion(version) then Err(Exc(ValueError, UnknownVersionPrefix + version))
    else if operation != "detect" && operation != "detect_object" && operation != "generate" then
      Err(Exc(ValueError, UnknownOperationPrefix + operation))
    else match ReqKey(version, operation)
      case None => Err(Exc(KeyError, "'detect_object'"))
      case Some(key) => Ok(Call("POST", "CVGetResult", key, DefaultVersion, [], taskId, AigcReqJson(aigcMeta, codec)))
  }

  /** None of the messages a rejected query raises mentions the marker the
      poll loops look for, unless the caller's own version or operation
      does. */
  lemma ResultCallErrorNoMarker(taskId: string, operation: string, version: string, aigcMeta: Json, codec: Codec)
    requires ResultCall(taskId, operation, version, aigcMeta, codec).Err?
    requires !Contains(version, Poll.Marker) && !Contains(operation, Poll.Marker)
    ensures !Poll.Escapes(ResultCall(taskId, operation, version, aigcMeta, codec).error)
  {
    if !KnownVersion(version) {
      ContainsPastPrefix(UnknownVersionPrefix, version, Poll.Marker);
    } else if operation != "detect" && operation != "detect_object" && operation != "generate" {
      ContainsPastPrefix(UnknownOperationPrefix, operation, Poll.Marker);
    } else {
      ContainsPastPrefix("'detect_object'", [], Poll.Marker);
      assert "'detect_object'" + [] == "'detect_object'";
    }
  }

  /** A status report is never read as a finished task. */
  lemma ReportNeverFinishes(v: Json, codec: Codec)
    requires IsStatusReport(v, codec)
    ensures Poll.JimengVerdict(v) != Ok(Poll.Finish) && !FieldIs(v.fields, "status", "done")
  {
    var status := v.fields[0].1;
    StatusReportKeys(status, codec, "video_url");
    StatusReportKeys(status, codec, "contains_subject");
    StatusReportKeys(status, codec, "contains_object");
  }

  // ----------------------------------------------------------- video submit

  /** The optional arguments of `generate_video`. */
  datatype Options = Options(prompt: Json, maskUrl: Json, seed: Json, peFastMode: bool)

  /** The submitted fields: both URLs, and for version 1.5 only the prompt
      and masks when truthy, the seed when not `None` and the fast mode as
      `true` when requested. */
  function Payload(imageUrl: string, audioUrl: string, version: string, opts: Options): PyDict {
    var v15 := version == "1.5";
    var base: PyDict := [("image_url", Str(imageUrl)), ("audio_url", Str(audioUrl))];
    var d1 := SetWhen(base, "prompt", opts.prompt, v15 && Truthy(opts.prompt));
    var d2 := SetWhen(d1, "mask_url", opts.maskUrl, v15 && Truthy(opts.maskUrl));
    var d3 := SetWhen(d2, "seed", opts.seed, v15 && opts.seed != Null);
    SetWhen(d3, "pe_fast_mode", Bool(true), v15 && opts.peFastMode)
  }

  /** What the submitted body holds under each key, written key by key. */
  function PayloadField(imageUrl: string, audioUrl: string, version: string, opts: Options, k: string): Option<Json> {
    if k == "image_url" then Some(Str(imageUrl))
    else if k == "audio_url" then Some(Str(audioUrl))
    else if version != "1.5" then None
    else if k == "prompt" then (if Truthy(opts.prompt) then Some(opts.prompt) else None)
    else if k == "mask_url" then (if Truthy(opts.maskUrl) then Some(opts.maskUrl) else None)
    else if k == "seed" then (if opts.seed != Null then Some(opts.seed) else None)
    else if k == "pe_fast_mode" then (if opts.peFastMode then Some(Bool(true)) else None)
    else None
  }

  /** Version 1.0 sends only the two URLs; version 1.5 adds each option
      under its own gate; nothing else is sent. */
  lemma PayloadFields(imageUrl: string, audioUrl: string, version: string, opts: Options, k: string)
    ensures Get(Payload(imageUrl, audioUrl, version, opts), k) == PayloadField(imageUrl, audioUrl, version, opts, k)
  {
    var base: PyDict := [("image_url", Str(imageUrl)), ("audio_url", Str(audioUrl))];
    GetTwo(base, k);
  }

  const UnsupportedVersion := "，支持的版本: 1.0, 1.5"

  /** `generate_video` up to the request: the image URL, the audio URL and
      the version are checked in that order. */
  function GenerateCall(imageUrl: string, audioUrl: string, version: string, opts: Options, aigcMeta: Json, codec: Codec): (r: Res<Call>)
    ensures r.Ok? <==> Utils.ValidateUrl(imageUrl) && Utils.ValidateUrl(audioUrl) && KnownVersion(version)
                       && !UnsizedMask(version, opts.maskUrl)
    ensures !Utils.ValidateUrl(imageUrl) ==> r == Err(Exc(ValueError, BadUrlMessage(Image)))
    ensures Utils.ValidateUrl(imageUrl) && !Utils.ValidateUrl(audioUrl) ==> r == Err(Exc(ValueError, BadUrlMessage(Audio)))
    ensures Utils.ValidateUrl(imageUrl) && Utils.ValidateUrl(audioUrl) && !KnownVersion(version) ==>
      r == Err(Exc(ValueError, UnknownVersionPrefix + version + UnsupportedVersion))
    ensures Utils.ValidateUrl(imageUrl) && Utils.ValidateUrl(audioUrl) && KnownVersion(version) && UnsizedMask(version, opts.maskUrl) ==>
      r == Err(NoLen(opts.maskUrl))
    ensures r.Ok? ==> && r.value.action == "CVSubmitTask" && r.value.reqKey == ReqKey(version, "generate").value
                      && r.value.taskId == "" && r.value.reqJson == AigcReqJson(aigcMeta, codec)
                      && forall k :: Get(r.value.data, k) == PayloadField(imageUrl, audioUrl, version, opts, k)
  {
    var _ :- CheckUrl(imageUrl, Image);
    var _ :- CheckUrl(audioUrl, Audio);
    if !KnownVersion(version) then Err(Exc(ValueError, UnknownVersionPrefix + version + UnsupportedVersion))
    else if UnsizedMask(version, opts.maskUrl) then Err(NoLen(opts.maskUrl))
    else
      forall k ensures Get(Payload(imageUrl, audioUrl, version, opts), k) == PayloadField(imageUrl, audioUrl, version, opts, k) {
        PayloadFields(imageUrl, audioUrl, version, opts, k);
      }
      Ok(Call("POST", "CVSubmitTask", ReqKey(version, "generate").value, DefaultVersion,
              Payload(imageUrl, audioUrl, version, opts), "", AigcReqJson(aigcMeta, codec)))
  }

  const NoSubject := "图片中未检测到人、类人、拟人等主体，请更换图片"

  /** A value `len()` accepts. */
  predicate Sized(j: Json) {
    j.Str? || j.Arr? || j.Obj?
  }

  /** Version 1.5 counts a truthy `mask_url` with `len()` while building
      the body, which raises for a number or a boolean. */
  predicate UnsizedMask(version: string, maskUrl: Json) {
    version == "1.5" && Truthy(maskUrl) && !Sized(maskUrl)
  }

  /** The body of the detection `try` in `generate_video`: the detection
      itself may fail; a result whose `contains_subject` equals 0 raises;
      and reading the count of a truthy `mask_urls` that has no length
      raises when the caller gave no masks. */
  function DetectionCheck(detection: Res<Json>, maskUrl: Json): (r: Res<()>)
    ensures r.Ok? ==> detection.Ok? && detection.value.Obj? && !EqInt(Field(detection.value.fields, "contains_subject"), 0)
    ensures detection.Ok? && detection.value.Obj? && EqInt(Field(detection.value.fields, "contains_subject"), 0) ==>
      r == Err(Exc(Exception, NoSubject))
  {
    var result :- detection;
    var subject :- GetKey(result, "contains_subject");
    if EqInt(subject, 0) then Err(Exc(Exception, NoSubject))
    else
      var masks := GetKey(result, "mask_urls").value;
      if !Truthy(maskUrl) && Truthy(masks) && !Sized(masks) then Err(NoLen(masks))
      else Ok(())
  }

  const SubmitFailure := "视频生成任务提交失败: "

  /** One attempt of `generate_video`: for version 1.5 with `auto_detect`
      the subject detection runs first (`detection` is what `detect_avatar`
      returned or raised), but whatever it reports is caught and only
      printed; the submitted task's id is returned. */
  function Generate(imageUrl: string, audioUrl: string, version: string, opts: Options, aigcMeta: Json,
                    autoDetect: bool, detection: Res<Json>, response: Res<Json>, codec: Codec): (r: Res<Json>)
    ensures r.Ok? <==>
      && GenerateCall(imageUrl, audioUrl, version, opts, aigcMeta, codec).Ok?
      && response.Ok? && Submitted(response.value, SubmitFailure, codec).Ok?
    ensures r.Ok? ==> r == Submitted(response.value, SubmitFailure, codec)
  {
    var _ :- GenerateCall(imageUrl, audioUrl, version, opts, aigcMeta, codec);
    // the detection's outcome is caught and printed, never acted on
    var _ := if version == "1.5" && autoDetect then DetectionCheck(detection, opts.maskUrl) else Ok(());
    var submitted :- response;
    Submitted(submitted, SubmitFailure, codec)
  }

  /** An image the detection reports without a subject is submitted all
      the same: the exception raised for it is caught by the same `try`. */
  lemma NoSubjectStillSubmits(imageUrl: string, audioUrl: string, opts: Options, aigcMeta: Json,
                              detection: Res<Json>, response: Res<Json>, codec: Codec)
    requires detection.Ok? && detection.value.Obj? && EqInt(Field(detection.value.fields, "contains_subject"), 0)
    requires Utils.ValidateUrl(imageUrl) && Utils.ValidateUrl(audioUrl)
    requires response.Ok? && Submitted(response.value, SubmitFailure, codec).Ok?
    ensures DetectionCheck(detection, opts.maskUrl) == Err(Exc(Exception, NoSubject))
    ensures Generate(imageUrl, audioUrl, "1.5", opts, aigcMeta, true, detection, response, codec)
         == Generate(imageUrl, audioUrl, "1.5", opts, aigcMeta, false, detection, response, codec)
    ensures !UnsizedMask("1.5", opts.maskUrl) ==>
      Generate(imageUrl, audioUrl, "1.5", opts, aigcMeta, true, detection, response, codec)
         == Submitted(response.value, SubmitFailure, codec)
  {
    var call := GenerateCall(imageUrl, audioUrl, "1.5", opts, aigcMeta, codec);
    assert call.Ok? <==> !UnsizedMask("1.5", opts.maskUrl);
  }

  function Attempts(imageUrl: string, audioUrl: string, version: string, opts: Options, aigcMeta: Json,
                    detections: nat -> Res<Json>, responses: nat -> Res<Json>, codec: Codec): (f: nat -> Res<Json>)
    ensures forall i: nat :: f(i) == Generate(imageUrl, audioUrl, version, opts, aigcMeta, true, detections(i), responses(i), codec)
  {
    (i: nat) => Generate(imageUrl, audioUrl, version, opts, aigcMeta, true, detections(i), responses(i), codec)
  }

  /** A version 1.5 call whose `mask_url` is truthy but has no length (a
      number, `True`) never reaches the service: each of the four attempts
      raises the same `TypeError` while building the body, and the caller
      gets it after three pauses. */
  lemma UnsizedMaskRetried(imageUrl: string, audioUrl: string, opts: Options, aigcMeta: Json,
                           detections: nat -> Res<Json>, responses: nat -> Res<Json>, codec: Codec)
    requires Utils.ValidateUrl(imageUrl) && Utils.ValidateUrl(audioUrl)
    requires Truthy(opts.maskUrl) && !Sized(opts.maskUrl)
    ensures var run := Utils.Retry(MaxRetries, Attempts(imageUrl, audioUrl, "1.5", opts, aigcMeta, detections, responses, codec), Utils.CatchAll);
      && run.calls == MaxRetries + 1 && run.sleeps == MaxRetries
      && Submission(imageUrl, audioUrl, "1.5", opts, aigcMeta, detections, responses, codec) == Err(NoLen(opts.maskUrl))
  {
    var attempt := Attempts(imageUrl, audioUrl, "1.5", opts, aigcMeta, detections, responses, codec);
    forall j | 0 <= j <= MaxRetries ensures attempt(j) == Err(NoLen(opts.maskUrl)) {
      assert attempt(j) == Generate(imageUrl, audioUrl, "1.5", opts, aigcMeta, true, detections(j), responses(j), codec);
    }
    Utils.RetryExhausted(MaxRetries, attempt, Utils.CatchAll);
  }

  /** What `generate_video` under its retry decorator returns: the first
      submitted task's id, or the last attempt's failure. */
  function Submission(imageUrl: string, audioUrl: string, version: string, opts: Options, aigcMeta: Json,
                      detections: nat -> Res<Json>, responses: nat -> Res<Json>, codec: Codec): Res<Json> {
    Utils.Retry(MaxRetries, Attempts(imageUrl, audioUrl, version, opts, aigcMeta, detections, responses, codec), Utils.CatchAll).result
  }

  // -------------------------------------------------------- object detection

  const ObjectFailure := "对象检测失败: "

  /** `detect_object` up to the request: the synchronous `CVProcess` call
      with the version 1.5 object-detection key. */
  function ObjectCall(imageUrl: string): (r: Res<Call>)
    ensures r.Ok? <==> Utils.ValidateUrl(imageUrl)
    ensures r.Err? ==> r.error == Exc(ValueError, BadUrlMessage(Image))
    ensures r.Ok? ==>
      && r.value.action == "CVProcess" && r.value.reqKey == ReqKey("1.5", "detect_object").value
      && Get(r.value.data, "image_url") == Some(Str(imageUrl))
  {
    var _ :- CheckUrl(imageUrl, Image);
    Ok(Call("POST", "CVProcess", ReqKey("1.5", "detect_object").value, DefaultVersion, [("image_url", Str(imageUrl))], "", ""))
  }

  /** The detection data of a result: a truthy `resp_data`, parsed when it
      is a string; `None` when it is missing, falsy or does not parse. */
  function Parsed(raw: Json, codec: Codec): Option<Json> {
    if !Truthy(raw) then None
    else if raw.Str? then codec.loads(raw.s)
    else Some(raw)
  }

  /** The answer `detect_object` builds from detection data. */
  function ObjectReport(status: Json, maskUrls: Json, parsed: Json): Json {
    Obj([("status", Str("done")), ("contains_object", status), ("mask_urls", maskUrls), ("resp_data", parsed)])
  }

  /** The answer of a detection that produced no usable data. */
  function ErrorReport(message: string): Json {
    Obj([("status", Str("error")), ("message", Str(message))])
  }

  /** The masks of the detected objects: `object_detection_result.mask.url`
      with `{}`, `{}` and `[]` for the missing levels. */
  function MaskUrls(parsed: Json): Res<Json> {
    var found :- GetOrDefault(parsed, "object_detection_result", Obj([]));
    var mask :- GetOrDefault(found, "mask", Obj([]));
    GetOrDefault(mask, "url", Arr([]))
  }

  /** The answer built from the detection data, if any parsed. */
  function Detected(parsed: Option<Json>): Res<Json> {
    match parsed
    case None => Ok(ErrorReport("解析检测结果失败"))
    case Some(p) =>
      var status :- GetOrDefault(p, "status", Int(0));
      if EqInt(status, 1) then
        var urls :- MaskUrls(p);
        if !Sized(urls) then Err(NoLen(urls))
        else Ok(ObjectReport(status, urls, p))
      else Ok(ObjectReport(status, Arr([]), p))
  }

  /** How `detect_object` reads the `CVProcess` response. */
  function ObjectDetection(response: Json, codec: Codec): (r: Res<Json>)
    ensures r.Ok? ==> response.Obj? && Succeeded(response.fields)
    ensures response.Obj? && !Succeeded(response.fields) ==>
      r == Err(Exc(Exception, ObjectFailure + PyStr(GetOr(response.fields, "message", Str(UnknownError)), codec)))
  {
    match response
    case Obj(f) =>
      if !Succeeded(f) then Err(Exc(Exception, ObjectFailure + PyStr(GetOr(f, "message", Str(UnknownError)), codec)))
      else
        var data :- Index(response, "data");
        var raw :- GetKey(data, "resp_data");
        if !Truthy(raw) then Ok(ErrorReport("未获取到检测数据"))
        else Detected(Parsed(raw, codec))
    case _ => Err(NoAttribute(response))
  }

  /** One run of `detect_object`'s body: the URL check, the request and the
      reading of its response; a failed request raises its own error. */
  function DetectAttempt(imageUrl: string, response: Res<Json>, codec: Codec): Res<Json> {
    var _ :- ObjectCall(imageUrl);
    var resp :- response;
    ObjectDetection(resp, codec)
  }

  function DetectAttempts(imageUrl: string, responses: nat -> Res<Json>, codec: Codec): (f: nat -> Res<Json>)
    ensures forall i: nat :: f(i) == DetectAttempt(imageUrl, responses(i), codec)
  {
    (i: nat) => DetectAttempt(imageUrl, responses(i), codec)
  }

  /** `detect_object` under its retry decorator, the `i`-th request being
      answered by `responses(i)`: an answer is the reading of one of the
      first `MaxRetries + 1` responses, and a failure is the last error of
      a run in which every attempt failed or the URL was rejected. */
  function DetectObject(imageUrl: string, responses: nat -> Res<Json>, codec: Codec): (r: Res<Json>)
    ensures r.Ok? ==> Utils.ValidateUrl(imageUrl)
    ensures r.Ok? ==> exists k :: 0 <= k <= MaxRetries && responses(k).Ok? && r == ObjectDetection(responses(k).value, codec)
    ensures r.Err? ==> forall j :: 0 <= j <= MaxRetries ==> DetectAttempt(imageUrl, responses(j), codec).Err?
  {
    var run := Utils.Retry(MaxRetries, DetectAttempts(imageUrl, responses, codec), Utils.CatchAll);
    var k := run.calls - 1;
    assert run.result == DetectAttempt(imageUrl, responses(k), codec);
    assert run.result.Err? ==> k == MaxRetries;
    run.result
  }

  /** A request that fails or is refused is tried again: when the first `k`
      attempts fail and attempt `k` reads an answer, that answer is returned
      after `k` pauses. A refusal followed by an accepted retry returns the
      detection. */
  lemma DetectObjectRetried(imageUrl: string, responses: nat -> Res<Json>, codec: Codec, k: nat)
    requires k <= MaxRetries
    requires Utils.ValidateUrl(imageUrl)
    requires forall j :: 0 <= j < k ==> responses(j).Err? || ObjectDetection(responses(j).value, codec).Err?
    requires responses(k).Ok? && ObjectDetection(responses(k).value, codec).Ok?
    ensures var run := Utils.Retry(MaxRetries, DetectAttempts(imageUrl, responses, codec), Utils.CatchAll);
      && run.calls == k + 1 && run.sleeps == k
      && DetectObject(imageUrl, responses, codec) == ObjectDetection(responses(k).value, codec)
  {
    var attempt := DetectAttempts(imageUrl, responses, codec);
    forall j | 0 <= j < k ensures Utils.RetryableFailure(attempt, Utils.CatchAll, j) {
      assert attempt(j) == DetectAttempt(imageUrl, responses(j), codec);
    }
    Utils.RetrySucceedsAt(MaxRetries, attempt, Utils.CatchAll, k);
  }

  /** A malformed image URL is rejected before any request, on each of the
      `MaxRetries + 1` attempts, and its `ValueError` reaches the caller. */
  lemma DetectObjectBadUrl(imageUrl: string, responses: nat -> Res<Json>, codec: Codec)
    requires !Utils.ValidateUrl(imageUrl)
    ensures var run := Utils.Retry(MaxRetries, DetectAttempts(imageUrl, responses, codec), Utils.CatchAll);
      && run.calls == MaxRetries + 1 && run.sleeps == MaxRetries
      && DetectObject(imageUrl, responses, codec) == Err(Exc(ValueError, BadUrlMessage(Image)))
  {
    var attempt := DetectAttempts(imageUrl, responses, codec);
    forall j | 0 <= j <= MaxRetries ensures Utils.RetryableFailure(attempt, Utils.CatchAll, j) {
      assert attempt(j) == DetectAttempt(imageUrl, responses(j), codec);
    }
    Utils.RetryExhausted(MaxRetries, attempt, Utils.CatchAll);
  }

  /** A successful response's detection data decides the answer: without
      data that parses the answer is an `error` report; otherwise it is a
      `done` report carrying the data, its `status` (0 when absent) as
      `contains_object`, and masks only when that status is 1. */
  lemma ObjectDetectionReports(response: Json, codec: Codec)
    requires response.Obj? && Succeeded(response.fields)
    requires Index(response, "data").Ok? && Index(response, "data").value.Obj?
    ensures var data := Index(response, "data").value;
      var parsed := Parsed(Field(data.fields, "resp_data"), codec);
      var r := ObjectDetection(response, codec);
      && (parsed.None? ==> r.Ok? && FieldIs(r.value.fields, "status", "error"))
      && (parsed.Some? && parsed.value.Obj? ==>
            var status := GetOr(parsed.value.fields, "status", Int(0));
            && (!EqInt(status, 1) ==> r == Ok(ObjectReport(status, Arr([]), parsed.value)))
            && (EqInt(status, 1) && MaskUrls(parsed.value).Ok? && Sized(MaskUrls(parsed.value).value) ==>
                  r == Ok(ObjectReport(status, MaskUrls(parsed.value).value, parsed.value)))
            && (EqInt(status, 1) && MaskUrls(parsed.value).Ok? && !Sized(MaskUrls(parsed.value).value) ==>
                  r == Err(NoLen(MaskUrls(parsed.value).value))))
      && (parsed.Some? && !parsed.value.Obj? ==> r == Err(NoAttribute(parsed.value)))
  {
    var data := Index(response, "data").value;
    var raw := Field(data.fields, "resp_data");
    assert GetKey(data, "resp_data") == Ok(raw);
    var parsed := Parsed(raw, codec);
    if parsed.None? {
      ErrorReportStatus(if !Truthy(raw) then "未获取到检测数据" else "解析检测结果失败");
    }
  }

  lemma ErrorReportStatus(message: string)
    ensures FieldIs(ErrorReport(message).fields, "status", "error")
  {
  }

  /** A `done` report has its fields under their own names. */
  lemma ObjectReportFields(status: Json, maskUrls: Json, parsed: Json)
    ensures var f := ObjectReport(status, maskUrls, parsed).fields;
      && FieldIs(f, "status", "done") && Get(f, "contains_object") == Some(status)
      && Get(f, "mask_urls") == Some(maskUrls) && Get(f, "resp_data") == Some(parsed)
  {
    var f := ObjectReport(status, maskUrls, parsed).fields;
    GetFour(f, "status");
    GetFour(f, "contains_object");
    GetFour(f, "mask_urls");
    GetFour(f, "resp_data");
  }
}

=== FILE: outfit.dfy ===
/** The outfit-swap image client: one synchronous `CVProcess` call that
    dresses the model picture in the garment picture. The caller's
    inference and watermark settings are laid over fixed defaults. */
module Outfit {
  import opened Wrappers
  import opened Text
  import opened Dicts
  import opened Py
  import opened Request
  import opened Tasks

  const OutfitKey := "dressing_diffusion"

  const DefaultInference: PyDict := [
    ("do_sr", Bool(false)), ("seed", Int(-1)), ("keep_head", Bool(true)),
    ("keep_hand", Bool(true)), ("keep_foot", Bool(true)), ("num_steps", Int(50)),
    ("keep_upper", Bool(false)), ("keep_lower", Bool(false)), ("tight_mask", Str("loose"))]

  const DefaultLogo: PyDict := [
    ("add_logo", Bool(false)), ("position", Int(0)), ("language", Int(0)),
    ("logo_text_content", Str("这里是明水印内容"))]

  /** `final = defaults.copy(); if given: final.update(given)`. */
  function Merged(defaults: PyDict, given: PyDict): PyDict {
    if |given| > 0 then Update(defaults, given) else defaults
  }

  /** A caller's setting wins over the default; a key the caller leaves
      out keeps its default. */
  lemma MergeOverrides(defaults: PyDict, given: PyDict, k: string)
    requires NoDupKeys(given)
    ensures Get(Merged(defaults, given), k) == if HasKey(given, k) then Get(given, k) else Get(defaults, k)
  {
    if |given| > 0 {
      GetUpdate(defaults, given, k);
    }
  }

  /** Every default key is still there, in its place at the front. */
  lemma MergeKeepsDefaults(defaults: PyDict, given: PyDict)
    ensures |Merged(defaults, given)| >= |defaults|
    ensures Keys(Merged(defaults, given))[..|defaults|] == Keys(defaults)
    ensures forall k :: HasKey(defaults, k) ==> HasKey(Merged(defaults, given), k)
  {
    KeysUpdatePrefix(defaults, given);
    var ks := Keys(Merged(defaults, given));
    forall k | HasKey(defaults, k) ensures HasKey(Merged(defaults, given), k) {
      var i :| 0 <= i < |Keys(defaults)| && Keys(defaults)[i] == k;
      assert ks[..|defaults|][i] == k;
    }
  }

  /** The arguments of `submit_outfit_task`; an empty dict stands for an
      absent configuration. */
  datatype Order = Order(modelUrl: string, garmentUrl: string, returnUrl: bool, modelId: string, garmentId: string,
                         inference: PyDict, logo: PyDict, aigcMeta: Json)

  function Model(o: Order): Json {
    Obj([("id", Str(o.modelId)), ("url", Str(o.modelUrl))])
  }

  function Garment(o: Order): Json {
    Obj([("id", Str(o.garmentId)), ("data", Arr([Obj([("url", Str(o.garmentUrl))])]))])
  }

  function Payload(o: Order): PyDict {
    var base := [("req_key", Str(OutfitKey)), ("model", Model(o)), ("garment", Garment(o)),
                 ("return_url", Bool(o.returnUrl)), ("logo_info", Obj(Merged(DefaultLogo, o.logo))),
                 ("inference_config", Obj(Merged(DefaultInference, o.inference)))];
    SetIfTruthy(base, "aigc_meta", o.aigcMeta)
  }

  /** The payload, key by key. */
  function PayloadField(o: Order, k: string): Option<Json> {
    if k == "req_key" then Some(Str(OutfitKey))
    else if k == "model" then Some(Model(o))
    else if k == "garment" then Some(Garment(o))
    else if k == "return_url" then Some(Bool(o.returnUrl))
    else if k == "logo_info" then Some(Obj(Merged(DefaultLogo, o.logo)))
    else if k == "inference_config" then Some(Obj(Merged(DefaultInference, o.inference)))
    else if k == "aigc_meta" && Truthy(o.aigcMeta) then Some(o.aigcMeta)
    else None
  }

  /** Lookup in a six-entry literal, with its values left unexamined. */
  lemma SixFields(a: Json, b: Json, c: Json, d: Json, e: Json, f: Json, k: string)
    ensures var base := [("req_key", a), ("model", b), ("garment", c), ("return_url", d), ("logo_info", e), ("inference_config", f)];
      Get(base, k) ==
        if k == "req_key" then Some(a) else if k == "model" then Some(b) else if k == "garment" then Some(c)
        else if k == "return_url" then Some(d) else if k == "logo_info" then Some(e)
        else if k == "inference_config" then Some(f) else None
  {
    var front := [("req_key", a), ("model", b), ("garment", c)];
    var back := [("return_url", d), ("logo_info", e), ("inference_config", f)];
    assert front + back == [("req_key", a), ("model", b), ("garment", c), ("return_url", d), ("logo_info", e), ("inference_config", f)];
    GetThree(front, k);
    GetThree(back, k);
    GetAppend(front, back, k);
  }

  lemma PayloadFields(o: Order, k: string)
    ensures Get(Payload(o), k) == PayloadField(o, k)
  {
    SixFields(Str(OutfitKey), Model(o), Garment(o), Bool(o.returnUrl), Obj(Merged(DefaultLogo, o.logo)),
              Obj(Merged(DefaultInference, o.inference)), k);
  }

  /** The request `submit_outfit_task` sends once both URLs pass. */
  function OutfitCall(o: Order): (r: Res<Call>)
    ensures r.Ok? <==> Utils.ValidateUrl(o.modelUrl) && Utils.ValidateUrl(o.garmentUrl)
    ensures r.Err? ==> r.error == Exc(ValueError, BadUrlMessage(Image))
    ensures r.Ok? ==>
      && r.value.action == "CVProcess" && r.value.reqKey == OutfitKey
      && forall k :: Get(r.value.data, k) == PayloadField(o, k)
  {
    var _ :- CheckUrl(o.modelUrl, Image);
    var _ :- CheckUrl(o.garmentUrl, Image);
    forall k ensures Get(Payload(o), k) == PayloadField(o, k) {
      PayloadFields(o, k);
    }
    Ok(Call("POST", "CVProcess", OutfitKey, DefaultVersion, Payload(o), "", ""))
  }

  const OutfitFailure := "图片换装失败: "

  /** The body of the `try`: a code other than 10000 raises with the
      response's `message`; otherwise the response's `data`. */
  function Answer(response: Res<Json>, codec: Codec): Res<Json> {
    var r :- response;
    match r
    case Obj(f) =>
      if !Succeeded(f) then Err(Exc(Exception, OutfitFailure + PyStr(GetOr(f, "message", Str(UnknownError)), codec)))
      else Index(r, "data")
    case _ => Err(NoAttribute(r))
  }

  /** `submit_outfit_task`. */
  function SubmitOutfit(o: Order, response: Res<Json>, codec: Codec): (r: Res<Json>)
    ensures OutfitCall(o).Err? ==> r == Err(OutfitCall(o).error)
    ensures OutfitCall(o).Ok? ==>
      (r.Ok? <==> response.Ok? && response.value.Obj? && Succeeded(response.value.fields) && HasKey(response.value.fields, "data"))
    ensures OutfitCall(o).Ok? && r.Ok? ==> r.value == Get(response.value.fields, "data").value
    ensures OutfitCall(o).Ok? && r.Err? ==> r.error.kind == Exception && StartsWith(r.error.msg, OutfitFailure)
  {
    var _ :- OutfitCall(o);
    match Answer(response, codec)
    case Ok(data) => Ok(data)
    case Err(e) => Err(Exc(Exception, OutfitFailure + e.msg))
  }

  /** A refusal by the service reaches the caller with the failure text
      twice: once from the inner raise and once from the wrapper. */
  lemma RefusalWrappedTwice(o: Order, response: Json, codec: Codec)
    requires OutfitCall(o).Ok?
    requires response.Obj? && !Succeeded(response.fields)
    ensures SubmitOutfit(o, Ok(response), codec) ==
      Err(Exc(Exception, OutfitFailure + OutfitFailure + PyStr(GetOr(response.fields, "message", Str(UnknownError)), codec)))
  {
    var m := PyStr(GetOr(response.fields, "message", Str(UnknownError)), codec);
    assert Answer(Ok(response), codec) == Err(Exc(Exception, OutfitFailure + m));
    assert OutfitFailure + (OutfitFailure + m) == OutfitFailure + OutfitFailure + m;
  }

  // --------------------------------------------------------------- the flow

  const NoImage := "换装成功但未获取到图片URL"
  const DownloadFailure := "下载图片失败: "
  const FlowFailure := "生成换装图片失败: "

  /** The first of the result's `image_urls`, or the error raised on the
      way to it. */
  function Picked(o: Order, response: Res<Json>, codec: Codec): (r: Res<Json>)
    ensures r.Ok? ==> SubmitOutfit(o, response, codec).Ok?
    ensures SubmitOutfit(o, response, codec).Ok? && SubmitOutfit(o, response, codec).value.Obj? ==>
      var urls := GetOr(SubmitOutfit(o, response, codec).value.fields, "image_urls", Arr([]));
      && (!Truthy(urls) ==> r == Err(Exc(Exception, NoImage)))
      && (urls.Arr? && Truthy(urls) ==> r == Ok(urls.items[0]))
  {
    var result :- SubmitOutfit(o, response, codec);
    var urls :- GetOrDefault(result, "image_urls", Arr([]));
    if !Truthy(urls) then Err(Exc(Exception, NoImage))
    else First(urls)
  }

  /** The saved file's name: the caller's, or one made from the clock. */
  function FileName(filename: string, now: int): string {
    if filename != "" then filename else "outfit_" + Decimal(now) + ".png"
  }

  /** `generate_outfit_image` as written: the download branch imports a
      `download_image` helper that `src/utils.py` does not define, and the
      failed import is caught and re-raised as a download failure.
      `importError` is the text of that `ImportError`, which names the
      installed module's path and so is a parameter. */
  function GenerateAsWritten(o: Order, download: bool, importError: string, response: Res<Json>, codec: Codec): Res<Json> {
    var outcome := (
      var first :- Picked(o, response, codec);
      if download then
        Err(Exc(Exception, DownloadFailure + importError))
      else Ok(first));
    match outcome
    case Ok(v) => Ok(v)
    case Err(e) => Err(Exc(Exception, FlowFailure + e.msg))
  }

  /** As written, asking for the download (the default) always fails,
      even after the service returned a picture. */
  lemma DownloadAsWrittenAlwaysFails(o: Order, importError: string, response: Res<Json>, codec: Codec)
    ensures GenerateAsWritten(o, true, importError, response, codec).Err?
    ensures Picked(o, response, codec).Ok? ==>
      GenerateAsWritten(o, true, importError, response, codec) ==
        Err(Exc(Exception, FlowFailure + DownloadFailure + importError))
  {
    var m := DownloadFailure + importError;
    assert FlowFailure + m == FlowFailure + DownloadFailure + importError;
  }

  /** `generate_outfit_image` with the download helper it evidently means
      to call: `fetch(url, filename)` saves the picture and returns the
      file name, or raises. */
  function GenerateOutfitImage(o: Order, download: bool, filename: string, now: int,
                               fetch: (string, string) -> Res<string>, response: Res<Json>, codec: Codec): (r: Res<Json>)
    ensures r.Err? ==> r.error.kind == Exception && StartsWith(r.error.msg, FlowFailure)
    ensures !download ==> (r.Ok? <==> Picked(o, response, codec).Ok?)
    ensures !download && r.Ok? ==> r == Picked(o, response, codec)
  {
    var outcome := (
      var first :- Picked(o, response, codec);
      if download then
        match fetch(PyStr(first, codec), FileName(filename, now))
        case Ok(saved) => Ok(Str(saved))
        case Err(e) => Err(Exc(Exception, DownloadFailure + e.msg))
      else Ok(first));
    match outcome
    case Ok(v) => Ok(v)
    case Err(e) => Err(Exc(Exception, FlowFailure + e.msg))
  }

  /** With a working download, the flow saves the first returned picture
      under the caller's name (or the clock-made one) and returns that
      file's name; without a download both definitions agree. */
  lemma DownloadSavesFirstPicture(o: Order, filename: string, now: int,
                                  fetch: (string, string) -> Res<string>, response: Res<Json>, codec: Codec)
    requires Picked(o, response, codec).Ok?
    ensures var url := PyStr(Picked(o, response, codec).value, codec);
      && (fetch(url, FileName(filename, now)).Ok? ==>
            GenerateOutfitImage(o, true, filename, now, fetch, response, codec) == Ok(Str(fetch(url, FileName(filename, now)).value)))
      && forall importError :: GenerateOutfitImage(o, false, filename, now, fetch, response, codec) == GenerateAsWritten(o, false, importError, response, codec)
  {
  }
}

=== FILE: poll.dfy ===
/** The `wait_for_completion` loop shared by the asynchronous clients: poll
    the task until its result says it is finished, stop at once on a result
    that says the task is lost, swallow every other error, and give up once
    the deadline has passed. The service and the clock are an oracle:
    observation `i` is what the `i`-th status query returned and how many
    seconds it took. */
module Poll {
  import opened Wrappers
  import opened Text
  import opened Dicts
  import opened Py

  datatype Observation = Observation(result: Res<Json>, took: nat)

  /** What one polled result means to the loop. */
  datatype Verdict = Finish | Abort(status: string) | Continue

  datatype Exit = Returned | Raised | DeadlinePassed

  /** How the loop ended, after how many status queries, and the seconds
      elapsed when the last query was issued (or when the deadline test
      failed). */
  datatype PollEnd = PollEnd(exit: Exit, result: Res<Json>, polls: nat, elapsed: nat)

  /** The text that makes an exception escape the loop. */
  const Marker := "任务异常"

  /** The exception raised for a task reported as `not_found` or `expired`. */
  function LostTask(status: string): Exc {
    Exc(Exception, Marker + ": " + status)
  }

  lemma LostTaskEscapes(status: string)
    ensures Contains(LostTask(status).msg, Marker)
  {
    assert LostTask(status).msg[..|Marker|] == Marker;
  }

  /** An exception inside the loop's `try` escapes only if its text
      mentions the marker. */
  predicate Escapes(e: Exc) {
    Contains(e.msg, Marker)
  }

  /** The verdict on observation `i`: a failed query or a classification
      that raises is a swallowed error or an escaping one. */
  function Judge(classify: Json -> Res<Verdict>, o: Observation): Res<Verdict> {
    match o.result
    case Err(e) => Err(e)
    case Ok(res) => classify(res)
  }

  /** One pass of the loop from query `i`, `elapsed` seconds after the start. */
  function Loop(classify: Json -> Res<Verdict>, timeout: Exc, obs: nat -> Observation,
                maxWait: int, interval: nat, i: nat, elapsed: nat): (r: PollEnd)
    requires interval > 0
    ensures r.polls >= i
    ensures r.exit == DeadlinePassed ==> r.result == Err(timeout) && r.elapsed >= maxWait
    ensures r.exit != DeadlinePassed ==> r.polls >= i + 1 && r.elapsed < maxWait
    ensures r.exit == Returned ==>
      && obs(r.polls - 1).result.Ok?
      && r.result == obs(r.polls - 1).result
      && classify(r.result.value) == Ok(Finish)
    ensures r.exit == Raised ==> r.result.Err? && Escapes(r.result.error)
    ensures r.polls == i || (r.polls - i - 1) * interval < maxWait - elapsed
    decreases if elapsed < maxWait then maxWait - elapsed else 0
  {
    if elapsed >= maxWait then PollEnd(DeadlinePassed, Err(timeout), i, elapsed)
    else
      var o := obs(i);
      var next := elapsed + o.took + interval;
      match Judge(classify, o)
      case Ok(Finish) => PollEnd(Returned, o.result, i + 1, elapsed)
      case Ok(Abort(status)) =>
        LostTaskEscapes(status);
        PollEnd(Raised, Err(LostTask(status)), i + 1, elapsed)
      case Ok(Continue) =>
        var r := Loop(classify, timeout, obs, maxWait, interval, i + 1, next);
        PollBound(r.polls, i, interval, maxWait, elapsed, next);
        r
      case Err(e) =>
        if Escapes(e) then PollEnd(Raised, Err(e), i + 1, elapsed)
        else
          var r := Loop(classify, timeout, obs, maxWait, interval, i + 1, next);
          PollBound(r.polls, i, interval, maxWait, elapsed, next);
          r
  }

  lemma PollBound(polls: nat, i: nat, interval: nat, maxWait: int, elapsed: nat, next: nat)
    requires next >= elapsed + interval && elapsed < maxWait
    requires polls >= i + 1
    requires polls == i + 1 || (polls - (i + 1) - 1) * interval < maxWait - next
    ensures (polls - i - 1) * interval < maxWait - elapsed
  {
    if polls > i + 1 {
      assert (polls - i - 1) * interval == (polls - i - 2) * interval + interval;
    }
  }

  /** `wait_for_completion` from its start. */
  function Wait(classify: Json -> Res<Verdict>, timeout: Exc, obs: nat -> Observation,
                maxWait: int, interval: nat): (r: PollEnd)
    requires interval > 0
  {
    Loop(classify, timeout, obs, maxWait, interval, 0, 0)
  }

  /** A returned wait hands back the last observation, judged finished. */
  lemma WaitReturns(classify: Json -> Res<Verdict>, timeout: Exc, obs: nat -> Observation, maxWait: int, interval: nat)
    requires interval > 0
    requires Wait(classify, timeout, obs, maxWait, interval).exit == Returned
    ensures var r := Wait(classify, timeout, obs, maxWait, interval);
      && r.polls > 0 && r.result == obs(r.polls - 1).result
      && r.result.Ok? && classify(r.result.value) == Ok(Finish)
  {
  }

  /** The loop queries at most once per `check_interval` of the deadline
      (so at most `ceil(max_wait_time / check_interval)` times), not at all
      when the deadline is not positive, and at least once otherwise. */
  lemma WaitBounded(classify: Json -> Res<Verdict>, timeout: Exc, obs: nat -> Observation, maxWait: int, interval: nat)
    requires interval > 0
    ensures var r := Wait(classify, timeout, obs, maxWait, interval);
      && (maxWait <= 0 ==> r == PollEnd(DeadlinePassed, Err(timeout), 0, 0))
      && (maxWait > 0 ==> 1 <= r.polls && r.polls * interval < maxWait + interval)
  {
    var r := Wait(classify, timeout, obs, maxWait, interval);
    if maxWait > 0 {
      assert r.polls * interval == (r.polls - 1) * interval + interval;
    }
  }

  /** A first answer that finishes the task, before the deadline, is
      returned at once. */
  lemma FirstAnswerFinishes(classify: Json -> Res<Verdict>, timeout: Exc, obs: nat -> Observation, maxWait: int, interval: nat)
    requires interval > 0 && maxWait > 0
    requires Judge(classify, obs(0)) == Ok(Finish)
    ensures Wait(classify, timeout, obs, maxWait, interval) == PollEnd(Returned, obs(0).result, 1, 0)
  {
  }

  /** Every result that keeps the task going, and every swallowed error,
      keeps the loop polling until the deadline: it then times out. */
  lemma {:induction false} NeverFinishingTimesOut(classify: Json -> Res<Verdict>, timeout: Exc, obs: nat -> Observation,
                                                  maxWait: int, interval: nat, i: nat, elapsed: nat)
    requires interval > 0
    requires forall j :: j >= i ==> (Judge(classify, obs(j)) == Ok(Continue)
                                     || (Judge(classify, obs(j)).Err? && !Escapes(Judge(classify, obs(j)).error)))
    ensures Loop(classify, timeout, obs, maxWait, interval, i, elapsed).exit == DeadlinePassed
    decreases if elapsed < maxWait then maxWait - elapsed else 0
  {
    if elapsed < maxWait {
      NeverFinishingTimesOut(classify, timeout, obs, maxWait, interval, i + 1, elapsed + obs(i).took + interval);
    }
  }

  /** With instantaneous queries that never finish, the clock advances by
      exactly one `check_interval` per query. */
  lemma {:induction false} InstantQueriesElapse(classify: Json -> Res<Verdict>, timeout: Exc, obs: nat -> Observation,
                                                maxWait: int, interval: nat, i: nat, elapsed: nat)
    requires interval > 0
    requires forall j :: j >= i ==> obs(j).took == 0 && Judge(classify, obs(j)) == Ok(Continue)
    ensures var r := Loop(classify, timeout, obs, maxWait, interval, i, elapsed);
      r.exit == DeadlinePassed && r.elapsed == elapsed + (r.polls - i) * interval
    decreases if elapsed < maxWait then maxWait - elapsed else 0
  {
    if elapsed < maxWait {
      InstantQueriesElapse(classify, timeout, obs, maxWait, interval, i + 1, elapsed + interval);
      var r := Loop(classify, timeout, obs, maxWait, interval, i + 1, elapsed + interval);
      assert (r.polls - i) * interval == (r.polls - (i + 1)) * interval + interval;
    }
  }

  /** Every query is counted: with instantaneous queries that never finish,
      the loop makes exactly `ceil(max_wait_time / check_interval)` of them,
      the least count whose intervals cover the deadline. */
  lemma InstantQueriesCount(classify: Json -> Res<Verdict>, timeout: Exc, obs: nat -> Observation, maxWait: int, interval: nat)
    requires interval > 0
    requires forall j :: obs(j).took == 0 && Judge(classify, obs(j)) == Ok(Continue)
    ensures var r := Wait(classify, timeout, obs, maxWait, interval);
      && r.exit == DeadlinePassed
      && r.polls * interval >= maxWait
      && (r.polls == 0 || (r.polls - 1) * interval < maxWait)
  {
    InstantQueriesElapse(classify, timeout, obs, maxWait, interval, 0, 0);
  }

  // ------------------------------------------------------ the verdicts

  /** `result.get("status") in ["not_found", "expired"]`. */
  predicate LostStatus(status: Json) {
    status == Str("not_found") || status == Str("expired")
  }

  /** The audio-driven client: finished on `done`, or on any result that
      carries a `resource_id` or `video_url` key. */
  function AudioVerdict(res: Json): (v: Res<Verdict>)
    ensures v.Err? <==> !res.Obj?
  {
    var status :- GetKey(res, "status");
    if status == Str("done") then Ok(Finish)
    else if LostStatus(status) then Ok(Abort(status.s))
    else if In(res.fields, "resource_id") || In(res.fields, "video_url") then Ok(Finish)
    else Ok(Continue)
  }

  /** The Jimeng clients: `processing` always keeps waiting; otherwise a
      truthy `video_url` or a non-null detection flag finishes. */
  function JimengVerdict(res: Json): (v: Res<Verdict>)
    ensures v.Err? <==> !res.Obj?
  {
    var status :- GetKey(res, "status");
    if status == Str("done") then Ok(Finish)
    else if LostStatus(status) then Ok(Abort(status.s))
    else if status == Str("processing") then Ok(Continue)
    else if PresentTruthy(res.fields, "video_url")
         || PresentNotNone(res.fields, "contains_subject")
         || PresentNotNone(res.fields, "contains_object") then Ok(Finish)
    else Ok(Continue)
  }

  /** The video-driven and mimic clients: finished on `done` or a truthy
      `video_url`. */
  function DrivenVerdict(res: Json): (v: Res<Verdict>)
    ensures v.Err? <==> !res.Obj?
  {
    var status :- GetKey(res, "status");
    if status == Str("done") then Ok(Finish)
    else if LostStatus(status) then Ok(Abort(status.s))
    else if PresentTruthy(res.fields, "video_url") then Ok(Finish)
    else Ok(Continue)
  }

  /** What the video-driven and mimic clients accept as finished. */
  lemma DrivenFinishes(res: Json)
    requires DrivenVerdict(res) == Ok(Finish)
    ensures res.Obj? && (FieldIs(res.fields, "status", "done") || PresentTruthy(res.fields, "video_url"))
  {
    if !FieldIs(res.fields, "status", "done") {
      assert GetKey(res, "status") != Ok(Str("done"));
    }
  }

  /** The lip-sync client: only a result whose `code` equals 10000 is
      examined, and then by the `status` inside its `data`. */
  function LipSyncVerdict(res: Json): (v: Res<Verdict>)
  {
    var code :- GetKey(res, "code");
    if EqInt(code, 10000) then
      var data := GetOrDefault(res, "data", Obj([])).value;
      var status :- GetKey(data, "status");
      if status == Str("done") then Ok(Finish)
      else if LostStatus(status) then Ok(Abort(status.s))
      else if In(res.fields, "video_url") then Ok(Finish)
      else Ok(Continue)
    else Ok(Continue)
  }

  /** The verdicts agree on what every client treats alike: `done`
      finishes, a lost status aborts with that status, and a result that is
      not a dict is a swallowed error. The Jimeng verdict never finishes on
      `processing`, even with a `video_url`, where the others do. */
  lemma VerdictsAgree(res: Json)
    ensures res.Obj? && FieldIs(res.fields, "status", "done") ==>
      AudioVerdict(res) == JimengVerdict(res) == DrivenVerdict(res) == Ok(Finish)
    ensures res.Obj? && (FieldIs(res.fields, "status", "not_found") || FieldIs(res.fields, "status", "expired")) ==>
      && AudioVerdict(res) == JimengVerdict(res) == DrivenVerdict(res)
      && AudioVerdict(res) == Ok(Abort(Get(res.fields, "status").value.s))
    ensures !res.Obj? ==> AudioVerdict(res).Err? && JimengVerdict(res).Err? && DrivenVerdict(res).Err? && LipSyncVerdict(res).Err?
    ensures res.Obj? && FieldIs(res.fields, "status", "processing") ==> JimengVerdict(res) == Ok(Continue)
  {
  }

  /** Every verdict's abort carries a lost status, so the loop raises only
      for `not_found` or `expired` results or for errors mentioning the
      marker. */
  lemma AbortsAreLost(res: Json)
    ensures LostIfAborted(AudioVerdict(res))
    ensures LostIfAborted(JimengVerdict(res))
    ensures LostIfAborted(DrivenVerdict(res))
    ensures LostIfAborted(LipSyncVerdict(res))
  {
    AudioAbortsAreLost(res);
    LipSyncAbortsAreLost(res);
  }

  predicate LostIfAborted(v: Res<Verdict>) {
    v.Ok? && v.value.Abort? ==> v.value.status == "not_found" || v.value.status == "expired"
  }

  lemma AudioAbortsAreLost(res: Json)
    ensures LostIfAborted(AudioVerdict(res))
  {
  }

  lemma LipSyncAbortsAreLost(res: Json)
    ensures LostIfAborted(LipSyncVerdict(res))
  {
    var v := LipSyncVerdict(res);
    if v.Ok? && v.value.Abort? {
      var data := GetOrDefault(res, "data", Obj([])).value;
      var status := GetKey(data, "status").value;
      assert LostStatus(status) && v.value.status == status.s;
    }
  }

  // ------------------------------------------------------------ timeouts

  function TimeoutErrorFor(maxWait: int): Exc {
    Exc(TimeoutError, "等待任务完成超时 (" + Decimal(maxWait) + "秒)")
  }

  /** The video-driven and mimic clients raise a plain `Exception`. */
  function PlainTimeoutFor(maxWait: int): Exc {
    Exc(Exception, "等待超时 (" + Decimal(maxWait) + "秒)，任务可能仍在处理")
  }
}

=== FILE: python.dfy ===
/** The Python values and exceptions the clients pass around: decoded JSON
    (`dict`, `list`, `str`, `int`, `bool`, `None`), truthiness, `dict.get`,
    subscription, and the abstract serialisers (`json.dumps`, `json.loads`,
    `str()` of a container) that the model takes as parameters. */
module Py {
  import opened Wrappers
  import opened Dicts
  import opened Text

  datatype Json =
    | Null
    | Bool(b: bool)
    | Int(n: int)
    | Str(s: string)
    | Arr(items: seq<Json>)
    | Obj(fields: Dict<Json>)

  type PyDict = Dict<Json>

  /** Python truthiness: `None`, `False`, `0`, `""`, `[]` and `{}` are false. */
  predicate Truthy(j: Json) {
    match j
    case Null => false
    case Bool(b) => b
    case Int(n) => n != 0
    case Str(s) => s != ""
    case Arr(items) => items != []
    case Obj(fields) => fields != []
  }

  /** `j == n` for an integer literal `n`: `True == 1` and `False == 0` in Python. */
  predicate EqInt(j: Json, n: int) {
    j == Int(n) || (j == Bool(true) && n == 1) || (j == Bool(false) && n == 0)
  }

  datatype ExcKind =
    | ValueError
    | KeyError
    | TypeError
    | AttributeError
    | IndexError
    | ImportError
    | TimeoutError
    | Exception

  /** A raised exception: its class and `str(e)`. */
  datatype Exc = Exc(kind: ExcKind, msg: string)

  type Res<T> = Result<T, Exc>

  /** The abstract text codecs: `json.dumps(x, ensure_ascii=False)`,
      `json.loads(s)` (None when it raises) and `str(x)` of a value. */
  datatype Codec = Codec(dumps: Json -> string, loads: string -> Option<Json>, show: Json -> string)

  /** `str(x)` inside an f-string: a `str` is itself, anything else is shown. */
  function PyStr(j: Json, codec: Codec): string {
    if j.Str? then j.s else codec.show(j)
  }

  /** Python's name for a value's type. */
  function TypeName(j: Json): string {
    match j
    case Null => "NoneType"
    case Bool(_) => "bool"
    case Int(_) => "int"
    case Str(_) => "str"
    case Arr(_) => "list"
    case Obj(_) => "dict"
  }

  /** The `AttributeError` of `x.get` on a value that is not a dict. */
  function NoAttribute(j: Json): Exc {
    Exc(AttributeError, "'" + TypeName(j) + "' object has no attribute 'get'")
  }

  /** The `TypeError` that `len()` raises for a value without a length. */
  function NoLen(j: Json): Exc {
    Exc(TypeError, "object of type '" + TypeName(j) + "' has no len()")
  }

  /** The `TypeError` of subscripting a value that has no `__getitem__`. */
  function NotSubscriptable(j: Json): Exc {
    Exc(TypeError, "'" + TypeName(j) + "' object is not subscriptable")
  }

  /** The `TypeError` of `x[k]` with a string `k` on a value that is not a
      dict: a list and a string want integer indices. */
  function StrIndexError(j: Json): Exc {
    match j
    case Arr(_) => Exc(TypeError, "list indices must be integers or slices, not str")
    case Str(_) => Exc(TypeError, "string indices must be integers")
    case _ => NotSubscriptable(j)
  }

  /** `x.get(k, default)` on a value the code expects to be a dict. */
  function GetOrDefault(x: Json, k: string, default: Json): (r: Res<Json>)
    ensures r.Err? <==> !x.Obj?
    ensures x.Obj? && HasKey(x.fields, k) ==> r == Ok(Get(x.fields, k).value)
    ensures x.Obj? && !HasKey(x.fields, k) ==> r == Ok(default)
    ensures !x.Obj? ==> r == Err(NoAttribute(x))
  {
    if x.Obj? then Ok(Dicts.GetOr(x.fields, k, default)) else Err(NoAttribute(x))
  }

  /** `x.get(k)`: `None` for a missing key. */
  function GetKey(x: Json, k: string): Res<Json> {
    GetOrDefault(x, k, Null)
  }

  /** `x[k]` with a string key. */
  function Index(x: Json, k: string): (r: Res<Json>)
    ensures r.Ok? <==> x.Obj? && HasKey(x.fields, k)
    ensures r.Ok? ==> r.value == Get(x.fields, k).value
    ensures !x.Obj? ==> r == Err(StrIndexError(x))
    ensures x.Obj? && !HasKey(x.fields, k) ==> r == Err(Exc(KeyError, "'" + k + "'"))
  {
    if !x.Obj? then Err(StrIndexError(x))
    else match Get(x.fields, k)
      case Some(v) => Ok(v)
      case None => Err(Exc(KeyError, "'" + k + "'"))
  }

  /** `k in x` for a dict `x`. */
  predicate In(x: PyDict, k: string) {
    HasKey(x, k)
  }

  /** `x.get(k) is not None` on a dict. */
  predicate PresentNotNone(x: PyDict, k: string) {
    HasKey(x, k) && Get(x, k).value != Null
  }

  /** `x.get(k)` is a truthy value. */
  predicate PresentTruthy(x: PyDict, k: string) {
    HasKey(x, k) && Truthy(Get(x, k).value)
  }

  /** `x.get(k) == v` for a string `v`. */
  predicate FieldIs(x: PyDict, k: string, v: string) {
    Get(x, k) == Some(Str(v))
  }

  /** The `aigc_meta` implicit-watermark block, as the `req_json` string
      `json.dumps({"aigc_meta": aigc_meta})` when it is truthy. */
  function AigcReqJson(aigcMeta: Json, codec: Codec): (r: string)
    ensures !Truthy(aigcMeta) ==> r == ""
    ensures Truthy(aigcMeta) ==> r == codec.dumps(Obj([("aigc_meta", aigcMeta)]))
  {
    if Truthy(aigcMeta) then codec.dumps(Obj([("aigc_meta", aigcMeta)])) else ""
  }
}

=== FILE: request.dfy ===
/** One signed API call: the JSON body built from the service key, the
    optional task id and `req_json` string and the caller's fields; the
    envelope with its content digest, `Authorization` and `X-Date` headers;
    and the mapping from what the transport reports to a response or a
    raised exception. */
module Request {
  import opened Wrappers
  import opened Text
  import opened Dicts
  import opened Py
  import opened Canonical
  import opened Signer
  import Utils

  const BaseUrl := "https://visual.volcengineapi.com"
  const Host := "visual.volcengineapi.com"
  const JsonContentType := "application/json; charset=utf-8"
  const DefaultVersion := "2022-08-31"

  /** The arguments of `_make_request`. `None` and `""` are alike for the
      task id and `req_json`, and `None` and `{}` for the data, because the
      code only tests their truthiness. */
  datatype Call = Call(verb: string, action: string, reqKey: string, version: string,
                       data: PyDict, taskId: string, reqJson: string)

  /** `Action={action}&Version={version}`. */
  function Query(call: Call): string {
    "Action=" + call.action + "&Version=" + call.version
  }

  /** The body before the caller's fields: `req_key`, then `task_id` and
      `req_json` when truthy. */
  function KeyedBody(reqKey: string, taskId: string, reqJson: string): PyDict {
    var withKey: PyDict := [("req_key", Str(reqKey))];
    var withTask := if taskId != "" then Set(withKey, "task_id", Str(taskId)) else withKey;
    if reqJson != "" then Set(withTask, "req_json", Str(reqJson)) else withTask
  }

  /** The request body: the keyed fields with the caller's fields merged on top. */
  function Body(call: Call): PyDict {
    var keyed := KeyedBody(call.reqKey, call.taskId, call.reqJson);
    if call.data != [] then Update(keyed, call.data) else keyed
  }

  /** What a lookup in the body finds, written field by field: a caller's
      field wins; otherwise `req_key` is always there and `task_id` and
      `req_json` only when they were given. */
  function BodyField(call: Call, k: string): Option<Json> {
    if HasKey(call.data, k) then Get(call.data, k)
    else if k == "req_key" then Some(Str(call.reqKey))
    else if k == "task_id" && call.taskId != "" then Some(Str(call.taskId))
    else if k == "req_json" && call.reqJson != "" then Some(Str(call.reqJson))
    else None
  }

  lemma WithTaskFacts(reqKey: string, taskId: string, k: string)
    ensures var withKey: PyDict := [("req_key", Str(reqKey))];
      var withTask := if taskId != "" then Set(withKey, "task_id", Str(taskId)) else withKey;
      && NoDupKeys(withTask)
      && |withTask| >= 1 && withTask[0].0 == "req_key"
      && Get(withTask, k) == (if k == "req_key" then Some(Str(reqKey))
                              else if k == "task_id" && taskId != "" then Some(Str(taskId)) else None)
  {
    var withKey: PyDict := [("req_key", Str(reqKey))];
    GetSet(withKey, "task_id", Str(taskId), k);
    NoDupSet(withKey, "task_id", Str(taskId));
    KeysSet(withKey, "task_id", Str(taskId));
    assert Keys(Set(withKey, "task_id", Str(taskId)))[0] == "req_key";
  }

  lemma KeyedBodyFacts(reqKey: string, taskId: string, reqJson: string, k: string)
    ensures var keyed := KeyedBody(reqKey, taskId, reqJson);
      && NoDupKeys(keyed)
      && |keyed| >= 1 && keyed[0].0 == "req_key"
      && Get(keyed, k) == (if k == "req_key" then Some(Str(reqKey))
                           else if k == "task_id" && taskId != "" then Some(Str(taskId))
                           else if k == "req_json" && reqJson != "" then Some(Str(reqJson)) else None)
  {
    var withKey: PyDict := [("req_key", Str(reqKey))];
    var withTask := if taskId != "" then Set(withKey, "task_id", Str(taskId)) else withKey;
    WithTaskFacts(reqKey, taskId, k);
    WithTaskFacts(reqKey, taskId, "req_json");
    GetSet(withTask, "req_json", Str(reqJson), k);
    NoDupSet(withTask, "req_json", Str(reqJson));
    KeysSet(withTask, "req_json", Str(reqJson));
    assert Keys(withTask)[0] == "req_key";
    assert Keys(Set(withTask, "req_json", Str(reqJson)))[0] == "req_key";
  }

  /** The body holds exactly the fields `BodyField` describes, with no key
      twice, and is serialised with `req_key` first. */
  lemma BodyContents(call: Call, k: string)
    requires NoDupKeys(call.data)
    ensures Get(Body(call), k) == BodyField(call, k)
    ensures NoDupKeys(Body(call))
    ensures |Body(call)| >= 1 && Body(call)[0].0 == "req_key"
  {
    var keyed := KeyedBody(call.reqKey, call.taskId, call.reqJson);
    KeyedBodyFacts(call.reqKey, call.taskId, call.reqJson, k);
    if call.data != [] {
      GetUpdate(keyed, call.data, k);
      NoDupUpdate(keyed, call.data);
      KeysUpdatePrefix(keyed, call.data);
      assert Keys(keyed)[0] == "req_key";
      assert Keys(Body(call))[0] == Keys(Body(call))[..|keyed|][0];
    } else {
      assert !HasKey(call.data, k);
    }
  }

  // ------------------------------------------------------------- envelope

  /** What goes over the wire. */
  datatype Envelope = Envelope(url: string, headers: Headers, body: string)

  /** The headers that are signed, in the order the code lists them. */
  function SignedPart(digest: string): (hs: Headers)
    ensures |hs| == 3 && hs[0].0 == "Content-Type" && hs[1].0 == "Host" && hs[2] == ("X-Content-Sha256", digest)
  {
    [("Content-Type", JsonContentType), ("Host", Host), ("X-Content-Sha256", digest)]
  }

  /** The envelope with the signed headers, then `Authorization`, then
      `X-Date`. */
  function Stamped(url: string, signed: Headers, auth: string, stamp: string, body: string): (env: Envelope)
    requires |signed| == 3 && signed[0].0 == "Content-Type" && signed[1].0 == "Host" && signed[2].0 == "X-Content-Sha256"
    ensures env.url == url && env.body == body
    ensures |env.headers| == 5 && env.headers[..3] == signed
    ensures Get(env.headers, "X-Content-Sha256") == Some(signed[2].1)
    ensures Get(env.headers, "Authorization") == Some(auth)
    ensures Get(env.headers, "X-Date") == Some(stamp)
  {
    EnvelopeHeaders(signed, auth, stamp);
    Envelope(url, signed + [("Authorization", auth), ("X-Date", stamp)], body)
  }

  /** `_make_request` of the shared base client as written: the body digest
      is over the transmitted body, but `X-Date` comes from a second clock
      reading `sendNow`, taken after `_generate_signature` read `signNow`. */
  function BaseEnvelopeAsWritten(cred: Credentials, call: Call, signNow: DateTime, sendNow: DateTime,
                                 c: Crypto, codec: Codec): Envelope
    requires ValidTime(signNow) && ValidTime(sendNow)
  {
    var body := codec.dumps(Obj(Body(call)));
    var signed := SignedPart(c.sha256Hex(body));
    var sig := Sign(cred, call.verb, "/", Query(call), signed, body, signNow, c);
    Stamped(BaseUrl + "?" + Query(call), signed, sig.authorization, Timestamp(sendNow), body)
  }

  /** `_make_request` of the audio-driven and older Jimeng clients as
      written: the `X-Content-Sha256` header is the digest of the caller's
      `data or {}` alone, not of the body that is sent; `X-Date` is a second
      clock reading as in the base client. */
  function LegacyEnvelopeAsWritten(cred: Credentials, call: Call, signNow: DateTime, sendNow: DateTime,
                                   c: Crypto, codec: Codec): Envelope
    requires ValidTime(signNow) && ValidTime(sendNow)
  {
    var body := codec.dumps(Obj(Body(call)));
    var signed := SignedPart(c.sha256Hex(codec.dumps(Obj(call.data))));
    var sig := Sign(cred, call.verb, "/", Query(call), signed, body, signNow, c);
    Stamped(BaseUrl + "?" + Query(call), signed, sig.authorization, Timestamp(sendNow), body)
  }

  /** The envelope as the design intends it and as the rest of the model
      uses it for every client: one clock reading for the signature and
      `X-Date`, and the digest taken over the exact bytes sent. */
  function SignedEnvelope(cred: Credentials, call: Call, now: DateTime, c: Crypto, codec: Codec): (env: Envelope)
    requires ValidTime(now)
    ensures Verifies(env, cred, call, c)
  {
    var body := codec.dumps(Obj(Body(call)));
    var signed := SignedPart(c.sha256Hex(body));
    var sig := Sign(cred, call.verb, "/", Query(call), signed, body, now, c);
    var env := Stamped(BaseUrl + "?" + Query(call), signed, sig.authorization, Timestamp(now), body);
    VerifiesAt(env, cred, call, now, c);
    env
  }

  /** An envelope whose headers carry the body's digest, the time `now`
      and the signature computed at `now` verifies. */
  lemma VerifiesAt(env: Envelope, cred: Credentials, call: Call, now: DateTime, c: Crypto)
    requires ValidTime(now) && |env.headers| >= 3
    requires Get(env.headers, "X-Content-Sha256") == Some(c.sha256Hex(env.body))
    requires Get(env.headers, "X-Date") == Some(Timestamp(now))
    requires Get(env.headers, "Authorization")
             == Some(Sign(cred, call.verb, "/", Query(call), env.headers[..3], env.body, now, c).authorization)
    ensures Verifies(env, cred, call, c)
  {
    TimestampRoundTrip(now);
  }

  lemma EnvelopeHeaders(signed: Headers, auth: string, stamp: string)
    requires |signed| == 3 && signed[0].0 == "Content-Type" && signed[1].0 == "Host" && signed[2].0 == "X-Content-Sha256"
    ensures var hs := signed + [("Authorization", auth), ("X-Date", stamp)];
      && Get(hs, "X-Date") == Some(stamp)
      && Get(hs, "Authorization") == Some(auth)
      && Get(hs, "X-Content-Sha256") == Some(signed[2].1)
      && hs[..3] == signed
  {
    var tail := [("Authorization", auth), ("X-Date", stamp)];
    GetThree(signed, "X-Date");
    GetThree(signed, "Authorization");
    GetThree(signed, "X-Content-Sha256");
    GetTwo(tail, "X-Date");
    GetTwo(tail, "Authorization");
    GetAppend(signed, tail, "X-Date");
    GetAppend(signed, tail, "Authorization");
    GetAppend(signed, tail, "X-Content-Sha256");
  }

  /** What the service checks of an envelope, as an independent reference:
      the `X-Content-Sha256` header is the digest of the received body, and
      recomputing the signature from the first three headers, the body and
      the time read back from `X-Date` reproduces `Authorization`. */
  ghost predicate Verifies(env: Envelope, cred: Credentials, call: Call, c: Crypto) {
    && |env.headers| >= 3
    && Get(env.headers, "X-Content-Sha256") == Some(c.sha256Hex(env.body))
    && Get(env.headers, "X-Date").Some?
    && var t := ParseTimestamp(Get(env.headers, "X-Date").value);
       && t.Some? && ValidTime(t.value)
       && Get(env.headers, "Authorization")
          == Some(Sign(cred, call.verb, "/", Query(call), env.headers[..3], env.body, t.value, c).authorization)
  }

  /** With one clock reading the base client's envelope is the intended one. */
  lemma BaseEnvelopeSameInstant(cred: Credentials, call: Call, now: DateTime, c: Crypto, codec: Codec)
    requires ValidTime(now)
    ensures BaseEnvelopeAsWritten(cred, call, now, now, c, codec) == SignedEnvelope(cred, call, now, c, codec)
  {
  }

  const LastSecond := DateTime(2024, 1, 1, 23, 59, 59)
  const NextDay := DateTime(2024, 1, 2, 0, 0, 0)

  lemma DateStampsDiffer(t1: DateTime, t2: DateTime)
    requires ValidTime(t1) && ValidTime(t2) && t1.day != t2.day
    ensures DateStamp(t1) != DateStamp(t2)
  {
    assert DateStamp(t1)[6..8] == Pad2(t1.day) && DateStamp(t2)[6..8] == Pad2(t2.day);
    Pad2Reads(t1.day);
    Pad2Reads(t2.day);
  }

  /** Two `Authorization` values whose credential scopes name different
      dates of the same length differ. */
  lemma ScopeDatesDiffer(a1: string, a2: string, q: string, d1: string, d2: string)
    requires StartsWith(a1, q + (d1 + "/")) && StartsWith(a2, q + (d2 + "/"))
    requires |d1| == |d2| && d1 != d2
    ensures a1 != a2
  {
    var p1 := q + (d1 + "/");
    var p2 := q + (d2 + "/");
    assert p1[|q|..|q| + |d1|] == d1;
    assert p2[|q|..|q| + |d2|] == d2;
    assert a1[|q|..|q| + |d1|] == p1[|q|..|q| + |d1|];
    assert a2[|q|..|q| + |d2|] == p2[|q|..|q| + |d2|];
  }

  /** The base client as written: when the signature is computed in the last
      second of a day and `X-Date` is read in the first second of the next,
      the `Authorization` header's credential scope names the earlier date
      while the service recomputes it for the later one, so the request
      cannot verify. */
  lemma BaseXDateMissesSignedTime(cred: Credentials, call: Call, c: Crypto, codec: Codec)
    ensures !Verifies(BaseEnvelopeAsWritten(cred, call, LastSecond, NextDay, c, codec), cred, call, c)
  {
    var env := BaseEnvelopeAsWritten(cred, call, LastSecond, NextDay, c, codec);
    var signed := SignedPart(c.sha256Hex(env.body));
    var sent := Sign(cred, call.verb, "/", Query(call), signed, env.body, LastSecond, c);
    var redone := Sign(cred, call.verb, "/", Query(call), signed, env.body, NextDay, c);
    TimestampRoundTrip(NextDay);
    assert sent.authorization != redone.authorization by {
      AuthorizationCarriesScope(cred, call.verb, "/", Query(call), signed, env.body, LastSecond, c);
      AuthorizationCarriesScope(cred, call.verb, "/", Query(call), signed, env.body, NextDay, c);
      DateStampsDiffer(LastSecond, NextDay);
      ScopeDatesDiffer(sent.authorization, redone.authorization, Algorithm + " Credential=" + cred.accessKey + "/",
                       DateStamp(LastSecond), DateStamp(NextDay));
    }
  }

  ghost predicate DumpsInjective(codec: Codec) {
    forall a, b {:trigger codec.dumps(a), codec.dumps(b)} :: codec.dumps(a) == codec.dumps(b) ==> a == b
  }

  /** The legacy clients as written: when the caller's data has no
      `req_key` of its own (the case for every call they make), the
      `X-Content-Sha256` header disagrees with the body that is sent,
      assuming the serialiser and the hash never collide. */
  lemma LegacyDigestMissesBody(cred: Credentials, call: Call, now: DateTime, c: Crypto, codec: Codec)
    requires ValidTime(now)
    requires NoDupKeys(call.data) && !HasKey(call.data, "req_key")
    requires Injective(c.sha256Hex) && DumpsInjective(codec)
    ensures !Verifies(LegacyEnvelopeAsWritten(cred, call, now, now, c, codec), cred, call, c)
  {
    assert codec.dumps(Obj(Body(call))) != codec.dumps(Obj(call.data)) by {
      BodyContents(call, "req_key");
      assert Get(Body(call), "req_key").Some?;
      assert Obj(Body(call)) != Obj(call.data);
    }
  }

  // ------------------------------------------------------------ transport

  /** What `requests.post(...)` reports: a timeout, a connection failure,
      any other request failure (with its text), or a response with its
      status code, raw text and the outcome of decoding it as JSON. */
  datatype Reply =
    | TimedOut
    | ConnectionFailed
    | Failed(detail: string)
    | Responded(status: int, text: string, parsed: Result<Json, string>)

  const TimeoutMessage := "API请求超时，请检查网络连接或稍后重试"
  const ConnectionMessage := "网络连接失败，请检查网络设置"
  const FailurePrefix := "API请求失败: "

  /** `raise_for_status()` raises for client and server error codes. */
  predicate IsHttpError(status: int) { 400 <= status < 600 }

  /** The outcome shared by both clients apart from HTTP errors. */
  function Transported(reply: Reply, httpError: (int, string) -> string): (r: Res<Json>)
  {
    match reply
    case TimedOut => Err(Exc(Exception, TimeoutMessage))
    case ConnectionFailed => Err(Exc(Exception, ConnectionMessage))
    case Failed(detail) => Err(Exc(Exception, FailurePrefix + detail))
    case Responded(status, text, parsed) =>
      if IsHttpError(status) then Err(Exc(Exception, httpError(status, text)))
      else match parsed
        case Ok(j) => Ok(j)
        case Err(detail) => Err(Exc(Exception, FailurePrefix + detail))
  }

  /** The base and Jimeng clients: an HTTP error raises the response text.
      The attempt to raise the decoded JSON instead is itself inside the
      `try` whose bare `except` catches it, so it always ends in the text. */
  function RawText(status: int, text: string): string { text }

  function Outcome(reply: Reply): Res<Json> {
    Transported(reply, RawText)
  }

  /** The audio-driven client's messages for HTTP errors. */
  function StatusMessage(status: int): string {
    if status == 401 then "认证失败，请检查AccessKey和SecretKey是否正确"
    else if status == 403 then "权限不足，请检查账号是否有相应权限"
    else if status == 429 then "请求过于频繁，请稍后重试"
    else if status >= 500 then "服务器内部错误，请稍后重试"
    else "HTTP请求失败: " + Decimal(status)
  }

  function StatusText(status: int, text: string): string { StatusMessage(status) }

  function LegacyOutcome(reply: Reply): Res<Json> {
    Transported(reply, StatusText)
  }

  /** A call returns normally exactly when a non-error response decoded as
      JSON, and then returns that JSON; the two clients differ only in the
      message of an HTTP error. */
  lemma OutcomeReturnsDecodedJson(reply: Reply)
    ensures Outcome(reply).Ok? <==> reply.Responded? && !IsHttpError(reply.status) && reply.parsed.Ok?
    ensures Outcome(reply).Ok? ==> Outcome(reply).value == reply.parsed.value
    ensures LegacyOutcome(reply).Ok? <==> Outcome(reply).Ok?
    ensures !(reply.Responded? && IsHttpError(reply.status)) ==> LegacyOutcome(reply) == Outcome(reply)
  {
  }

  /** The base client surfaces the raw response text of every HTTP error,
      whatever the body decodes to. */
  lemma HttpErrorIsRawText(status: int, text: string, parsed: Result<Json, string>)
    requires IsHttpError(status)
    ensures Outcome(Responded(status, text, parsed)) == Err(Exc(Exception, text))
  {
  }

  const GenericPrefix := "HTTP请求失败: "

  /** The audio-driven client's HTTP error messages tell 401, 403, 429 and
      the server errors apart, and name any other code. */
  lemma StatusMessagesDistinct(s1: int, s2: int)
    requires IsHttpError(s1) && IsHttpError(s2)
    ensures StatusMessage(s1) == StatusMessage(s2) <==> s1 == s2 || (s1 >= 500 && s2 >= 500)
  {
    var m1 := StatusMessage(s1);
    var m2 := StatusMessage(s2);
    var g1 := s1 < 500 && s1 != 401 && s1 != 403 && s1 != 429;
    var g2 := s2 < 500 && s2 != 401 && s2 != 403 && s2 != 429;
    assert g1 ==> m1 == GenericPrefix + Decimal(s1) && m1[0] == 'H';
    assert g2 ==> m2 == GenericPrefix + Decimal(s2) && m2[0] == 'H';
    if g1 && g2 && m1 == m2 {
      assert Decimal(s1) == m1[|GenericPrefix|..] && Decimal(s2) == m2[|GenericPrefix|..];
      DecimalInjective(s1, s2);
    }
  }

  // ----------------------------------------------------------- validation

  /** `_validate_image_url`, `_validate_video_url`, `_validate_audio_url`. */
  datatype Media = Image | Video | Audio

  function BadUrlMessage(m: Media): string {
    match m
    case Image => "图片URL格式不正确"
    case Video => "视频URL格式不正确"
    case Audio => "音频URL格式不正确"
  }

  function CheckUrl(url: string, m: Media): (r: Res<()>)
    ensures r.Ok? <==> Utils.ValidateUrl(url)
    ensures r.Err? ==> r.error == Exc(ValueError, BadUrlMessage(m))
  {
    if Utils.ValidateUrl(url) then Ok(()) else Err(Exc(ValueError, BadUrlMessage(m)))
  }
}

=== FILE: signer.dfy ===
/** The HMAC-SHA256 request signature of the VolcEngine visual API: the
    canonical request, the credential scope `date/region/service/request`,
    the string to sign, the derived signing key and the `Authorization`
    header. The hash and MAC primitives are parameters. */
module Signer {
  import opened Wrappers
  import opened Text
  import opened Canonical

  /** `hashlib.sha256(s).hexdigest()`, `hmac.new(key, msg, sha256).digest()`
      and `.hexdigest()` of such a digest. */
  datatype Crypto = Crypto(sha256Hex: string -> string, hmac: (string, string) -> string, hex: string -> string)

  const Algorithm := "HMAC-SHA256"
  const Region := "cn-north-1"
  const Service := "cv"

  // ---------------------------------------------------------------- clock

  /** A reading of `datetime.utcnow()` to the second. */
  datatype DateTime = DateTime(year: nat, month: nat, day: nat, hour: nat, minute: nat, second: nat)

  predicate ValidTime(t: DateTime) {
    && 1000 <= t.year <= 9999
    && 1 <= t.month <= 12
    && 1 <= t.day <= 31
    && t.hour < 24
    && t.minute < 60
    && t.second < 60
  }

  function Pad2(n: nat): (r: string)
    requires n < 100
    ensures |r| == 2 && '0' <= r[0] <= '9' && '0' <= r[1] <= '9'
  {
    [DigitChar(n / 10), DigitChar(n % 10)]
  }

  function Pad4(n: nat): (r: string)
    requires n < 10000
    ensures |r| == 4
  {
    Pad2(n / 100) + Pad2(n % 100)
  }

  /** `now.strftime('%Y%m%d')`. */
  function DateStamp(t: DateTime): (r: string)
    requires ValidTime(t)
    ensures |r| == 8 && forall i :: 0 <= i < 8 ==> '0' <= r[i] <= '9'
  {
    Pad4(t.year) + Pad2(t.month) + Pad2(t.day)
  }

  /** `now.strftime('%Y%m%dT%H%M%SZ')`. */
  function Timestamp(t: DateTime): (r: string)
    requires ValidTime(t)
    ensures |r| == 16
  {
    DateStamp(t) + "T" + Pad2(t.hour) + Pad2(t.minute) + Pad2(t.second) + "Z"
  }

  function DigitValue(c: char): int { c as int - '0' as int }

  function Read2(s: string): int
    requires |s| == 2
  {
    DigitValue(s[0]) * 10 + DigitValue(s[1])
  }

  /** Reads a `%Y%m%dT%H%M%SZ` stamp back; the independent reference the
      rendering is checked against. */
  function ParseTimestamp(s: string): (r: Option<DateTime>)
  {
    if |s| != 16 || s[8] != 'T' || s[15] != 'Z' then None
    else
      var year := Read2(s[0..2]) * 100 + Read2(s[2..4]);
      var month := Read2(s[4..6]);
      var day := Read2(s[6..8]);
      var hour := Read2(s[9..11]);
      var minute := Read2(s[11..13]);
      var second := Read2(s[13..15]);
      if year < 0 || month < 0 || day < 0 || hour < 0 || minute < 0 || second < 0 then None
      else Some(DateTime(year, month, day, hour, minute, second))
  }

  lemma Pad2Reads(n: nat)
    requires n < 100
    ensures Read2(Pad2(n)) == n
  {
    var p := Pad2(n);
    assert DigitValue(DigitChar(n / 10)) == n / 10;
    assert DigitValue(DigitChar(n % 10)) == n % 10;
  }

  /** The timestamp reads back as the clock reading it was made from, and
      its first eight characters are the date stamp of the same reading. */
  lemma TimestampRoundTrip(t: DateTime)
    requires ValidTime(t)
    ensures ParseTimestamp(Timestamp(t)) == Some(t)
    ensures Timestamp(t)[..8] == DateStamp(t)
  {
    var s := Timestamp(t);
    TimestampFields(t);
    var century, rest := t.year / 100, t.year % 100;
    Pad2Reads(century);
    Pad2Reads(rest);
    Pad2Reads(t.month);
    Pad2Reads(t.day);
    Pad2Reads(t.hour);
    Pad2Reads(t.minute);
    Pad2Reads(t.second);
    assert Read2(s[0..2]) == century && Read2(s[2..4]) == rest;
    assert century * 100 + rest == t.year;
    assert Read2(s[4..6]) == t.month && Read2(s[6..8]) == t.day;
    assert Read2(s[9..11]) == t.hour && Read2(s[11..13]) == t.minute && Read2(s[13..15]) == t.second;
    ParseReads(s, t);
  }

  /** A stamp whose two-digit groups read as the fields of `t` parses as `t`. */
  lemma ParseReads(s: string, t: DateTime)
    requires |s| == 16 && s[8] == 'T' && s[15] == 'Z'
    requires Read2(s[0..2]) * 100 + Read2(s[2..4]) == t.year
    requires Read2(s[4..6]) == t.month && Read2(s[6..8]) == t.day
    requires Read2(s[9..11]) == t.hour && Read2(s[11..13]) == t.minute && Read2(s[13..15]) == t.second
    ensures ParseTimestamp(s) == Some(t)
  {
  }

  /** Where each field sits in the timestamp. */
  lemma TimestampFields(t: DateTime)
    requires ValidTime(t)
    ensures var s := Timestamp(t);
      && s[..8] == DateStamp(t) && s[8] == 'T' && s[15] == 'Z'
      && s[0..2] == Pad2(t.year / 100) && s[2..4] == Pad2(t.year % 100)
      && s[4..6] == Pad2(t.month) && s[6..8] == Pad2(t.day)
      && s[9..11] == Pad2(t.hour) && s[11..13] == Pad2(t.minute) && s[13..15] == Pad2(t.second)
  {
  }

  // -------------------------------------------------------------- signing

  datatype Credentials = Credentials(accessKey: string, secretKey: string)

  datatype Signature = Signature(signature: string, authorization: string)

  function CanonicalRequest(verb: string, uri: string, query: string, headers: Headers, bodyDigest: string): string {
    var forms := CanonicalHeaders(headers);
    verb + "\n" + uri + "\n" + CanonicalQuery(query) + "\n" + forms.block + "\n" + forms.signed + "\n" + bodyDigest
  }

  /** `{date}/{region}/{service}/request`. */
  function CredentialScope(date: string): string {
    (date + "/") + (Region + "/" + Service + "/request")
  }

  function StringToSign(timestamp: string, scope: string, requestDigest: string): string {
    Algorithm + "\n" + timestamp + "\n" + scope + "\n" + requestDigest
  }

  /** The key chain `secret -> date -> region -> service -> "request"`. */
  function SigningKey(secret: string, date: string, c: Crypto): string {
    var kDate := c.hmac(secret, date);
    var kRegion := c.hmac(kDate, Region);
    var kService := c.hmac(kRegion, Service);
    c.hmac(kService, "request")
  }

  /** The `Authorization` header value. */
  function Authorization(accessKey: string, scope: string, signed: string, signature: string): string {
    (Algorithm + " Credential=" + accessKey + "/") + scope + ((", SignedHeaders=" + signed) + (", Signature=" + signature))
  }

  /** `_generate_signature` with the clock reading `now` it takes. */
  function Sign(cred: Credentials, verb: string, uri: string, query: string, headers: Headers, body: string,
                now: DateTime, c: Crypto): (s: Signature)
    requires ValidTime(now)
  {
    var date := DateStamp(now);
    var scope := CredentialScope(date);
    var request := CanonicalRequest(verb, uri, query, headers, c.sha256Hex(body));
    var toSign := StringToSign(Timestamp(now), scope, c.sha256Hex(request));
    var signature := c.hex(c.hmac(SigningKey(cred.secretKey, date, c), toSign));
    Signature(signature, Authorization(cred.accessKey, scope, CanonicalHeaders(headers).signed, signature))
  }

  /** The body enters the signature only through its SHA-256 digest: two
      bodies with the same digest are signed alike. */
  lemma SignatureSeesBodyDigestOnly(cred: Credentials, verb: string, uri: string, query: string, headers: Headers,
                                    b1: string, b2: string, now: DateTime, c: Crypto)
    requires ValidTime(now)
    requires c.sha256Hex(b1) == c.sha256Hex(b2)
    ensures Sign(cred, verb, uri, query, headers, b1, now, c) == Sign(cred, verb, uri, query, headers, b2, now, c)
  {
  }

  ghost predicate Injective(f: string -> string) {
    forall a, b {:trigger f(a), f(b)} :: f(a) == f(b) ==> a == b
  }

  /** HMAC with a fixed key tells messages apart. */
  ghost predicate MessageInjective(f: (string, string) -> string) {
    forall k, a, b {:trigger f(k, a), f(k, b)} :: f(k, a) == f(k, b) ==> a == b
  }

  /** With collision-free primitives, changing the body changes the
      signature: the body digest is the last line of the canonical request,
      whose digest is the last line of the string to sign. */
  lemma SignatureSensitiveToBody(cred: Credentials, verb: string, uri: string, query: string, headers: Headers,
                                 b1: string, b2: string, now: DateTime, c: Crypto)
    requires ValidTime(now)
    requires Injective(c.sha256Hex) && Injective(c.hex) && MessageInjective(c.hmac)
    requires b1 != b2
    ensures Sign(cred, verb, uri, query, headers, b1, now, c).signature
         != Sign(cred, verb, uri, query, headers, b2, now, c).signature
  {
    var date := DateStamp(now);
    var key := SigningKey(cred.secretKey, date, c);
    var d1 := c.sha256Hex(b1);
    var d2 := c.sha256Hex(b2);
    var pre := verb + "\n" + uri + "\n" + CanonicalQuery(query) + "\n" + CanonicalHeaders(headers).block + "\n"
      + CanonicalHeaders(headers).signed + "\n";
    var r1 := CanonicalRequest(verb, uri, query, headers, d1);
    var r2 := CanonicalRequest(verb, uri, query, headers, d2);
    assert r1 == pre + d1 && r2 == pre + d2;
    assert d1 != d2;
    assert d1 == r1[|pre|..] && d2 == r2[|pre|..];
    var spre := Algorithm + "\n" + Timestamp(now) + "\n" + CredentialScope(date) + "\n";
    var s1 := StringToSign(Timestamp(now), CredentialScope(date), c.sha256Hex(r1));
    var s2 := StringToSign(Timestamp(now), CredentialScope(date), c.sha256Hex(r2));
    assert s1 == spre + c.sha256Hex(r1) && s2 == spre + c.sha256Hex(r2);
    assert c.sha256Hex(r1) != c.sha256Hex(r2);
    assert c.sha256Hex(r1) == s1[|spre|..] && c.sha256Hex(r2) == s2[|spre|..];
    assert c.hmac(key, s1) != c.hmac(key, s2);
  }

  lemma JoinFour(a: string, b: string, c: string, d: string, sep: string)
    ensures Join([a, b, c, d], sep) == a + sep + b + sep + c + sep + d
  {
    assert [a, b, c, d][1..] == [b, c, d];
    assert [b, c, d][1..] == [c, d];
    assert [c, d][1..] == [d];
    assert Join([c, d], sep) == c + sep + d;
    assert Join([b, c, d], sep) == b + sep + (c + sep + d);
    assert Join([a, b, c, d], sep) == a + sep + (b + sep + (c + sep + d));
  }

  /** Four newline-free lines joined by newlines split back into them. */
  lemma SplitFourLines(a: string, b: string, c: string, d: string)
    requires '\n' !in a && '\n' !in b && '\n' !in c && '\n' !in d
    ensures Split(a + "\n" + b + "\n" + c + "\n" + d, '\n') == [a, b, c, d]
  {
    JoinFour(a, b, c, d, "\n");
    SplitJoin([a, b, c, d], '\n');
  }

  lemma ConstantsSingleLine()
    ensures '\n' !in Algorithm && '\n' !in Region && '\n' !in Service && '\n' !in "/request"
  {
  }

  lemma TimestampSingleLine(t: DateTime)
    requires ValidTime(t)
    ensures '\n' !in Timestamp(t) && '\n' !in DateStamp(t)
  {
    var ts := Timestamp(t);
    assert ts == DateStamp(t) + "T" + Pad2(t.hour) + Pad2(t.minute) + Pad2(t.second) + "Z";
    assert forall i :: 0 <= i < |ts| ==> ts[i] != '\n';
  }

  /** The string to sign carries the timestamp and the credential scope of
      one clock reading: its lines are the algorithm, the full timestamp,
      the scope, and the canonical request's digest, and the scope starts
      with the timestamp's date. */
  lemma StringToSignLayout(now: DateTime, requestDigest: string)
    requires ValidTime(now)
    requires '\n' !in requestDigest
    ensures var ts := Timestamp(now);
      var scope := CredentialScope(DateStamp(now));
      && Split(StringToSign(ts, scope, requestDigest), '\n') == [Algorithm, ts, scope, requestDigest]
      && scope[..8] == ts[..8]
  {
    var ts := Timestamp(now);
    var date := DateStamp(now);
    var scope := CredentialScope(date);
    TimestampRoundTrip(now);
    TimestampSingleLine(now);
    ConstantsSingleLine();
    assert '\n' !in scope by {
      assert scope == date + "/" + Region + "/" + Service + "/request";
    }
    SplitFourLines(Algorithm, ts, scope, requestDigest);
    assert scope[..8] == date;
  }

  lemma PrefixThrough(q: string, s: string, y: string, rest: string)
    requires StartsWith(s, y)
    ensures StartsWith(q + s + rest, q + y)
  {
    assert (q + s + rest)[..|q + y|] == q + s[..|y|];
  }

  lemma SuffixThrough(a: string, r: string, z: string)
    requires EndsWith(r, z)
    ensures EndsWith(a + r, z)
  {
    assert (a + r)[|a + r| - |z|..] == r[|r| - |z|..];
  }

  /** The `Authorization` header names the access key and the credential
      scope of the signing date, and ends with the signature it carries. */
  lemma AuthorizationCarriesScope(cred: Credentials, verb: string, uri: string, query: string, headers: Headers,
                                  body: string, now: DateTime, c: Crypto)
    requires ValidTime(now)
    ensures var s := Sign(cred, verb, uri, query, headers, body, now, c);
      && StartsWith(s.authorization, (Algorithm + " Credential=" + cred.accessKey + "/") + (DateStamp(now) + "/"))
      && EndsWith(s.authorization, ", Signature=" + s.signature)
  {
    var s := Sign(cred, verb, uri, query, headers, body, now, c);
    var q := Algorithm + " Credential=" + cred.accessKey + "/";
    var date := DateStamp(now);
    var scope := CredentialScope(date);
    var tail := (", SignedHeaders=" + CanonicalHeaders(headers).signed) + (", Signature=" + s.signature);
    assert s.authorization == q + scope + tail;
    assert StartsWith(scope, date + "/");
    PrefixThrough(q, scope, date + "/", tail);
    assert EndsWith(tail, ", Signature=" + s.signature);
    SuffixThrough(q + scope, tail, ", Signature=" + s.signature);
  }
}

=== FILE: sorting.dfy ===
/** Python's `sorted` on a list whose order is fixed by a string key
    (`sorted(params)` on strings, `sorted(d.items())` on a dict with distinct
    keys). Modelled as a stable insertion sort. */
module Sorting {
  import opened Text

  ghost predicate SortedBy<T>(xs: seq<T>, key: T -> string) {
    forall i, j :: 0 <= i < j < |xs| ==> Le(key(xs[i]), key(xs[j]))
  }

  function Insert<T>(x: T, xs: seq<T>, key: T -> string): (r: seq<T>)
    requires SortedBy(xs, key)
    ensures SortedBy(r, key)
    ensures multiset(r) == multiset(xs) + multiset{x}
    ensures |r| == |xs| + 1
    decreases |xs|
  {
    if |xs| == 0 then [x]
    else if Le(key(x), key(xs[0])) then
      assert forall j :: 0 < j < |xs| ==> Le(key(xs[0]), key(xs[j]));
      forall j | 0 < j < |xs| ensures Le(key(x), key(xs[j])) {
        LeTransitive(key(x), key(xs[0]), key(xs[j]));
      }
      [x] + xs
    else
      LeTotal(key(x), key(xs[0]));
      var rest := Insert(x, xs[1..], key);
      assert xs == [xs[0]] + xs[1..];
      assert forall y :: y in multiset(rest) ==> y == x || y in multiset(xs[1..]);
      forall j | 0 <= j < |rest| ensures Le(key(xs[0]), key(rest[j])) {
        assert rest[j] in multiset(rest);
        if rest[j] == x {
        } else {
          assert rest[j] in multiset(xs[1..]);
          var k :| 0 <= k < |xs[1..]| && xs[1..][k] == rest[j];
          assert xs[k + 1] == rest[j];
        }
      }
      [xs[0]] + rest
  }

  /** The list in ascending key order: a sorted permutation of `xs`. */
  function Sort<T>(xs: seq<T>, key: T -> string): (r: seq<T>)
    ensures SortedBy(r, key)
    ensures multiset(r) == multiset(xs)
    ensures |r| == |xs|
    decreases |xs|
  {
    if |xs| == 0 then []
    else
      assert xs == [xs[0]] + xs[1..];
      Insert(xs[0], Sort(xs[1..], key), key)
  }

  /** Sorting an already sorted list changes nothing. */
  lemma {:induction false} SortOfSorted<T>(xs: seq<T>, key: T -> string)
    requires SortedBy(xs, key)
    ensures Sort(xs, key) == xs
    decreases |xs|
  {
    if |xs| > 0 {
      assert SortedBy(xs[1..], key) by {
        forall i, j | 0 <= i < j < |xs[1..]| ensures Le(key(xs[1..][i]), key(xs[1..][j])) {
          assert xs[1..][i] == xs[i + 1] && xs[1..][j] == xs[j + 1];
        }
      }
      SortOfSorted(xs[1..], key);
      if |xs| > 1 {
        assert Le(key(xs[0]), key(xs[1]));
      }
      assert [xs[0]] + xs[1..] == xs;
    }
  }

  function Identity(s: string): string { s }
}

=== FILE: tasks.dfy ===
/** The response-handling steps the feature clients share: reading the task
    id out of a submit response, reading a task's state out of a result
    query (the `resp_data` JSON string inside `data`), and the small
    dict-building helpers. A `response` parameter is what `_make_request`
    returned, or raised, for the call the matching `...Call` function builds. */
module Tasks {
  import opened Wrappers
  import opened Text
  import opened Dicts
  import opened Py

  /** The `code` of a successful API response. */
  const SuccessCode := 10000

  /** The `@retry` arguments every decorated submit uses. */
  const MaxRetries := 3
  const RetryDelay := 2

  const UnknownError := "未知错误"

  /** `d.get(k)` on a value already known to be a dict. */
  function Field(d: PyDict, k: string): Json {
    GetOr(d, k, Null)
  }

  /** The response reports success: `response.get("code") == 10000`. */
  predicate Succeeded(d: PyDict) {
    EqInt(Field(d, "code"), SuccessCode)
  }

  /** `json.loads(x)` of a field: only a string can be parsed. */
  function Loads(x: Json, codec: Codec): (r: Res<Json>)
    ensures r.Ok? <==> x.Str? && codec.loads(x.s).Some?
    ensures r.Ok? ==> r.value == codec.loads(x.s).value
  {
    if !x.Str? then Err(Exc(TypeError, "the JSON object must be str, bytes or bytearray, not " + TypeName(x)))
    else match codec.loads(x.s)
      case Some(v) => Ok(v)
      case None => Err(Exc(ValueError, "Expecting value"))
  }

  /** The submit step: a response whose code is not 10000 raises
      `failure` followed by its `message` (or the unknown-error text);
      otherwise the result is `response["data"]["task_id"]`. */
  function Submitted(response: Json, failure: string, codec: Codec): (r: Res<Json>)
    ensures r.Ok? <==>
      && response.Obj? && Succeeded(response.fields)
      && Index(response, "data").Ok? && Index(Index(response, "data").value, "task_id").Ok?
    ensures r.Ok? ==> r.value == Get(Get(response.fields, "data").value.fields, "task_id").value
    ensures response.Obj? && !Succeeded(response.fields) ==>
      r == Err(Exc(Exception, failure + PyStr(GetOr(response.fields, "message", Str(UnknownError)), codec)))
  {
    match response
    case Obj(f) =>
      if !Succeeded(f) then Err(Exc(Exception, failure + PyStr(GetOr(f, "message", Str(UnknownError)), codec)))
      else
        var data :- Index(response, "data");
        Index(data, "task_id")
    case _ => Err(NoAttribute(response))
  }

  /** A running task's answer: `{"status": s, "message": "任务状态: s"}`. */
  function StatusReport(status: Json, codec: Codec): Json {
    Obj([("status", status), ("message", Str("任务状态: " + PyStr(status, codec)))])
  }

  /** The body of a result query's `try`: a response whose code is not
      10000 raises `wrap` and the response text; a task that is `done`
      has its `resp_data` parsed, and is handed to `onDone` when that
      reports code 0 or raises `failure` and its `msg` otherwise; any other
      status is reported back. */
  function QueryBody(response: Res<Json>, wrap: string, failure: string,
                     onDone: (PyDict, PyDict) -> Res<Json>, codec: Codec): Res<Json>
  {
    var r :- response;
    match r
    case Obj(f) =>
      if !Succeeded(f) then Err(Exc(Exception, wrap + codec.show(r)))
      else
        var data :- Index(r, "data");
        var status :- Index(data, "status");
        if status == Str("done") then
          var raw :- Index(data, "resp_data");
          var parsed :- Loads(raw, codec);
          match parsed
          case Obj(g) =>
            if EqInt(Field(g, "code"), 0) then onDone(data.fields, g)
            else Err(Exc(Exception, failure + PyStr(GetOr(g, "msg", Str(UnknownError)), codec)))
          case _ => Err(NoAttribute(parsed))
        else Ok(StatusReport(status, codec))
    case _ => Err(NoAttribute(r))
  }

  /** A result query: every exception raised inside is re-raised as
      `wrap` followed by its text. */
  function Queried(response: Res<Json>, wrap: string, failure: string,
                   onDone: (PyDict, PyDict) -> Res<Json>, codec: Codec): (r: Res<Json>)
    ensures r.Err? ==> r.error.kind == Exception && StartsWith(r.error.msg, wrap)
  {
    match QueryBody(response, wrap, failure, onDone, codec)
    case Ok(v) => Ok(v)
    case Err(e) => Err(Exc(Exception, wrap + e.msg))
  }

  /** What a result query hands back: the `done` branch's value, built from
      the task's `data` and parsed `resp_data` of a successful response, or
      the status report of a task that is not `done`. */
  lemma QueriedShape(response: Res<Json>, wrap: string, failure: string,
                     onDone: (PyDict, PyDict) -> Res<Json>, codec: Codec)
    ensures var r := Queried(response, wrap, failure, onDone, codec);
      r.Ok? ==>
        && response.Ok? && response.value.Obj? && Succeeded(response.value.fields)
        && var data := Get(response.value.fields, "data").value;
        && data.Obj? && HasKey(data.fields, "status")
        && var status := Get(data.fields, "status").value;
        if status == Str("done") then
          && Loads(Field(data.fields, "resp_data"), codec).Ok?
          && var parsed := Loads(Field(data.fields, "resp_data"), codec).value;
          && parsed.Obj? && EqInt(Field(parsed.fields, "code"), 0)
          && r == onDone(data.fields, parsed.fields)
        else r.value == StatusReport(status, codec)
  {
  }

  /** A query answer that reports the task `done`. */
  predicate ReportsDone(r: Res<Json>) {
    r.Ok? && r.value.Obj? && FieldIs(r.value.fields, "status", "done")
  }

  /** A status report of a task that is not `done`. */
  predicate IsStatusReport(r: Json, codec: Codec) {
    r.Obj? && |r.fields| == 2 && r.fields[0].0 == "status" && r.fields[0].1 != Str("done")
    && r == StatusReport(r.fields[0].1, codec)
  }

  /** Whatever a result query returns is either the status report of an
      unfinished task or a value of the `done` branch, so any property all
      `done` values share holds of it. */
  lemma QueriedForms(response: Res<Json>, wrap: string, failure: string,
                     onDone: (PyDict, PyDict) -> Res<Json>, codec: Codec, done: Json -> bool)
    requires forall d, p :: onDone(d, p).Ok? ==> done(onDone(d, p).value)
    ensures var r := Queried(response, wrap, failure, onDone, codec);
      r.Ok? ==> done(r.value) || IsStatusReport(r.value, codec)
  {
    QueriedShape(response, wrap, failure, onDone, codec);
  }

  /** A status report carries only `status` and `message`. */
  lemma StatusReportKeys(status: Json, codec: Codec, k: string)
    ensures HasKey(StatusReport(status, codec).fields, k) <==> k == "status" || k == "message"
    ensures Get(StatusReport(status, codec).fields, "status") == Some(status)
  {
    assert Keys(StatusReport(status, codec).fields) == ["status", "message"];
  }

  /** `if x and "VideoMeta" in x: x["VideoMeta"]`: only a dict holding the
      key yields a value; a list or string that contains it, or a truthy
      number, raises. */
  function VideoMeta(x: Json): (r: Res<Option<Json>>)
    ensures r == Ok(None) || r.Err? || (x.Obj? && r == Ok(Get(x.fields, "VideoMeta")) && r.value.Some?)
    ensures !Truthy(x) ==> r == Ok(None)
    ensures x.Obj? ==> r == Ok(Get(x.fields, "VideoMeta"))
    ensures x.Arr? && Truthy(x) ==> (r.Err? <==> Str("VideoMeta") in x.items) && (r.Ok? ==> r == Ok(None))
    ensures x.Str? && Truthy(x) ==> (r.Err? <==> Contains(x.s, "VideoMeta")) && (r.Ok? ==> r == Ok(None))
    ensures r.Err? ==> r.error.kind == TypeError
  {
    if !Truthy(x) then Ok(None)
    else match x
      case Obj(f) => Ok(Get(f, "VideoMeta"))
      case Arr(items) =>
        if Str("VideoMeta") in items then Err(StrIndexError(x))
        else Ok(None)
      case Str(s) =>
        if Contains(s, "VideoMeta") then Err(StrIndexError(x))
        else Ok(None)
      case _ => Err(Exc(TypeError, "argument of type '" + TypeName(x) + "' is not iterable"))
  }

  /** `x[0]` of a truthy value: the first item of a list or first character
      of a string; a dict has no key `0` and a number is not subscriptable. */
  function First(x: Json): (r: Res<Json>)
    requires Truthy(x)
    ensures x.Arr? ==> r == Ok(x.items[0])
  {
    match x
    case Arr(items) => Ok(items[0])
    case Str(s) => Ok(Str([s[0]]))
    case Obj(_) => Err(Exc(KeyError, "0"))
    case _ => Err(NotSubscriptable(x))
  }

  /** `if k in kwargs and enabled: d[k] = kwargs[k]`. */
  function CopyIf(d: PyDict, kwargs: PyDict, k: string, enabled: bool): (r: PyDict)
    ensures forall k' :: Get(r, k') == if enabled && HasKey(kwargs, k) && k' == k then Get(kwargs, k) else Get(d, k')
  {
    if enabled && HasKey(kwargs, k) then
      var v := Get(kwargs, k).value;
      forall k' ensures Get(Set(d, k, v), k') == if k' == k then Some(v) else Get(d, k') {
        GetSet(d, k, v, k');
      }
      Set(d, k, v)
    else d
  }

  /** `if enabled: d[k] = v`. */
  function SetWhen(d: PyDict, k: string, v: Json, enabled: bool): (r: PyDict)
    ensures forall k' :: Get(r, k') == if enabled && k' == k then Some(v) else Get(d, k')
  {
    if enabled then
      forall k' ensures Get(Set(d, k, v), k') == if k' == k then Some(v) else Get(d, k') {
        GetSet(d, k, v, k');
      }
      Set(d, k, v)
    else d
  }

  /** `d[k] = v` for a key `d` does not hold yet, when `v` is given. */
  function Appended(d: PyDict, k: string, v: Option<Json>): (r: PyDict)
    ensures forall k' :: k' != k ==> Get(r, k') == Get(d, k')
    ensures !HasKey(d, k) ==> Get(r, k) == v
  {
    if v.Some? then
      forall k' ensures Get(d + [(k, v.value)], k') == if HasKey(d, k') then Get(d, k') else Get([(k, v.value)], k') {
        GetAppend(d, [(k, v.value)], k');
      }
      d + [(k, v.value)]
    else d
  }

  /** `data["req_json"]`-style optional field: `d[k] = v` only when `v` is truthy. */
  function SetIfTruthy(d: PyDict, k: string, v: Json): (r: PyDict)
    ensures forall k' :: Get(r, k') == if Truthy(v) && k' == k then Some(v) else Get(d, k')
  {
    if Truthy(v) then
      forall k' ensures Get(Set(d, k, v), k') == if k' == k then Some(v) else Get(d, k') {
        GetSet(d, k, v, k');
      }
      Set(d, k, v)
    else d
  }
}

=== FILE: text.dfy ===
/** The Python `str` operations the clients rely on: `strip`, `lower`,
    `startswith`, `in`, `split`, `join`, `str(int)` and the code-point order
    that `sorted` uses on strings. */
module Text {

  /** Python's `str.isspace()` characters: the ones `str.strip()` removes. */
  predicate IsSpace(c: char) {
    || c == ' ' || c == '\t' || c == '\n' || c == '\r'
    || c == '\U{B}' || c == '\U{C}'
    || ('\U{1C}' <= c <= '\U{1F}')
    || c == '\U{85}' || c == '\U{A0}' || c == '\U{1680}'
    || ('\U{2000}' <= c <= '\U{200A}')
    || c == '\U{2028}' || c == '\U{2029}' || c == '\U{202F}' || c == '\U{205F}' || c == '\U{3000}'
  }

  function StripLeft(s: string): (r: string)
    ensures |r| <= |s| && r == s[|s| - |r|..]
    ensures forall i :: 0 <= i < |s| - |r| ==> IsSpace(s[i])
    ensures |r| > 0 ==> !IsSpace(r[0])
  {
    if |s| > 0 && IsSpace(s[0]) then StripLeft(s[1..]) else s
  }

  function StripRight(s: string): (r: string)
    ensures |r| <= |s| && r == s[..|r|]
    ensures forall i :: |r| <= i < |s| ==> IsSpace(s[i])
    ensures |r| > 0 ==> !IsSpace(r[|r| - 1])
  {
    if |s| > 0 && IsSpace(s[|s| - 1]) then StripRight(s[..|s| - 1]) else s
  }

  /** `str.strip()` with no argument: a string already free of surrounding
      whitespace is returned unchanged. */
  function Strip(s: string): (r: string)
    ensures |r| <= |s|
    ensures |r| > 0 ==> !IsSpace(r[0]) && !IsSpace(r[|r| - 1])
    ensures (|s| == 0 || (!IsSpace(s[0]) && !IsSpace(s[|s| - 1]))) ==> r == s
  {
    StripRight(StripLeft(s))
  }

  /** Stripping only removes characters: whatever the result holds, the
      input held. */
  lemma StripKeeps(s: string, c: char)
    ensures c in Strip(s) ==> c in s
  {
    var l := StripLeft(s);
    assert l == s[|s| - |l|..];
    assert StripRight(l) == l[..|StripRight(l)|];
  }

  function LowerChar(c: char): char {
    if 'A' <= c <= 'Z' then (c as int + 32) as char else c
  }

  /** `str.lower()` restricted to the ASCII letters. */
  function Lower(s: string): (r: string)
    ensures |r| == |s|
    ensures forall i :: 0 <= i < |s| ==> r[i] == LowerChar(s[i])
  {
    seq(|s|, i requires 0 <= i < |s| => LowerChar(s[i]))
  }

  /** Lower-casing creates no character other than a lower-case letter. */
  lemma LowerKeeps(s: string, c: char)
    requires !('a' <= c <= 'z')
    ensures c in Lower(s) ==> c in s
  {
    if c in Lower(s) {
      var i :| 0 <= i < |s| && Lower(s)[i] == c;
      assert s[i] == c;
    }
  }

  predicate StartsWith(s: string, prefix: string) {
    |prefix| <= |s| && s[..|prefix|] == prefix
  }

  predicate EndsWith(s: string, suffix: string) {
    |suffix| <= |s| && s[|s| - |suffix|..] == suffix
  }

  /** `needle in s` for two strings. */
  predicate Contains(s: string, needle: string)
    decreases |s|
  {
    StartsWith(s, needle) || (|s| > 0 && Contains(s[1..], needle))
  }

  lemma {:induction false} ContainsInSuffix(prefix: string, s: string, needle: string)
    requires Contains(s, needle)
    ensures Contains(prefix + s, needle)
    decreases |prefix|
  {
    if |prefix| > 0 {
      ContainsInSuffix(prefix[1..], s, needle);
      assert (prefix + s)[1..] == prefix[1..] + s;
    } else {
      assert prefix + s == s;
    }
  }

  /** A needle whose first character does not occur in `prefix` is found
      in `prefix + s` exactly when it is found in `s`. */
  lemma {:induction false} ContainsPastPrefix(prefix: string, s: string, needle: string)
    requires |needle| > 0 && needle[0] !in prefix
    ensures Contains(prefix + s, needle) <==> Contains(s, needle)
    decreases |prefix|
  {
    if |prefix| > 0 {
      assert (prefix + s)[1..] == prefix[1..] + s;
      assert (prefix + s)[0] == prefix[0];
      ContainsPastPrefix(prefix[1..], s, needle);
    } else {
      assert prefix + s == s;
    }
  }

  /** `s.split(c)` for a one-character separator: always at least one part. */
  function Split(s: string, c: char): (parts: seq<string>)
    ensures |parts| >= 1
    ensures forall i :: 0 <= i < |parts| ==> c !in parts[i]
    decreases |s|
  {
    if |s| == 0 then [""]
    else if s[0] == c then [""] + Split(s[1..], c)
    else
      var p := Split(s[1..], c);
      [[s[0]] + p[0]] + p[1..]
  }

  /** `sep.join(parts)`. */
  function Join(parts: seq<string>, sep: string): string
    decreases |parts|
  {
    if |parts| == 0 then ""
    else if |parts| == 1 then parts[0]
    else parts[0] + sep + Join(parts[1..], sep)
  }

  /** Joining the parts of a split restores the string. */
  lemma {:induction false} JoinSplit(s: string, c: char)
    ensures Join(Split(s, c), [c]) == s
    decreases |s|
  {
    if |s| == 0 {
    } else if s[0] == c {
      JoinSplit(s[1..], c);
      assert s == [c] + s[1..];
    } else {
      JoinSplit(s[1..], c);
      var p := Split(s[1..], c);
      if |p| == 1 {
        assert s == [s[0]] + s[1..];
      } else {
        var q := [[s[0]] + p[0]] + p[1..];
        assert q[1..] == p[1..];
        assert Join(p, [c]) == p[0] + [c] + Join(p[1..], [c]);
        assert s == [s[0]] + s[1..];
      }
    }
  }

  lemma {:induction false} SplitNoSep(p: string, c: char)
    requires c !in p
    ensures Split(p, c) == [p]
    decreases |p|
  {
    if |p| > 0 {
      SplitNoSep(p[1..], c);
      assert [p[0]] + p[1..] == p;
    }
  }

  lemma {:induction false} SplitAtSep(p: string, c: char, rest: string)
    requires c !in p
    ensures Split(p + [c] + rest, c) == [p] + Split(rest, c)
    decreases |p|
  {
    var s := p + [c] + rest;
    if |p| == 0 {
      assert s[1..] == rest;
    } else {
      assert s[1..] == p[1..] + [c] + rest;
      SplitAtSep(p[1..], c, rest);
      assert [p[0]] + p[1..] == p;
    }
  }

  /** `s.split(c, 1)` of a string holding `c`: the text before the first
      `c` and everything after it. */
  function SplitOnce(s: string, c: char): (r: (string, string))
    requires c in s
    ensures s == r.0 + [c] + r.1 && c !in r.0
    decreases |s|
  {
    if s[0] == c then ("", s[1..])
    else
      var rest := SplitOnce(s[1..], c);
      assert s == [s[0]] + s[1..];
      ([s[0]] + rest.0, rest.1)
  }

  /** The first separator is where the text was joined. */
  lemma {:induction false} SplitOnceJoined(a: string, c: char, b: string)
    requires c !in a
    ensures SplitOnce(a + [c] + b, c) == (a, b)
    decreases |a|
  {
    var s := a + [c] + b;
    if |a| == 0 {
      assert s[1..] == b;
    } else {
      assert s[1..] == a[1..] + [c] + b;
      SplitOnceJoined(a[1..], c, b);
      assert [a[0]] + a[1..] == a;
    }
  }

  /** Splitting a join of separator-free parts gives the parts back. */
  lemma {:induction false} SplitJoin(parts: seq<string>, c: char)
    requires |parts| >= 1
    requires forall i :: 0 <= i < |parts| ==> c !in parts[i]
    ensures Split(Join(parts, [c]), c) == parts
    decreases |parts|
  {
    if |parts| == 1 {
      SplitNoSep(parts[0], c);
    } else {
      SplitJoin(parts[1..], c);
      SplitAtSep(parts[0], c, Join(parts[1..], [c]));
      assert [parts[0]] + parts[1..] == parts;
    }
  }

  function JoinedLength(parts: seq<string>): nat
    decreases |parts|
  {
    if |parts| == 0 then 0 else |parts[0]| + JoinedLength(parts[1..])
  }

  lemma {:induction false} JoinLength(parts: seq<string>, sep: string)
    requires |parts| >= 1
    ensures |Join(parts, sep)| == JoinedLength(parts) + (|parts| - 1) * |sep|
    decreases |parts|
  {
    if |parts| > 1 {
      JoinLength(parts[1..], sep);
    }
  }

  function DigitChar(d: nat): (c: char)
    requires d < 10
    ensures '0' <= c <= '9' && c as int - '0' as int == d
  {
    "0123456789"[d]
  }

  function Digits(n: nat): (r: string)
    ensures |r| >= 1
    ensures |r| == 1 <==> n < 10
    ensures forall i :: 0 <= i < |r| ==> '0' <= r[i] <= '9'
    decreases n
  {
    if n < 10 then [DigitChar(n)] else Digits(n / 10) + [DigitChar(n % 10)]
  }

  /** `str(n)` for a Python `int`. */
  function Decimal(n: int): string {
    if n < 0 then "-" + Digits(-n) else Digits(n)
  }

  lemma {:induction false} DigitsInjective(a: nat, b: nat)
    requires Digits(a) == Digits(b)
    ensures a == b
    decreases a
  {
    if a < 10 && b < 10 {
      assert Digits(a)[0] == DigitChar(a) && Digits(b)[0] == DigitChar(b);
    } else if a >= 10 && b >= 10 {
      var pa := Digits(a / 10);
      var pb := Digits(b / 10);
      assert Digits(a) == pa + [DigitChar(a % 10)];
      assert Digits(b) == pb + [DigitChar(b % 10)];
      assert pa == Digits(a)[..|pa|] && pb == Digits(b)[..|pb|];
      DigitsInjective(a / 10, b / 10);
      assert DigitChar(a % 10) == Digits(a)[|pa|] && DigitChar(b % 10) == Digits(b)[|pb|];
    }
  }

  /** Distinct non-negative integers print differently. */
  lemma DecimalInjective(a: int, b: int)
    requires a >= 0 && b >= 0
    requires Decimal(a) == Decimal(b)
    ensures a == b
  {
    DigitsInjective(a, b);
  }

  /** Python's `<=` on `str`: lexicographic by code point. */
  predicate Le(a: string, b: string)
    decreases |a|
  {
    if |a| == 0 then true
    else if |b| == 0 then false
    else if a[0] < b[0] then true
    else if b[0] < a[0] then false
    else Le(a[1..], b[1..])
  }

  lemma {:induction false} LeReflexive(a: string)
    ensures Le(a, a)
    decreases |a|
  {
    if |a| > 0 {
      LeReflexive(a[1..]);
    }
  }

  lemma {:induction false} LeTotal(a: string, b: string)
    ensures Le(a, b) || Le(b, a)
    decreases |a|
  {
    if |a| > 0 && |b| > 0 && a[0] == b[0] {
      LeTotal(a[1..], b[1..]);
    }
  }

  lemma {:induction false} LeAntisymmetric(a: string, b: string)
    requires Le(a, b) && Le(b, a)
    ensures a == b
    decreases |a|
  {
    if |a| > 0 {
      LeAntisymmetric(a[1..], b[1..]);
      assert a == [a[0]] + a[1..] && b == [b[0]] + b[1..];
    }
  }

  lemma {:induction false} LeTransitive(a: string, b: string, c: string)
    requires Le(a, b) && Le(b, c)
    ensures Le(a, c)
    decreases |a|
  {
    if |a| > 0 && |b| > 0 && |c| > 0 && a[0] == b[0] && b[0] == c[0] {
      LeTransitive(a[1..], b[1..], c[1..]);
    }
  }
}

=== FILE: utils.dfy ===
/** The shared helpers: the `retry` decorator, URL and mode validation and
    the per-mode tables of the audio-driven avatar service. */
module Utils {
  import opened Wrappers
  import opened Text
  import opened Py

  // ---------------------------------------------------------------- retry

  /** One run of a decorated call: what the caller sees, how many times the
      wrapped function ran and how many `delay`-second pauses were taken. */
  datatype RetryRun<T> = RetryRun(result: Res<T>, calls: nat, sleeps: nat)

  /** The exception raised by `raise None` when `max_retries` is negative and
      the loop body never runs. */
  const RaiseNone := Exc(TypeError, "exceptions must derive from BaseException")

  /** Attempt `i` raised an exception the decorator catches. */
  predicate RetryableFailure<T>(attempt: nat -> Res<T>, retryable: Exc -> bool, i: nat) {
    attempt(i).Err? && retryable(attempt(i).error)
  }

  /** Attempts `i..maxRetries` of the decorator's loop, given that attempts
      `0..i-1` all failed with a caught exception. */
  function RetryFrom<T>(i: nat, maxRetries: nat, attempt: nat -> Res<T>, retryable: Exc -> bool): (run: RetryRun<T>)
    requires i <= maxRetries
    requires forall j :: 0 <= j < i ==> RetryableFailure(attempt, retryable, j)
    ensures i + 1 <= run.calls <= maxRetries + 1
    ensures run.sleeps == run.calls - 1
    ensures run.result == attempt(run.calls - 1)
    ensures forall j :: 0 <= j < run.calls - 1 ==> RetryableFailure(attempt, retryable, j)
    ensures run.calls - 1 < maxRetries ==> !RetryableFailure(attempt, retryable, run.calls - 1)
    decreases maxRetries - i
  {
    var r := attempt(i);
    if r.Ok? || !retryable(r.error) || i == maxRetries then RetryRun(r, i + 1, i)
    else RetryFrom(i + 1, maxRetries, attempt, retryable)
  }

  /** `@retry(max_retries, delay, exceptions)` applied to a function whose
      `i`-th invocation behaves as `attempt(i)`; `retryable` says which
      exceptions the `exceptions` tuple catches. The first success, or the
      first uncaught exception, ends the loop; after `max_retries + 1` caught
      failures the last exception object is re-raised. A pause follows every
      caught failure except the last one. */
  function Retry<T>(maxRetries: int, attempt: nat -> Res<T>, retryable: Exc -> bool): (run: RetryRun<T>)
    ensures maxRetries < 0 ==> run == RetryRun(Err(RaiseNone), 0, 0)
    ensures maxRetries >= 0 ==>
      && 1 <= run.calls <= maxRetries + 1
      && run.sleeps == run.calls - 1
      && run.result == attempt(run.calls - 1)
      && (forall j :: 0 <= j < run.calls - 1 ==> RetryableFailure(attempt, retryable, j))
      && (run.calls - 1 < maxRetries ==> !RetryableFailure(attempt, retryable, run.calls - 1))
  {
    if maxRetries < 0 then RetryRun(Err(RaiseNone), 0, 0)
    else RetryFrom(0, maxRetries, attempt, retryable)
  }

  /** The decorator only sees what each attempt does: two functions whose
      attempts agree give the same run. */
  lemma {:induction false} RetryFromCongruent<T>(i: nat, maxRetries: nat, a1: nat -> Res<T>, a2: nat -> Res<T>, retryable: Exc -> bool)
    requires i <= maxRetries
    requires forall j :: 0 <= j < i ==> RetryableFailure(a1, retryable, j) && RetryableFailure(a2, retryable, j)
    requires forall j: nat :: a1(j) == a2(j)
    ensures RetryFrom(i, maxRetries, a1, retryable) == RetryFrom(i, maxRetries, a2, retryable)
    decreases maxRetries - i
  {
    var r := a1(i);
    if !(r.Ok? || !retryable(r.error) || i == maxRetries) {
      RetryFromCongruent(i + 1, maxRetries, a1, a2, retryable);
    }
  }

  lemma RetryCongruent<T>(maxRetries: int, a1: nat -> Res<T>, a2: nat -> Res<T>, retryable: Exc -> bool)
    requires forall j: nat :: a1(j) == a2(j)
    ensures Retry(maxRetries, a1, retryable) == Retry(maxRetries, a2, retryable)
  {
    if maxRetries >= 0 {
      RetryFromCongruent(0, maxRetries, a1, a2, retryable);
    }
  }

  /** The default `exceptions=(Exception,)` catches every exception the model raises. */
  function CatchAll(e: Exc): bool { true }

  /** When every attempt fails, the decorated call runs `max_retries + 1`
      times, pauses `max_retries` times and raises the final attempt's error. */
  lemma RetryExhausted<T>(maxRetries: nat, attempt: nat -> Res<T>, retryable: Exc -> bool)
    requires forall j :: 0 <= j <= maxRetries ==> RetryableFailure(attempt, retryable, j)
    ensures Retry(maxRetries, attempt, retryable) == RetryRun(attempt(maxRetries), maxRetries + 1, maxRetries)
  {
    var run := Retry(maxRetries, attempt, retryable);
    var last: nat := run.calls - 1;
    assert last == maxRetries || RetryableFailure(attempt, retryable, last);
  }

  /** An attempt that returns ends the loop at once with that value: if
      attempts `0..k-1` fail with caught exceptions and attempt `k` succeeds,
      the caller gets attempt `k`'s value after `k` pauses. */
  lemma RetrySucceedsAt<T>(maxRetries: nat, attempt: nat -> Res<T>, retryable: Exc -> bool, k: nat)
    requires k <= maxRetries
    requires forall j :: 0 <= j < k ==> RetryableFailure(attempt, retryable, j)
    requires attempt(k).Ok?
    ensures Retry(maxRetries, attempt, retryable) == RetryRun(attempt(k), k + 1, k)
  {
    var run := Retry(maxRetries, attempt, retryable);
    var last: nat := run.calls - 1;
    assert last >= k || RetryableFailure(attempt, retryable, last);
    assert last <= k || RetryableFailure(attempt, retryable, k);
  }

  /** An exception outside the `exceptions` tuple is not retried: it
      propagates from the attempt that raised it, with no pause. */
  lemma RetryStopsOnUncaught<T>(maxRetries: nat, attempt: nat -> Res<T>, retryable: Exc -> bool, k: nat)
    requires k <= maxRetries
    requires forall j :: 0 <= j < k ==> RetryableFailure(attempt, retryable, j)
    requires attempt(k).Err? && !retryable(attempt(k).error)
    ensures Retry(maxRetries, attempt, retryable) == RetryRun(attempt(k), k + 1, k)
  {
    var run := Retry(maxRetries, attempt, retryable);
    var last: nat := run.calls - 1;
    assert last >= k || RetryableFailure(attempt, retryable, last);
    assert last <= k || RetryableFailure(attempt, retryable, k);
  }

  // ------------------------------------------------------ validation, modes

  /** `validate_url`: an `http://` or `https://` URL longer than ten characters. */
  predicate ValidateUrl(url: string) {
    if url == "" then false
    else (StartsWith(url, "http://") || StartsWith(url, "https://")) && |url| > 10
  }

  /** The emptiness test in `validate_url` is subsumed by the scheme test:
      the scheme and length alone decide, and an accepted URL has at least
      four characters after `https://` or three after `http://`. */
  lemma ValidateUrlScheme(url: string)
    ensures ValidateUrl(url) <==> (StartsWith(url, "http://") || StartsWith(url, "https://")) && |url| > 10
    ensures ValidateUrl(url) ==> url[..4] == "http" && |url| >= 11
  {
  }

  const Modes: seq<string> := ["normal", "loopy", "loopyb"]

  /** `validate_mode`. */
  predicate ValidateMode(mode: string) {
    mode in Modes
  }

  const UnknownMode := "未知模式"

  /** `get_mode_description`. */
  function ModeDescription(mode: string): string {
    if mode == "normal" then "普通模式 - 驱动范围：嘴部，支持原图比例输出"
    else if mode == "loopy" then "灵动模式 - 驱动范围：全脸，固定1:1比例输出(512*512)"
    else if mode == "loopyb" then "大画幅灵动模式 - 驱动范围：全脸+身体，支持多种比例输出"
    else UnknownMode
  }

  /** The description table and `validate_mode` agree: exactly the valid
      modes have a description of their own, and no two share one. */
  lemma ModeDescriptionKnownIffValid(mode: string, other: string)
    ensures ModeDescription(mode) != UnknownMode <==> ValidateMode(mode)
    ensures ValidateMode(mode) && ValidateMode(other) && mode != other ==>
      ModeDescription(mode) != ModeDescription(other)
  {
  }

  /** `get_supported_audio_length`, in seconds. */
  function SupportedAudioLength(mode: string): nat {
    if mode == "normal" then 180
    else if mode == "loopy" then 180
    else if mode == "loopyb" then 45
    else 180
  }

  /** Only the large-frame mode shortens the audio limit; every other mode,
      valid or not, allows three minutes. */
  lemma AudioLengthLimits(mode: string)
    ensures SupportedAudioLength(mode) == 45 <==> mode == "loopyb"
    ensures mode != "loopyb" ==> SupportedAudioLength(mode) == 180
    ensures SupportedAudioLength(mode) <= 180
  {
  }

  /** `get_output_resolution(mode, aspect_ratio)`: `None` keeps the source
      image's proportions. A missing or empty ratio is `""`. */
  function OutputResolution(mode: string, aspectRatio: string): (r: Option<(nat, nat)>)
  {
    if mode == "loopyb" && aspectRatio != "" then
      if aspectRatio == "4:3" then Some((768, 576))
      else if aspectRatio == "3:4" then Some((576, 768))
      else if aspectRatio == "16:9" then Some((896, 504))
      else if aspectRatio == "9:16" then Some((504, 896))
      else Some((512, 512))
    else if mode == "loopy" then Some((512, 512))
    else None
  }

  /** The ratios the large-frame mode names. */
  const NamedRatios: seq<(string, nat, nat)> := [("4:3", 4, 3), ("3:4", 3, 4), ("16:9", 16, 9), ("9:16", 9, 16)]

  /** A fixed resolution exists exactly for `loopy` and for `loopyb` with a
      ratio; each named ratio `a:b` yields a frame whose width and height are
      in proportion `a:b`; every other case is the square 512x512 frame. */
  lemma OutputResolutionMatchesRatio(mode: string, aspectRatio: string)
    ensures OutputResolution(mode, aspectRatio).Some? <==>
      (mode == "loopyb" && aspectRatio != "") || mode == "loopy"
    ensures forall i :: 0 <= i < |NamedRatios| && NamedRatios[i].0 == aspectRatio && mode == "loopyb" ==>
      OutputResolution(mode, aspectRatio).value.0 * NamedRatios[i].2
        == OutputResolution(mode, aspectRatio).value.1 * NamedRatios[i].1
    ensures (OutputResolution(mode, aspectRatio).Some? &&
             (mode != "loopyb" || aspectRatio !in ["4:3", "3:4", "16:9", "9:16"])) ==>
      OutputResolution(mode, aspectRatio) == Some((512, 512))
  {
  }
}

=== FILE: wrappers.dfy ===
/** Failure-compatible result types used throughout the model: `Option` for
    Python's `None`-or-value and `Result` for a value-or-raised-exception. */
module Wrappers {

  datatype Option<+T> = None | Some(value: T) {

    function GetOr(default: T): T {
      match this
      case Some(v) => v
      case None => default
    }
  }

  /** `Ok(v)` is a normal return, `Err(e)` a raised exception. Supports `:-`. */
  datatype Result<+T, +E> = Ok(value: T) | Err(error: E) {

    predicate IsFailure() {
      Err?
    }

    function PropagateFailure<U>(): Result<U, E>
      requires Err?
    {
      Err(error)
    }

    function Extract(): T
      requires Ok?
    {
      value
    }
  }
}
